=== FILE: README.md ===
# Import/export reconciliation of a workout tracker, in Dafny

This project models the part of the workout tracker that moves exercises and
workouts between the browser database and files. It also covers the small
date, calendar, unit and workout helpers that this part relies on.

- **Exercise CSV import.** `importExercisesFromCSV` reads a header and then
  `name, description, videoLink` rows. It rejects rows with missing fields
  or blank values. It skips names the catalog already holds, compared
  case-insensitively, and inserts the rest.
- **Workout CSV import, two versions.** The older `csv.ts` importer is the
  `CsvWorkoutImport` module. The refactored `import-export.ts` importer is
  the `ImportExport` module. Both share one row validator (`WorkoutRows`)
  and one grouping of rows into workouts (`WorkoutGrouping`).
  - A row has the ten-column layout, or the legacy six-to-nine-column
    layout.
  - Each row is checked, in the code's order, for its date, its exercise,
    its weight, its unit, its reps, its set number and its duration.
  - Accepted rows are grouped by `date|workoutName`, then by exercise.
  - A workout whose key the database already holds is skipped.
  - Each exercise is built from its sets, sorted stably by set number,
    each set keeping its weight, reps and duration.
  - The two versions differ in where the exercise's id, name and notes
    come from, and in what happens to an unknown exercise.
- **JSON backup import.** `importFromJSON` is the `JsonImport` module.
  - An exercise pass first adds the exercises the catalog does not hold,
    remembering every added name.
  - A workout pass then resolves exercise names against the catalog as it
    stands after that pass.
- **Export.** `exportExercisesToCSV`, `exportWorkoutsToCSV` and
  `escapeCsvValue` are in `CsvExport`, which also holds a reference
  RFC 4180 field reader. Every exported line reads back, through that
  reader, as the values that were written.
- **Helpers.**
  - Weight conversion is `Units`.
  - Local dates are `Dates`. It uses an explicit proleptic Gregorian
    calendar, with JavaScript `Date`'s month/day normalisation and its
    two-digit-year rule.
  - The month grid of the calendar view is `Calendar`.
  - Moving and cloning workouts is `WorkoutOperations`.

## How the model is built

All importers are pure folds. What the code reads from the database at the
start of an import is given as snapshots: the exercise catalog and the
existing workouts. The model has no I/O.

- **Parsed input is given.** An import starts from the rows the CSV parser
  produced, together with its error list (`ParseResult`). The JSON import
  starts from the parsed document (`JsonDocument`).
- **Storage is an oracle.** Whether a database write throws is decided by a
  `Storage` record. `exerciseFault` and `workoutFault` hold the thrown
  message, or nothing. `nextExerciseId` is the first id the database
  assigns.
- **Number parsing is an oracle.** `parseFloat`, `parseInt`, `Number` and
  `String(number)` are parameters.
- **Numbers.** A JavaScript number is `Base.Num`: a finite real, ±Infinity
  or NaN.
- **Results.** Every item's result is an `Outcomes.Outcome`: inserted,
  skipped, or failed with an error. Failures mark whether the code also
  counted the item as skipped. `Outcomes.TallyAll` turns the per-item
  results into the `{ success, skipped, errors }` summary the code returns.
- **Error texts.** `Messages.Message` renders each error with the code's
  exact text.
- **Maps.** JavaScript `Map`s are association lists in insertion order
  (`Assoc`). `new Map(pairs)` keeps the last value for a repeated key
  (`Assoc.LastValueIndex`, `Assoc.LastValueSnoc`).

### Behaviour that follows the code literally

- **Infinite weights.** The weight check rejects only NaN and negative
  values (import-export.ts:282), so `parseFloat("Infinity")` passes it.
  `WorkoutRows.WeightOk` and `NonNegative` model exactly that check.
- **Exercise names differ between the two CSV importers.**
  - `csv.ts` stores the catalog's spelling of the name. It never skips an
    unknown exercise, because the row check already rejected it.
  - `import-export.ts` stores the name as written in the file. It drops
    exercises whose lower-cased name has no id.
  - `ImportExport.NameAsWritten` states the difference.
- **Instructions and notes differ too.**
  - `csv.ts` copies the first set's trimmed instructions and notes as they
    are.
  - `import-export.ts` turns blank text into absent.
- **Some errors do not count as skipped.** In the CSV workout import, an
  error thrown while storing a workout adds an error but does not count
  the workout as skipped. In the JSON import the same error does count as
  skipped. `Outcome.alsoSkipped` records which.
- **Duplicate exercise lines are inserted twice.** The CSV exercise import
  never adds a new name to its duplicate set. The same exercise on two
  lines is therefore inserted twice
  (`ExerciseImport.RepeatedRowInsertedTwice`). The JSON import adds every
  new name, so the second copy is skipped
  (`JsonImport.RepeatedExerciseSkippedOnce`).
- **Blank descriptions do not survive a CSV round trip.** The JSON import
  stores a missing or blank description as the empty string
  (import-export.ts:657). The CSV exercise import rejects a row with a
  blank description (import-export.ts:131-133). Exporting such an exercise
  and importing the file again therefore reports an error
  (`CsvExport.EmptyDescriptionNotReimported`).

## Model

| member | source | states |
|---|---|---|
| Units.LbsToKg | src/lib/utils/units.ts:6-14 | pounds times 0.45359237: zero exactly for zero, never larger than the input for a non-negative weight, negative for negative |
| Units.KgToLbs | src/lib/utils/units.ts:6-21 | kilograms times 2.20462262185: zero exactly for zero, at least twice the input for a non-negative weight |
| Units.ConversionsMonotone | src/lib/utils/units.ts:12-21 | both conversions are strictly increasing |
| Units.RoundTripPoundsKilograms | src/lib/utils/units.ts:6-21 | converting pounds to kilograms and back returns the weight within a relative 1e-12 (the two constants are not exact inverses) |
| Units.ConvertWeightToDisplay | src/lib/utils/units.ts:26-31 | imperial shows pounds, metric shows the stored kilograms unchanged; never less than a non-negative stored value |
| Units.ConvertWeightToStorage | src/lib/utils/units.ts:36-41 | imperial input is converted to kilograms, metric input is stored as is; a non-negative input never grows |
| Units.DisplayThenStore | src/lib/utils/units.ts:26-41 | storing a displayed weight gives back the stored weight: exactly in metric, within 1e-12 relative in imperial |
| Units.GetUnitLabel | src/lib/utils/units.ts:56-58 | the label is "lbs" exactly for imperial and "kg" exactly for metric |
| Units.FormatWeight | src/lib/utils/units.ts:46-51 | the text is the rendered display value, one space, and the unit label |
| Text.Trim | src/lib/utils/import-export.ts:126 | `trim()` never lengthens the text, and its result neither starts nor ends with ECMAScript white space |
| Text.TrimIsSlice | src/lib/utils/import-export.ts:126 | `trim()` only removes white space, and only at the two ends: the result is a contiguous slice of the input |
| Text.TrimEmptyIffAllSpace | src/lib/utils/import-export.ts:126-134 | `!s.trim()` holds exactly when every character is white space |
| Text.TrimIdempotent | src/lib/utils/import-export.ts:143 | trimming a trimmed name changes nothing |
| Text.BlankToUndefined | src/lib/utils/import-export.ts:145 | `s?.trim() \|\| undefined`: absent exactly when the text is absent or blank, otherwise the trimmed, non-blank text |
| Text.TrimLowerCommute | src/lib/utils/import-export.ts:635-637 | lower-casing and trimming commute, so `toLowerCase().trim()` and `trim().toLowerCase()` give the same key |
| Text.LowerIdempotent | src/lib/utils/import-export.ts:184 | lower-casing a lower-cased key changes nothing |
| Text.DecimalValueOfNatToString | src/lib/utils/date.ts:11-14 | `String(n)` of a whole number reads back as that number |
| Text.PadStart2 | src/lib/utils/date.ts:12-13 | `padStart(2, '0')` leaves two-character text alone and left-fills shorter text with zeros to two characters |
| Text.JoinSplit | src/lib/utils/date.ts:35 | splitting on a character and joining with it gives back the text |
| Text.SplitAt | src/lib/utils/date.ts:35 | text before the first separator is the first piece of `split` |
| Outcomes.TallyAll | src/lib/utils/import-export.ts:110-154 | the success counter equals the number of inserted items, the errors are the failures' errors in order, and success plus skipped never exceeds the number of items |
| Outcomes.NoFailures | src/lib/utils/import-export.ts:110-154 | without failures there are no errors and every item is counted once, as success or skipped |
| Outcomes.FailuresSkipped | src/lib/utils/import-export.ts:757-762 | when every failure also counts as skipped, success plus skipped is the number of items |
| Outcomes.InsertedItemsFrom | src/lib/utils/import-export.ts:364-370 | every item reported as inserted came from an insertion outcome |
| Outcomes.EarlyReturn | src/lib/utils/import-export.ts:91-102 | parse errors return one "Parse error at row" message per error and nothing inserted; a file with fewer than two rows returns only "CSV file is empty or has no data rows"; only otherwise does the import go on |
| Messages.InvalidUnitMessage | src/lib/utils/import-export.ts:295 | the invalid-unit error quotes the unit as written |
| Assoc.Push | src/lib/utils/import-export.ts:317-338 | pushing onto a Map of lists appends to the key's list when present, or adds the key last with a one-element list; other keys are untouched and keys stay unique |
| Assoc.GroupAllKeys | src/lib/utils/import-export.ts:317-338 | the keys of a Map built by pushing every pair are the distinct keys in first-seen order |
| Assoc.GroupAllValues | src/lib/utils/import-export.ts:317-338 | each key's list holds exactly the values pushed under that key, in input order |
| Assoc.GroupAllMembers | src/lib/utils/import-export.ts:317-338 | every list is non-empty and holds only pairs that were pushed |
| Assoc.CountGroupAll | src/lib/utils/import-export.ts:317-338 | grouping loses and duplicates no value: the lists hold as many values as were pushed |
| Assoc.LastValue | src/lib/utils/import-export.ts:184-187 | a key built by `new Map(pairs)` is present exactly when some pair has it |
| Assoc.LastValueIndex | src/lib/utils/import-export.ts:184-187 | the value `new Map(pairs).get(k)` returns belongs to a pair with key `k`, and no later pair has that key |
| Assoc.LastValueSnoc | src/lib/utils/import-export.ts:184-187 | a pair added last overrides its key and leaves every other key's value unchanged |
| WorkoutRows.LayoutByColumnCount | src/lib/utils/import-export.ts:240-260 | ten or more fields use the full layout with unit and duration; six to nine use the legacy layout with unit "lb", no duration, and instructions and notes only when present |
| WorkoutRows.LookupExercise | src/lib/utils/import-export.ts:184 | a name is found exactly when some catalog entry matches it case-insensitively, and the entry found is such a match |
| WorkoutRows.LastEntry | src/lib/utils/import-export.ts:184 | the entry found has the lower-cased name looked up, and one is found exactly when some catalog entry has that name |
| WorkoutRows.LastEntrySnoc | src/lib/utils/import-export.ts:184 | with repeated names the map keeps the last catalog entry of that name: an entry added last wins its name and leaves every other name's entry unchanged |
| WorkoutRows.ValidateRow | src/lib/utils/import-export.ts:223-342 | a row is rejected with "Missing required fields" exactly when it has fewer than six fields; every rejection is a row error of its line, and every accepted row is sound |
| WorkoutRows.CheckRow | src/lib/utils/import-export.ts:262-342 | a checked row is rejected with one of the checks' errors, or accepted with a known exercise, an ISO date and checked numbers |
| WorkoutRows.ValidationOrderFirst | src/lib/utils/import-export.ts:262-297 | the date is checked first, then the exercise, then the weight, then the unit; each error is reported exactly when its check is the first one to fail |
| WorkoutRows.ValidationOrderSecond | src/lib/utils/import-export.ts:299-312 | reps, then set number, then duration; a row is accepted exactly when every check passes |
| WorkoutRows.AcceptedRowContents | src/lib/utils/import-export.ts:315-338 | an accepted row keeps its date and names; pounds are converted to kilograms and kilograms kept; reps, set number and duration are the parsed values, an empty duration being absent; instructions and notes are trimmed |
| WorkoutRows.ValidateAll | src/lib/utils/import-export.ts:218-219 | each data line is checked with its file line number, counting the header as line 1 |
| WorkoutRows.RowsPartitioned | src/lib/utils/import-export.ts:218-342 | every data line gives exactly one error or one accepted row |
| WorkoutRows.AcceptedRowsSound | src/lib/utils/import-export.ts:218-342 | every accepted row passed every check |
| WorkoutRows.ExistingKeys | src/lib/utils/import-export.ts:191-193 | the duplicate keys are `date\|lower-cased name` of each stored workout |
| WorkoutRows.WorkoutKeyInjective | src/lib/utils/import-export.ts:315 | two rows with ISO dates share a workout key exactly when they share date and workout name |
| WorkoutGrouping.GroupRowsSpec | src/lib/utils/import-export.ts:315-338 | the grouped workouts are the distinct `date\|name` keys in first-seen order, and each entry's exercises are the rows of that key grouped by exercise name |
| WorkoutGrouping.EntriesAreWorkouts | src/lib/utils/import-export.ts:315-326 | every row of an entry has the entry's date and workout name |
| WorkoutGrouping.GroupRowsKeepsEverySet | src/lib/utils/import-export.ts:315-338 | the entries hold as many sets as there were accepted rows |
| WorkoutGrouping.GroupsSound | src/lib/utils/import-export.ts:315-338 | every entry built from checked rows has an ISO date, at least one exercise, only known exercises and only checked sets |
| SetOrder.Insert | src/lib/utils/import-export.ts:566 | inserting a set gives the same multiset of sets plus the new one |
| SetOrder.SortBySetNumber | src/lib/utils/import-export.ts:566 | sorting sets is a permutation |
| SetOrder.SortIsSorted | src/lib/utils/import-export.ts:566 | sorted sets have non-decreasing set numbers |
| SetOrder.SortIsStable | src/lib/utils/import-export.ts:566 | the sort is stable, as `Array.prototype.sort` is: sets with equal numbers keep their file order |
| SetOrder.FirstAfterSort | src/lib/utils/import-export.ts:566-570 | the first sorted set has the lowest set number and is the earliest in the file among sets with that number |
| CsvWorkoutImport.BuildExercise | src/lib/utils/csv.ts:353-372 | an exercise is built exactly when its name is in the catalog; it takes the catalog entry's id and spelling, the sets sorted by set number with completion cleared, and the first set's instructions and notes |
| CsvWorkoutImport.BuildExercises | src/lib/utils/csv.ts:353-373 | all exercises are built, in order, or the build fails exactly when one is not in the catalog |
| CsvWorkoutImport.WorkoutOutcome | src/lib/utils/csv.ts:345-386 | a workout is skipped exactly when its `date\|lower-cased name` is stored already; a storage failure is an error but not a skip; an unknown exercise fails the workout with the lookup's `TypeError`; an inserted workout is the group's name and date with exactly the built exercises |
| CsvWorkoutImport.ImportWorkoutsFromCsv | src/lib/utils/csv.ts:160-390 | parse errors and an empty file return early; otherwise success counts the inserted workouts and every inserted workout is sound: ISO date, not stored before, and only catalog exercises, each with at least one set, not completed, with non-negative weight and reps |
| CsvWorkoutImport.ImportRows | src/lib/utils/csv.ts:215-390 | every row error is reported, and success plus skipped is at most the number of workouts, which is at most the number of accepted rows |
| CsvWorkoutImport.StoreWorkouts | src/lib/utils/csv.ts:343-387 | success plus skipped is at most the number of grouped workouts, and sound groups give sound workouts |
| CsvWorkoutImport.GroupsBuild | src/lib/utils/csv.ts:265-272 | every exercise of every grouped workout is in the catalog, so the non-null assertion on the catalog lookup never fails |
| CsvWorkoutImport.ReimportSkips | src/lib/utils/csv.ts:347-351 | once a workout is stored, importing the same group again skips it |
| CsvWorkoutImport.ExerciseNotesFromFirstSet | src/lib/utils/csv.ts:358-370 | the exercise's instructions and notes are those of the earliest set among those with the lowest set number |
| CsvWorkoutImport.BuiltSetCount | src/lib/utils/csv.ts:353-373 | the built exercises hold as many sets as were grouped |
| CsvWorkoutImport.AllInserted | src/lib/utils/csv.ts:343-381 | with storage that does not fail, every new workout whose exercises all build is inserted |
| CsvWorkoutImport.StoredSetCount | src/lib/utils/csv.ts:343-381 | when every workout is inserted, the stored workouts hold as many sets as were grouped |
| CsvWorkoutImport.EveryAcceptedRowStored | src/lib/utils/csv.ts:160-390 | on an empty database with storage that does not fail: the errors are exactly the row errors, nothing is skipped, and the stored workouts hold one set per accepted row |
| ImportExport.ConvertWeightToKg | src/lib/utils/import-export.ts:523-528 | imperial weights are converted from pounds, metric weights kept; NaN and infinities pass through |
| ImportExport.IdIndex | src/lib/utils/import-export.ts:185-187 | the id map only holds entries whose id is set (non-zero) |
| ImportExport.LookupIdSpec | src/lib/utils/import-export.ts:185-187 | a name resolves exactly when some catalog entry with an id has that key, and the id found is such an entry's id |
| ImportExport.LookupIdLastWins | src/lib/utils/import-export.ts:185-187 | a later entry with the same key overrides an earlier one, and leaves other keys alone |
| ImportExport.BuildExercise | src/lib/utils/import-export.ts:559-583 | an exercise is built exactly when its lower-cased name has an id; it keeps the name as written, its sets are the input sorted by set number with completion cleared, and its instructions and notes are absent or non-blank |
| ImportExport.BuiltSets | src/lib/utils/import-export.ts:565-567 | the built sets are a permutation of the input sets, sorted by set number, with each number's sets in input order, and each keeps its weight, reps and duration with completion cleared |
| ImportExport.BuildWorkoutExercises | src/lib/utils/import-export.ts:545-587 | unresolved exercises are dropped, and the result is empty exactly when no exercise resolves |
| ImportExport.BuiltFromEntries | src/lib/utils/import-export.ts:559-584 | every built exercise comes from one of the grouped exercises |
| ImportExport.AllExercisesBuilt | src/lib/utils/import-export.ts:559-584 | when every name resolves, the result is one exercise per group, in order |
| ImportExport.ExerciseNotesFromFirstSet | src/lib/utils/import-export.ts:566-570 | instructions and notes come from the earliest set among those with the lowest set number, with blank text made absent |
| ImportExport.WorkoutOutcome | src/lib/utils/import-export.ts:350-375 | skipped exactly when stored already; "No valid exercises found", counted as skipped, exactly when nothing resolves; otherwise the workout is stored with its name, date and built exercises |
| ImportExport.ImportWorkoutsFromCsv | src/lib/utils/import-export.ts:160-379 | early returns as in the exercise import; every row error is reported; success plus skipped is at most the number of workouts; every inserted workout is sound |
| ImportExport.InsertedSound | src/lib/utils/import-export.ts:344-377 | workouts built from checked groups are stored only when new and with only known, non-empty, uncompleted exercises |
| ImportExport.KnownExerciseHasId | src/lib/utils/import-export.ts:184-187 | when every catalog entry has an id, a name that passed the exercise check resolves to an id |
| ImportExport.EntryInserted | src/lib/utils/import-export.ts:350-370 | a new sound workout is inserted by storage that does not fail, with as many sets as were grouped |
| ImportExport.AllInserted | src/lib/utils/import-export.ts:344-377 | with storage that does not fail and ids on every catalog entry, every new workout is inserted, with as many sets as were grouped |
| ImportExport.StoredSetCount | src/lib/utils/import-export.ts:344-377 | when every workout is inserted, the stored workouts hold as many sets as were grouped |
| ImportExport.EveryAcceptedRowStored | src/lib/utils/import-export.ts:160-379 | on an empty database with storage that does not fail: the errors are exactly the row errors, nothing is skipped, and the stored workouts hold one set per accepted row |
| ImportExport.NameAsWritten | src/lib/utils/import-export.ts:572-574 | the refactored importer stores the exercise name as written in the file, the older one the catalog's spelling |
| ExerciseImport.ExistingNames | src/lib/utils/import-export.ts:104-106 | the duplicate set holds each catalog name lower-cased |
| ExerciseImport.Draft | src/lib/utils/import-export.ts:142-146 | the stored exercise has the trimmed name and description, and the video link trimmed or absent when blank |
| ExerciseImport.ExerciseRow | src/lib/utils/import-export.ts:117-151 | an inserted row had two fields, a non-blank name and description, and a name the catalog does not hold |
| ExerciseImport.ExerciseRowOrder | src/lib/utils/import-export.ts:119-140 | fewer than two fields, blank name, blank description and existing name are reported in that order, each exactly when the earlier checks pass and it fails |
| ExerciseImport.ImportExercisesFromCsv | src/lib/utils/import-export.ts:82-155 | parse errors and an empty file return early; success plus skipped is at most the number of data rows; every inserted exercise has a name and description and is new to the catalog |
| ExerciseImport.RowOutcomes | src/lib/utils/import-export.ts:114-115 | each data row is handled with its file line number |
| ExerciseImport.RepeatedRowInsertedTwice | src/lib/utils/import-export.ts:104-148 | the duplicate set is not updated during the loop, so the same new exercise on two lines is inserted twice |
| ExerciseImport.FreshRowInserted | src/lib/utils/import-export.ts:119-148 | a row with a non-blank name and description and a new name is inserted when storage does not fail |
| ExerciseImport.ReimportSkips | src/lib/utils/import-export.ts:136-140 | once an exercise is in the catalog, importing its row again skips it |
| JsonImport.ExistingNameKeys | src/lib/utils/import-export.ts:635-637 | the JSON import's duplicate set holds each catalog name lower-cased and trimmed |
| JsonImport.ExerciseOutcome | src/lib/utils/import-export.ts:640-667 | an exercise with no or a blank name is an error counted as skipped; a known name is skipped; otherwise it is stored trimmed, with an empty description when absent and the video link trimmed or absent |
| JsonImport.PhaseNames | src/lib/utils/import-export.ts:661 | after the pass the duplicate set is the catalog's names plus every inserted name, lower-cased |
| JsonImport.InsertedNamesFresh | src/lib/utils/import-export.ts:640-668 | no inserted name matches a catalog name or another inserted name, ignoring case |
| JsonImport.InsertedNamesNonBlank | src/lib/utils/import-export.ts:642-659 | every inserted name is non-empty and already trimmed |
| JsonImport.RepeatedExerciseSkippedOnce | src/lib/utils/import-export.ts:640-668 | the same new exercise twice in the document is inserted once and skipped once |
| JsonImport.AfterImport | src/lib/utils/import-export.ts:670-671 | after the exercise pass the catalog is the old catalog followed by the added exercises, with consecutive new ids |
| JsonImport.AddedExerciseFound | src/lib/utils/import-export.ts:670-677 | every exercise added by the pass resolves to an id in the workout pass |
| JsonImport.RowPlace | src/lib/utils/import-export.ts:691-700 | a workout row is dropped exactly when its date, workout name or exercise name is absent or blank; otherwise the three are trimmed |
| JsonImport.MissingCount | src/lib/utils/import-export.ts:696-700 | every row is either placed or counted as a missing-field skip |
| JsonImport.NestedGroupSpec | src/lib/utils/import-export.ts:702-711 | the date → name → rows map built row by row is the grouping by date, then by name within each date |
| JsonImport.GroupEachPush | src/lib/utils/import-export.ts:702-711 | pushing a row into the nested map is pushing it into the date grouping and regrouping by name |
| JsonImport.WorkoutEntriesBound | src/lib/utils/import-export.ts:714-715 | there are at most as many workouts as placed rows |
| JsonImport.ToSet | src/lib/utils/import-export.ts:725-738 | a set's weight is converted by its unit (kilograms only for "kg"), absent reps are 0, an absent or empty duration is absent, and instructions and notes are trimmed |
| JsonImport.WorkoutOutcome | src/lib/utils/import-export.ts:716-762 | skipped exactly when stored already; "No valid exercises found" exactly when nothing resolves; every failure counts as skipped; otherwise the built workout is stored |
| JsonImport.InsertedWorkoutsSound | src/lib/utils/import-export.ts:714-764 | every stored workout is new and has at least one exercise, each resolved to a catalog entry of that name, with no completed set |
| JsonImport.ImportDocument | src/lib/utils/import-export.ts:629-772 | success counts the stored items; every row is counted once as a missing-field skip or through its workout; added exercises are trimmed, non-blank and fresh; stored workouts are sound against the catalog after the exercise pass; the errors are the exercise pass's failures, then one "Skipped workout row with missing date, workoutName, or exerciseName" per dropped row (line 697), then the workout pass's failures (`JsonImport.DocumentErrors`) |
| JsonImport.DocumentErrors | src/lib/utils/import-export.ts:696-699 | the error list is the exercise pass's errors, then one missing-field message per dropped workout row, then the workout pass's errors, each part at its stated position |
| JsonImport.ImportFromJson | src/lib/utils/import-export.ts:613-784 | text that does not parse gives one "Failed to parse JSON" error; a document without both arrays gives the invalid-format error; otherwise the import runs |
| JsonImport.NoExerciseDuplicatesCatalog | src/lib/utils/import-export.ts:635-661 | no added exercise has the name of a catalog exercise, compared trimmed and lower-cased |
| CsvExport.EscapeCsvValue | src/lib/utils/import-export.ts:509-518 | a value with a comma, quote or line feed is wrapped in quotes; any other value is kept as is |
| CsvExport.ReadEscaped | src/lib/utils/import-export.ts:509-518 | an escaped value followed by a comma or the end of the record reads back as the value itself |
| CsvExport.ReadRecordLine | src/lib/utils/import-export.ts:22-27 | a record joined from escaped values reads back as those values |
| CsvExport.SplitJoinedLines | src/lib/utils/import-export.ts:30 | lines without line feeds, joined with line feeds, split back into the same lines |
| CsvExport.ExerciseLines | src/lib/utils/import-export.ts:16-28 | the exercise file has the header `name,description,videoLink` and one record per exercise |
| CsvExport.ExportedExercisesReadBack | src/lib/utils/import-export.ts:13-31 | with no line feed in any value, the file splits into the header and one line per exercise, which reads back as its name, description and video link |
| CsvExport.ExerciseRoundTrip | src/lib/utils/import-export.ts:22-26 | the exported row of an exercise with trimmed text rebuilds the same draft (name, description, link) |
| CsvExport.ExportedExerciseReimported | src/lib/utils/import-export.ts:22-26 | with a non-empty name and description, a name new to the catalog and storage that does not fail, the importer inserts exactly the exported exercise |
| CsvExport.EmptyDescriptionNotReimported | src/lib/utils/import-export.ts:131-133 | an exercise stored with an empty description (as the JSON import stores a blank one, line 657) is rejected with "Exercise description is required" when its exported row is imported |
| CsvExport.SetLineIsRecord | src/lib/utils/import-export.ts:59-71 | a set line is the record of its ten values; the number columns never need quoting |
| CsvExport.SetLines | src/lib/utils/import-export.ts:55-74 | the workout file has as many data lines as there are stored sets |
| CsvExport.SetLineAt | src/lib/utils/import-export.ts:55-74 | set `i` of exercise `m` of workout `j` is written at data line `TotalSets(ws[..j]) + SetCount(ws[j].exercises[..m]) + i`: every set once, in workout, exercise and set order |
| CsvExport.ExportedWorkoutsReadBack | src/lib/utils/import-export.ts:36-77 | with single-line texts, the file splits into the header and one line per set, and each line reads back as the values of some set |
| CsvExport.ExportedRowLayout | src/lib/utils/import-export.ts:59-71 | an exported row, read with the ten-column layout, gives the workout's date and name, the exercise, the set number, weight, unit "kg" (a kilogram unit the importer accepts), reps and duration |
| Dates.DaysInMonth | src/lib/utils/calendar.ts:20 | months have 28 to 31 days, 29 exactly for February of a leap year |
| Dates.NextDay | src/lib/utils/date.ts:44 | the next day is a valid date in the same year, or 1 January of the next year |
| Dates.Epoch | src/lib/utils/calendar.ts:25 | 1 January 1970 is day 0 and a Thursday |
| Dates.DayNumberNext | src/lib/utils/date.ts:44 | the next day has the next day number |
| Dates.WeekdayNext | src/lib/utils/calendar.ts:25 | the next day's weekday is the following weekday |
| Dates.Normalize | src/lib/utils/date.ts:36 | `new Date(y, m, d)` normalises any day in a month to a valid date |
| Dates.NormalizeValid | src/lib/utils/date.ts:36 | a valid date is kept as is |
| Dates.NormalizeDayZero | src/lib/utils/calendar.ts:28 | day 0 of a month is the last day of the previous month |
| Dates.NormalizePastEnd | src/lib/utils/calendar.ts:56 | the day after a month's last day is the first of the next month |
| Dates.NormalizeNext | src/lib/utils/date.ts:43-44 | `setDate(getDate() + 1)` is the next day |
| Dates.MakeDateInYear | src/lib/utils/date.ts:36 | the constructor maps years 0 to 99 to 1900 to 1999 before normalising |
| Dates.FormatPieces | src/lib/utils/date.ts:22-27 | a formatted date splits on '-' into the year digits and a two-digit month and day |
| Dates.ParseWholeNumbers | src/lib/utils/date.ts:34-37 | three numbers in the pieces build the date of year, month − 1 and day |
| Dates.ParseFormatted | src/lib/utils/date.ts:22-37 | parsing a formatted date with a year of 100 or later gives the date back |
| Dates.TwoDigitYearShifts | src/lib/utils/date.ts:22-37 | a formatted date with a year below 100 parses 1900 years later, for every such date that also exists 1900 years later (29 February of year 0 is excluded: it reads as 1 March 1900) |
| Dates.GetTomorrowLocalDate | src/lib/utils/date.ts:42-46 | tomorrow's text is the formatting of the day after the clock's date |
| Dates.TodayAndTomorrow | src/lib/utils/date.ts:9-46 | today's text parses back to today, and tomorrow's parses to the day numbered one more |
| Calendar.MonthCarry | src/lib/utils/calendar.ts:28-30 | month −1 and month 12 carry into the neighbouring years |
| Calendar.GetCalendarDays | src/lib/utils/calendar.ts:17-67 | the grid always has 42 cells |
| Calendar.GridIsReference | src/lib/utils/calendar.ts:17-67 | the three loops fill exactly cells 0 to 41 of a reference grid starting on the Sunday on or before the first of the month |
| Calendar.GridLayout | src/lib/utils/calendar.ts:29-64 | each cell holds its date, that date's day and text; a cell is in the current month exactly for the month's own days; only an own day can be today |
| Calendar.AtMostOneToday | src/lib/utils/calendar.ts:43 | at most one cell is marked today |
| Calendar.GridConsecutive | src/lib/utils/calendar.ts:17-67 | the cells are 42 consecutive valid days |
| Calendar.GridColumns | src/lib/utils/calendar.ts:25-38 | cell i falls on weekday i mod 7, so every column is one weekday starting with Sunday |
| Calendar.GetDayNames | src/lib/utils/calendar.ts:103-105 | seven names, starting with Sunday |
| Calendar.GetMonthName | src/lib/utils/calendar.ts:82-98 | a name exactly for months 0 to 11 (`undefined` otherwise) |
| Calendar.MonthNames | src/lib/utils/calendar.ts:82-98 | January to December, all different |
| Calendar.DateStringsReadBack | src/lib/utils/calendar.ts:72-77 | for years from 100 on, each cell's text parses back to the cell's date |
| WorkoutOperations.CloneWorkout | src/lib/services/workoutOperations.ts:15-33 | the clone keeps name, notes and exercises in order, takes the target date, and clears every set's completed flag while keeping weight, reps and duration |
| WorkoutOperations.CloneKeepsExercises | src/lib/services/workoutOperations.ts:17-24 | a clone differs from the original only in its date and completed flags |
| WorkoutOperations.CloneSetCount | src/lib/services/workoutOperations.ts:19-24 | a clone has as many sets as the original |
| WorkoutOperations.CloneOfClone | src/lib/services/workoutOperations.ts:15-33 | cloning a clone is cloning the original |
| WorkoutOperations.CloneIsMoveIff | src/lib/services/workoutOperations.ts:7-33 | a clone is the moved workout exactly when nothing in it was completed |
| WorkoutOperations.MoveDate | src/lib/services/workoutOperations.ts:7-9 | moving changes the date and nothing else |
| WorkoutOperations.MoveBack | src/lib/services/workoutOperations.ts:7-9 | moving back restores the workout, and of two moves only the last counts |
| WorkoutOperations.MoveWorkout | src/lib/services/workoutOperations.ts:7-9 | only the workout with the given id gets the new date; others are unchanged |
| WorkoutOperations.MoveMissing | src/lib/services/workoutOperations.ts:7-9 | moving an id that is not stored changes nothing |

## Left out

- **CSV parsing.** Papa Parse's tokenising (`Papa.parse` with
  `skipEmptyLines`) is not modelled.
  - The importers start from its rows and error list.
  - Reading exported files back uses a reference RFC 4180 field reader
    (`CsvExport.ReadRecord`) in place of the library.
- **JSON parsing.** `JSON.parse` is not modelled. The import starts from the
  parsed document, or from the parser's error message.
- **JSON field types.** `JsonImport.JsonWorkoutRow` and
  `JsonImport.JsonExercise` give every field its declared TypeScript type
  (`setNumber` an integer, texts strings or absent). `reps` is an integer
  here, while the document may hold any number and the code stores it as
  given (`set.reps || 0`, import-export.ts:725-738), so fractional reps
  are not modelled. The code checks none of these types, and the model
  does not cover documents that break them:
  - a missing `setNumber` makes the sort comparator return NaN
    (import-export.ts:566);
  - a non-string exercise `name` throws inside the per-exercise `try`
    (import-export.ts:642);
  - a non-string `date` throws to the outer `catch` (import-export.ts:692),
    which returns zero counts after exercises were already added.
- **Number parsing.** `parseFloat`, `parseInt`, `Number` and `String(number)`
  are parameters, not re-implemented. `Dates.ReadsDigits` and
  `CsvExport.PlainNumbers` state what the date and export lemmas assume of
  them.
- **Database.** Dexie, `async`/`await` and the database itself are left
  out.
  - Reads are snapshots given to the import.
  - Writes are appended to the result.
  - Whether a write throws is an oracle.
  - A failure of `getAllExercises` or `getAllWorkouts` inside
    `importFromJSON`'s outer `try` is not modelled. Such a failure would
    reach the "Failed to parse JSON" branch.
- **Floating point.** Weights are exact reals. Rounding in the unit
  conversions, and in `formatWeight`'s `Math.round(x * 10) / 10`, is not
  modelled. `Units.FormatWeight` takes the number's rendering as a
  parameter.
- **Case folding.** `toLowerCase` is modelled for ASCII letters only. Unicode
  case mapping is not. `trim()` uses the full ECMAScript white-space set.
- **Deep copy.** The `JSON.parse(JSON.stringify(workout))` copy in
  `cloneWorkout` is the identity on datatype values. Its conversion of
  non-finite numbers to `null` is not modelled.
- **`getTomorrowDate` in `workoutOperations.ts`.** It goes through UTC
  `toISOString` and depends on the time zone, so it is not modelled. The
  local-time `getTomorrowLocalDate` is modelled.
- **The clock.** `new Date()` is a parameter. `getTodayString` in
  `calendar.ts` is `formatDateString` of that date, which is the same text
  as `Dates.GetTodayLocalDate`.
- **Time of day.** Time zones, daylight saving and the range limit of
  `Date` are not modelled. Dates are whole calendar days.
- Text.NatToString: gives plain decimal digits for every number.
  `String(n)` switches to exponent notation from 10^21.
- Dates.ParseLocalDate: does not model `Number()` exactly. It takes
  `Number` as a parameter, and the lemmas assume only that it reads
  digit-only text as its decimal value. Signs, white space and
  hexadecimal are not covered.
- Dates.TwoDigitYearShifts: covers only the years below 100. The
  constructor moves those years into the 1900s, so they do not round-trip.
- **Other files.** `backup.ts`, `theme.ts`, file downloads and the file-type
  descriptions are outside the import/export core and are not part of this
  model.

=== FILE: assoc.dfy ===
/** JavaScript `Map`s as association lists. A `Map` iterates in insertion
    order, so the importer's grouping maps are sequences of (key, list)
    pairs with distinct keys, and a `Map` built from an array of pairs is a
    sequence in which a later pair overrides an earlier one. */
module Assoc {
  import opened Base

  /** A `Map<K, V[]>`: each key with the list of values pushed under it. */
  type Groups<K, V> = seq<(K, seq<V>)>

  /** The first components of a list of pairs: the keys of a `Map`. */
  function Keys<K, W>(g: seq<(K, W)>): (ks: seq<K>)
    ensures |ks| == |g|
    ensures forall i :: 0 <= i < |g| ==> ks[i] == g[i].0
  {
    seq(|g|, i requires 0 <= i < |g| => g[i].0)
  }

  /** The keys of a `Map` are distinct. */
  predicate UniqueKeys<K(==), W>(g: seq<(K, W)>) {
    forall i, j :: 0 <= i < j < |g| ==> g[i].0 != g[j].0
  }

  /** The position of `k` (`m.has(k)` and where `m.get(k)` lives). */
  function Find<K(==), W>(g: seq<(K, W)>, k: K): (r: Option<nat>)
    ensures r.None? <==> k !in Keys(g)
    ensures r.Some? ==> r.value < |g| && g[r.value].0 == k
  {
    if |g| == 0 then None
    else if g[|g| - 1].0 == k then Some(|g| - 1)
    else
      assert Keys(g) == Keys(g[..|g| - 1]) + [g[|g| - 1].0];
      Find(g[..|g| - 1], k)
  }

  /** `if (!m.has(k)) m.set(k, []); m.get(k)!.push(v)`: the value goes to
      the end of the list of an existing key, or a new key is added last. */
  function Push<K(==), V>(g: Groups<K, V>, k: K, v: V): (r: Groups<K, V>)
    requires UniqueKeys(g)
    ensures UniqueKeys(r)
    ensures k in Keys(g) ==> |r| == |g| && Keys(r) == Keys(g)
    ensures k !in Keys(g) ==> Keys(r) == Keys(g) + [k]
    ensures k !in Keys(g) ==> |r| == |g| + 1 && r[|g|] == (k, [v])
    ensures forall i :: 0 <= i < |g| ==> r[i].0 == g[i].0
    ensures forall i :: 0 <= i < |g| ==> r[i].1 == if g[i].0 == k then g[i].1 + [v] else g[i].1
  {
    match Find(g, k)
    case None => g + [(k, [v])]
    case Some(i) => g[i := (k, g[i].1 + [v])]
  }

  /** The keys of a list in order of first appearance (a reference
      definition, independent of `Push`). */
  function Dedupe<K(==)>(s: seq<K>): (r: seq<K>)
    ensures forall i :: 0 <= i < |r| ==> r[i] in s
    ensures forall i :: 0 <= i < |s| ==> s[i] in r
    ensures forall i, j :: 0 <= i < j < |r| ==> r[i] != r[j]
  {
    if |s| == 0 then []
    else
      var d := Dedupe(s[..|s| - 1]);
      assert forall i :: 0 <= i < |s| - 1 ==> s[i] == s[..|s| - 1][i];
      if s[|s| - 1] in d then d else d + [s[|s| - 1]]
  }

  /** Dropping repeats never lengthens a list. */
  lemma {:induction false} DedupeShorter<K>(s: seq<K>)
    ensures |Dedupe(s)| <= |s|
  {
    if |s| > 0 {
      DedupeShorter(s[..|s| - 1]);
    }
  }

  /** The values paired with `k`, in input order. */
  function ValuesFor<K(==), V>(items: seq<(K, V)>, k: K): seq<V> {
    if |items| == 0 then []
    else ValuesFor(items[..|items| - 1], k) + (if items[|items| - 1].0 == k then [items[|items| - 1].1] else [])
  }

  /** The map the importer builds by pushing every pair in turn. */
  function GroupAll<K(==), V>(items: seq<(K, V)>): (g: Groups<K, V>)
    ensures UniqueKeys(g)
  {
    if |items| == 0 then []
    else Push(GroupAll(items[..|items| - 1]), items[|items| - 1].0, items[|items| - 1].1)
  }

  lemma GroupAllSnoc<K, V>(items: seq<(K, V)>, p: (K, V))
    ensures GroupAll(items + [p]) == Push(GroupAll(items), p.0, p.1)
  {
    assert (items + [p])[..|items|] == items;
  }

  /** Grouping by pushing keeps keys in order of first appearance. */
  lemma {:induction false} GroupAllKeys<K, V>(items: seq<(K, V)>)
    ensures Keys(GroupAll(items)) == Dedupe(Keys(items))
  {
    if |items| > 0 {
      var front := items[..|items| - 1];
      GroupAllKeys(front);
      assert Keys(items)[..|items| - 1] == Keys(front);
    }
  }

  /** A Map built by pushing has at most one entry per pushed pair. */
  lemma GroupAllBound<K, V>(items: seq<(K, V)>)
    ensures |GroupAll(items)| <= |items|
  {
    GroupAllKeys(items);
    DedupeShorter(Keys(items));
  }

  /** Grouping by pushing keeps under every key exactly the values paired
      with it, in input order. */
  lemma {:induction false} GroupAllValues<K, V>(items: seq<(K, V)>)
    ensures forall i :: 0 <= i < |GroupAll(items)| ==> GroupAll(items)[i].1 == ValuesFor(items, GroupAll(items)[i].0)
  {
    if |items| > 0 {
      var front := items[..|items| - 1];
      var last := items[|items| - 1];
      GroupAllValues(front);
      var g := GroupAll(front);
      var r := GroupAll(items);
      assert r == Push(g, last.0, last.1);
      forall i | 0 <= i < |r|
        ensures r[i].1 == ValuesFor(items, r[i].0)
      {
        if i < |g| {
          assert r[i].0 == g[i].0;
          assert g[i].1 == ValuesFor(front, g[i].0);
        } else {
          assert last.0 !in Keys(g);
          GroupAllKeys(front);
          assert last.0 !in Keys(front);
          ValuesForAbsent(front, last.0);
        }
      }
    }
  }

  lemma ValuesForAbsent<K, V>(items: seq<(K, V)>, k: K)
    requires k !in Keys(items)
    ensures ValuesFor(items, k) == []
  {
    if |items| > 0 {
      assert Keys(items)[..|items| - 1] == Keys(items[..|items| - 1]);
      ValuesForAbsent(items[..|items| - 1], k);
    }
  }

  lemma {:induction false} ValuesForMembers<K, V>(items: seq<(K, V)>, k: K)
    ensures k in Keys(items) ==> |ValuesFor(items, k)| > 0
    ensures forall x :: x in ValuesFor(items, k) ==> (k, x) in items
  {
    if |items| > 0 {
      var front := items[..|items| - 1];
      ValuesForMembers(front, k);
      assert Keys(items) == Keys(front) + [items[|items| - 1].0];
      assert forall p :: p in front ==> p in items;
    }
  }

  /** Every list of the grouped map is non-empty and holds only values that
      were paired with its key. */
  lemma GroupAllMembers<K, V>(items: seq<(K, V)>)
    ensures forall j :: 0 <= j < |GroupAll(items)| ==>
      && GroupAll(items)[j].0 in Keys(items)
      && |GroupAll(items)[j].1| > 0
      && forall x :: x in GroupAll(items)[j].1 ==> (GroupAll(items)[j].0, x) in items
  {
    var g := GroupAll(items);
    GroupAllKeys(items);
    GroupAllValues(items);
    forall j | 0 <= j < |g|
      ensures g[j].0 in Keys(items)
      ensures |g[j].1| > 0
      ensures forall x :: x in g[j].1 ==> (g[j].0, x) in items
    {
      assert g[j].0 == Keys(g)[j];
      ValuesForMembers(items, g[j].0);
    }
  }

  /** The number of values held in all lists. */
  function Count<K, V>(g: Groups<K, V>): nat {
    if |g| == 0 then 0 else Count(g[..|g| - 1]) + |g[|g| - 1].1|
  }

  lemma CountUpdate<K, V>(g: Groups<K, V>, i: nat, x: (K, seq<V>))
    requires i < |g|
    ensures Count(g[i := x]) + |g[i].1| == Count(g) + |x.1|
  {
    if i < |g| - 1 {
      assert g[i := x][..|g| - 1] == g[..|g| - 1][i := x];
      CountUpdate(g[..|g| - 1], i, x);
    }
    else {
      assert g[i := x][..|g| - 1] == g[..|g| - 1];
    }
  }

  /** Every push adds one value. */
  lemma CountPush<K, V>(g: Groups<K, V>, k: K, v: V)
    requires UniqueKeys(g)
    ensures Count(Push(g, k, v)) == Count(g) + 1
  {
    match Find(g, k)
    case None =>
      assert Push(g, k, v)[..|g|] == g;
    case Some(i) =>
      CountUpdate(g, i, (k, g[i].1 + [v]));
  }

  /** Grouping loses and invents no value. */
  lemma {:induction false} CountGroupAll<K, V>(items: seq<(K, V)>)
    ensures Count(GroupAll(items)) == |items|
  {
    if |items| > 0 {
      CountGroupAll(items[..|items| - 1]);
      CountPush(GroupAll(items[..|items| - 1]), items[|items| - 1].0, items[|items| - 1].1);
    }
  }

  /** `new Map(pairs).get(k)`: the last pair with key `k` wins. */
  function LastValue<K(==), V>(pairs: seq<(K, V)>, k: K): (r: Option<V>)
    ensures r.None? <==> k !in Keys(pairs)
  {
    if |pairs| == 0 then None
    else if pairs[|pairs| - 1].0 == k then Some(pairs[|pairs| - 1].1)
    else
      assert Keys(pairs) == Keys(pairs[..|pairs| - 1]) + [pairs[|pairs| - 1].0];
      LastValue(pairs[..|pairs| - 1], k)
  }

  /** The value found is the one of the last pair with key `k`: `i` is that
      pair's index, and no later pair has the key. */
  lemma {:induction false} LastValueIndex<K, V>(pairs: seq<(K, V)>, k: K) returns (i: nat)
    requires LastValue(pairs, k).Some?
    ensures i < |pairs| && pairs[i] == (k, LastValue(pairs, k).value)
    ensures forall j :: i < j < |pairs| ==> pairs[j].0 != k
  {
    var n := |pairs| - 1;
    if pairs[n].0 == k {
      i := n;
    } else {
      var front := pairs[..n];
      i := LastValueIndex(front, k);
      assert pairs[i] == front[i];
      forall j | i < j < |pairs|
        ensures pairs[j].0 != k
      {
        if j < n {
          assert pairs[j] == front[j];
        }
      }
    }
  }

  /** A pair added last overrides its key and leaves every other key as it
      was. */
  lemma LastValueSnoc<K, V>(pairs: seq<(K, V)>, k: K, v: V)
    ensures LastValue(pairs + [(k, v)], k) == Some(v)
    ensures forall k' :: k' != k ==> LastValue(pairs + [(k, v)], k') == LastValue(pairs, k')
  {
    assert (pairs + [(k, v)])[..|pairs|] == pairs;
  }
}

=== FILE: base.dfy ===
/** Values shared by every part of the model: optional values and the
    JavaScript number type the import engine computes with. */
module Base {

  /** `undefined` versus a present value. */
  datatype Option<+T> = None | Some(value: T)

  /** A JavaScript number as far as the engine can observe it: a finite
      value, one of the two infinities, or NaN. Finite values are exact
      reals; the rounding of IEEE doubles is not modelled. */
  datatype Num = Finite(value: real) | PosInf | NegInf | NaN {

    /** `isNaN(x)` */
    predicate IsNaN() {
      NaN?
    }

    /** `x < 0`; every comparison with NaN is false. */
    predicate LessThanZero() {
      match this
      case Finite(v) => v < 0.0
      case NegInf => true
      case _ => false
    }

    /** A number is falsy in JavaScript exactly when it is 0 or NaN. */
    predicate IsFalsy() {
      this == Finite(0.0) || NaN?
    }

    /** `x * k` for a positive finite factor `k`. */
    function Times(k: real): (r: Num)
      requires k > 0.0
      ensures Finite? <==> r.Finite?
      ensures IsNaN() <==> r.IsNaN()
      ensures LessThanZero() <==> r.LessThanZero()
    {
      match this
      case Finite(v) => Finite(v * k)
      case _ => this
    }
  }

  /** The number a JavaScript integer becomes. */
  function FromInt(i: int): Num {
    Finite(i as real)
  }

  /** A non-empty sequence is its front followed by its last element. */
  lemma LastSplit<T>(s: seq<T>)
    requires |s| > 0
    ensures s == s[..|s| - 1] + [s[|s| - 1]]
  {
  }

  /** Extending both sides of a pointwise agreement by one element. */
  lemma MapSnoc<A, B>(xs: seq<A>, ys: seq<B>, x: A, y: B, f: A -> Option<B>)
    requires |xs| == |ys|
    requires forall j :: 0 <= j < |xs| ==> f(xs[j]) == Some(ys[j])
    requires f(x) == Some(y)
    ensures forall j :: 0 <= j < |xs| + 1 ==> f((xs + [x])[j]) == Some((ys + [y])[j])
  {
  }
}

=== FILE: calendar.dfy ===
/** The month grid of the calendar view (src/lib/utils/calendar.ts): six
    weeks of seven days, the month's own days framed by the end of the
    month before and the start of the month after. */
module Calendar {
  import opened Base
  import opened Text
  import opened Dates

  /** One cell of the grid. */
  datatype CalendarDay = CalendarDay(date: CalendarDate, dateString: string, day: int, isCurrentMonth: bool, isToday: bool)

  /** `formatDateString(date)`: the same text as `formatLocalDate`. */
  function FormatDateString(d: CalendarDate): string
    requires Valid(d)
  {
    FormatLocalDate(d)
  }

  /** The month that `new Date(year, month, …)` falls in: a month argument
      outside 0 to 11 carries into the year. */
  function MonthOf(year: int, month: int): (r: (int, int))
    ensures 0 <= r.1 < 12
  {
    (FullYear(year) + month / 12, month % 12)
  }

  function NextMonth(y: int, m: int): (r: (int, int))
    requires 0 <= m < 12
    ensures 0 <= r.1 < 12
  {
    if m == 11 then (y + 1, 0) else (y, m + 1)
  }

  lemma MonthCarry(year: int, month: int)
    ensures var ym := MonthOf(year, month);
      && MonthOf(year, month - 1) == PrevMonth(ym.0, ym.1)
      && MonthOf(year, month + 1) == NextMonth(ym.0, ym.1)
  {
    var q := month / 12;
    var r := month % 12;
    assert month == 12 * q + r;
    if r == 0 {
      assert month - 1 == 12 * (q - 1) + 11;
    } else {
      assert month - 1 == 12 * q + (r - 1);
    }
    if r == 11 {
      assert month + 1 == 12 * (q + 1);
    } else {
      assert month + 1 == 12 * q + (r + 1);
    }
  }

  /** The date part of `new Date(year, month, day)` in terms of the month it
      falls in. */
  lemma MakeDateInMonth(year: int, month: int, day: int)
    ensures var ym := MonthOf(year, month);
      MakeDate(year, month, day) == Normalize(ym.0, ym.1, day)
  {
  }

  /** The leading cells: `startDayOfWeek` days counting up to the last day
      of the month before, built from `new Date(year, month - 1, prevMonthLastDay - i)`. */
  function LeadingDays(year: int, month: int, start: int, prevLast: int): (cells: seq<CalendarDay>)
    requires 0 <= start
    ensures |cells| == start
  {
    seq(start, k requires 0 <= k < start =>
      var date := MakeDate(year, month - 1, prevLast - (start - 1 - k));
      CalendarDay(date, FormatDateString(date), date.day, false, false))
  }

  /** The cells of the month itself, `day` from 1 to the last day. */
  function MonthDays(year: int, month: int, lastDay: int, today: CalendarDate): (cells: seq<CalendarDay>)
    requires 0 <= lastDay
    ensures |cells| == lastDay
  {
    seq(lastDay, k requires 0 <= k < lastDay =>
      var date := MakeDate(year, month, k + 1);
      CalendarDay(date, FormatDateString(date), k + 1, true, date == today))
  }

  /** The trailing cells, `day` from 1 to `remaining`. */
  function TrailingDays(year: int, month: int, remaining: int): (cells: seq<CalendarDay>)
    ensures |cells| == if remaining > 0 then remaining else 0
  {
    var n := if remaining > 0 then remaining else 0;
    seq(n, k requires 0 <= k < n =>
      var date := MakeDate(year, month + 1, k + 1);
      CalendarDay(date, FormatDateString(date), k + 1, false, false))
  }

  /** `getCalendarDays(year, month)`, with today's local date passed in. A
      cell is today when its midnight is today's midnight, that is, when the
      dates agree. */
  function GetCalendarDays(year: int, month: int, today: CalendarDate): (days: seq<CalendarDay>)
    ensures |days| == 42
  {
    var firstDay := MakeDate(year, month, 1);
    var lastDay := MakeDate(year, month + 1, 0);
    var start := Weekday(firstDay);
    var prevLast := MakeDate(year, month, 0).day;
    var lead := LeadingDays(year, month, start, prevLast);
    var own := MonthDays(year, month, lastDay.day, today);
    lead + own + TrailingDays(year, month, 42 - (|lead| + |own|))
  }

  // ---------------------------------------------------------------------
  // The constructor calls the grid makes

  /** The first of the month, the last day and the last day of the month
      before, as the grid computes them. */
  lemma GridAnchors(year: int, month: int)
    ensures var ym := MonthOf(year, month);
      var p := PrevMonth(ym.0, ym.1);
      && MakeDate(year, month, 1) == CalendarDate(ym.0, ym.1, 1)
      && MakeDate(year, month + 1, 0) == CalendarDate(ym.0, ym.1, DaysInMonth(ym.0, ym.1))
      && MakeDate(year, month, 0) == CalendarDate(p.0, p.1, DaysInMonth(p.0, p.1))
  {
    var ym := MonthOf(year, month);
    MonthCarry(year, month);
    MakeDateInMonth(year, month, 1);
    MakeDateInMonth(year, month, 0);
    MakeDateInMonth(year, month + 1, 0);
    NormalizeValid(CalendarDate(ym.0, ym.1, 1));
    NormalizeDayZero(ym.0, ym.1);
    var n := NextMonth(ym.0, ym.1);
    NormalizeDayZero(n.0, n.1);
  }

  /** Every day the grid asks of a month is a day of that month. */
  lemma InMonth(year: int, month: int, day: int)
    requires var ym := MonthOf(year, month); 1 <= day <= DaysInMonth(ym.0, ym.1)
    ensures var ym := MonthOf(year, month);
      MakeDate(year, month, day) == CalendarDate(ym.0, ym.1, day)
  {
    var ym := MonthOf(year, month);
    MakeDateInMonth(year, month, day);
    NormalizeValid(CalendarDate(ym.0, ym.1, day));
  }

  // ---------------------------------------------------------------------
  // The shape of the grid

  /** The first day of the month shown. */
  function FirstOf(year: int, month: int): (d: CalendarDate)
    ensures Valid(d)
  {
    var ym := MonthOf(year, month);
    CalendarDate(ym.0, ym.1, 1)
  }

  /** The number of leading cells: the weekday of the first. */
  function Lead(year: int, month: int): int {
    Weekday(FirstOf(year, month))
  }

  function Length(year: int, month: int): int {
    var ym := MonthOf(year, month);
    DaysInMonth(ym.0, ym.1)
  }

  /** Reference definition of the date in cell `i`: the days before the
      first of the month count back into the month before, the days after
      its last day run on into the month after. */
  function CellDate(year: int, month: int, i: int): (d: CalendarDate)
    requires 0 <= i < 42
    ensures Valid(d)
  {
    var ym := MonthOf(year, month);
    var lead := Lead(year, month);
    var n := Length(year, month);
    if i < lead then
      var p := PrevMonth(ym.0, ym.1);
      CalendarDate(p.0, p.1, DaysInMonth(p.0, p.1) - lead + 1 + i)
    else if i < lead + n then CalendarDate(ym.0, ym.1, i - lead + 1)
    else
      var nx := NextMonth(ym.0, ym.1);
      CalendarDate(nx.0, nx.1, i - lead - n + 1)
  }

  /** A cell as the grid builds it from its date. */
  function Cell(d: CalendarDate, current: bool, today: CalendarDate): CalendarDay
    requires Valid(d)
  {
    CalendarDay(d, FormatDateString(d), d.day, current, current && d == today)
  }

  /** Reference definition of the whole grid: cell `i` holds the date
      `CellDate(year, month, i)`, current exactly in the month shown. */
  function ReferenceGrid(year: int, month: int, today: CalendarDate): (g: seq<CalendarDay>)
    ensures |g| == 42
  {
    var lead := Lead(year, month);
    var n := Length(year, month);
    seq(42, i requires 0 <= i < 42 => Cell(CellDate(year, month, i), lead <= i < lead + n, today))
  }

  lemma LeadingCells(year: int, month: int, start: int, prevLast: int, today: CalendarDate)
    requires start == Lead(year, month)
    requires var ym := MonthOf(year, month); var p := PrevMonth(ym.0, ym.1); prevLast == DaysInMonth(p.0, p.1)
    ensures LeadingDays(year, month, start, prevLast) == ReferenceGrid(year, month, today)[..start]
  {
    var g := ReferenceGrid(year, month, today);
    MonthCarry(year, month);
    forall k | 0 <= k < start
      ensures LeadingDays(year, month, start, prevLast)[k] == g[k]
    {
      LeadingCell(year, month, start, prevLast, k);
    }
  }

  lemma LeadingCell(year: int, month: int, start: int, prevLast: int, k: int)
    requires start == Lead(year, month)
    requires var ym := MonthOf(year, month); var p := PrevMonth(ym.0, ym.1); prevLast == DaysInMonth(p.0, p.1)
    requires 0 <= k < start
    ensures MakeDate(year, month - 1, prevLast - (start - 1 - k)) == CellDate(year, month, k)
  {
    MonthCarry(year, month);
    InMonth(year, month - 1, prevLast - (start - 1 - k));
  }

  lemma OwnCells(year: int, month: int, lastDay: int, today: CalendarDate)
    requires lastDay == Length(year, month)
    ensures var lead := Lead(year, month);
      MonthDays(year, month, lastDay, today) == ReferenceGrid(year, month, today)[lead..lead + lastDay]
  {
    var g := ReferenceGrid(year, month, today);
    var lead := Lead(year, month);
    forall k | 0 <= k < lastDay
      ensures MonthDays(year, month, lastDay, today)[k] == g[lead + k]
    {
      OwnCell(year, month, k);
    }
  }

  lemma OwnCell(year: int, month: int, k: int)
    requires 0 <= k < Length(year, month)
    ensures MakeDate(year, month, k + 1) == CellDate(year, month, Lead(year, month) + k)
  {
    InMonth(year, month, k + 1);
  }

  lemma TrailingCells(year: int, month: int, remaining: int, today: CalendarDate)
    requires remaining == 42 - Lead(year, month) - Length(year, month)
    ensures TrailingDays(year, month, remaining) == ReferenceGrid(year, month, today)[42 - remaining..]
  {
    var g := ReferenceGrid(year, month, today);
    var from := 42 - remaining;
    MonthCarry(year, month);
    forall k | 0 <= k < remaining
      ensures TrailingDays(year, month, remaining)[k] == g[from + k]
    {
      TrailingCell(year, month, remaining, k);
    }
  }

  lemma TrailingCell(year: int, month: int, remaining: int, k: int)
    requires remaining == 42 - Lead(year, month) - Length(year, month)
    requires 0 <= k < remaining
    ensures MakeDate(year, month + 1, k + 1) == CellDate(year, month, 42 - remaining + k)
  {
    MonthCarry(year, month);
    InMonth(year, month + 1, k + 1);
  }

  /** The grid is its three runs of cells, with the lengths the anchors
      give. */
  lemma GridSegments(year: int, month: int, today: CalendarDate)
    ensures var ym := MonthOf(year, month);
      var p := PrevMonth(ym.0, ym.1);
      var lead := Lead(year, month);
      var n := Length(year, month);
      GetCalendarDays(year, month, today) ==
        LeadingDays(year, month, lead, DaysInMonth(p.0, p.1)) + MonthDays(year, month, n, today) +
        TrailingDays(year, month, 42 - lead - n)
  {
    GridAnchors(year, month);
  }

  /** The grid the code builds is the reference grid. */
  lemma GridIsReference(year: int, month: int, today: CalendarDate)
    ensures GetCalendarDays(year, month, today) == ReferenceGrid(year, month, today)
  {
    var lead := Lead(year, month);
    var n := Length(year, month);
    var ym := MonthOf(year, month);
    var p := PrevMonth(ym.0, ym.1);
    var g := ReferenceGrid(year, month, today);
    GridSegments(year, month, today);
    var a := LeadingDays(year, month, lead, DaysInMonth(p.0, p.1));
    var b := MonthDays(year, month, n, today);
    var c := TrailingDays(year, month, 42 - lead - n);
    LeadingCells(year, month, lead, DaysInMonth(p.0, p.1), today);
    OwnCells(year, month, n, today);
    TrailingCells(year, month, 42 - lead - n, today);
    ThreeParts(g, a, b, c, lead, lead + n);
  }

  lemma ThreeParts<T>(g: seq<T>, a: seq<T>, b: seq<T>, c: seq<T>, i: int, j: int)
    requires 0 <= i <= j <= |g|
    requires a == g[..i] && b == g[i..j] && c == g[j..]
    ensures a + b + c == g
  {
    assert g == g[..i] + g[i..j] + g[j..];
  }

  /** The grid cell by cell: cell `i` holds the reference date, its day of
      the month and its text; it is current exactly when it lies in the
      month shown, and today exactly when it is current and its date is
      today's. */
  lemma GridLayout(year: int, month: int, today: CalendarDate)
    ensures var days := GetCalendarDays(year, month, today);
      forall i :: 0 <= i < 42 ==>
        && days[i].date == CellDate(year, month, i)
        && days[i].day == days[i].date.day
        && days[i].dateString == FormatDateString(days[i].date)
        && (days[i].isCurrentMonth <==> Lead(year, month) <= i < Lead(year, month) + Length(year, month))
        && (days[i].isToday <==> days[i].isCurrentMonth && days[i].date == today)
  {
    GridIsReference(year, month, today);
  }

  /** At most one cell is today. */
  lemma AtMostOneToday(year: int, month: int, today: CalendarDate)
    ensures var days := GetCalendarDays(year, month, today);
      forall i, j :: 0 <= i < 42 && 0 <= j < 42 && days[i].isToday && days[j].isToday ==> i == j
  {
    var days := GetCalendarDays(year, month, today);
    GridLayout(year, month, today);
    forall i, j | 0 <= i < 42 && 0 <= j < 42 && days[i].isToday && days[j].isToday
      ensures i == j
    {
      assert CellDate(year, month, i) == CellDate(year, month, j);
    }
  }

  /** The reference dates are 42 consecutive days. */
  lemma CellDatesConsecutive(year: int, month: int, i: int)
    requires 0 <= i < 41
    ensures CellDate(year, month, i + 1) == NextDay(CellDate(year, month, i))
  {
  }

  /** The grid is 42 consecutive days. */
  lemma GridConsecutive(year: int, month: int, today: CalendarDate)
    ensures var days := GetCalendarDays(year, month, today);
      forall i :: 0 <= i < 42 ==> Valid(days[i].date)
    ensures var days := GetCalendarDays(year, month, today);
      forall i :: 0 <= i < 41 ==> days[i + 1].date == NextDay(days[i].date)
  {
    var g := ReferenceGrid(year, month, today);
    GridIsReference(year, month, today);
    forall k | 0 <= k < 42
      ensures Valid(g[k].date)
    {
      assert g[k].date == CellDate(year, month, k);
    }
    forall i | 0 <= i < 41
      ensures g[i + 1].date == NextDay(g[i].date)
    {
      assert g[i].date == CellDate(year, month, i);
      assert g[i + 1].date == CellDate(year, month, i + 1);
      CellDatesConsecutive(year, month, i);
    }
  }

  /** `getDayNames()` */
  function GetDayNames(): (names: seq<string>)
    ensures |names| == 7 && names[0] == "Sun"
  {
    ["Sun", "Mon", "Tue", "Wed", "Thu", "Fri", "Sat"]
  }

  /** Each cell falls on the weekday of its column: the grid starts on a
      Sunday, under the first of the day names. */
  lemma GridColumns(year: int, month: int, today: CalendarDate)
    ensures var days := GetCalendarDays(year, month, today);
      forall i :: 0 <= i < 42 ==> Weekday(days[i].date) == i % 7
  {
    var days := GetCalendarDays(year, month, today);
    var lead := Lead(year, month);
    GridIsReference(year, month, today);
    GridConsecutive(year, month, today);
    assert days[lead].date == CellDate(year, month, lead) == FirstOf(year, month);
    var ds := seq(42, i requires 0 <= i < 42 => days[i].date);
    assert ConsecutiveRun(ds) by {
      forall k | 0 <= k < 41
        ensures ds[k + 1] == NextDay(ds[k])
      {
        assert ds[k] == days[k].date && ds[k + 1] == days[k + 1].date;
      }
    }
    RunColumns(ds, lead);
    forall i | 0 <= i < 42
      ensures Weekday(days[i].date) == i % 7
    {
      assert ds[i] == days[i].date;
    }
  }

  /** A run of consecutive days whose `a`-th day falls on weekday `a` has
      every day on the weekday of its index modulo 7. */
  lemma RunColumns(ds: seq<CalendarDate>, a: int)
    requires 0 <= a < |ds| && a < 7
    requires ConsecutiveRun(ds)
    requires Weekday(ds[a]) == a
    ensures forall i :: 0 <= i < |ds| ==> Weekday(ds[i]) == i % 7
  {
    var n := DayNumber(ds[a]);
    forall i | 0 <= i < |ds|
      ensures Weekday(ds[i]) == i % 7
    {
      DayNumbersFrom(ds, a, i);
      WeekdayShift(n, i - a, a);
    }
  }

  /** A run of consecutive valid days. */
  predicate ConsecutiveRun(ds: seq<CalendarDate>) {
    && (forall k :: 0 <= k < |ds| ==> Valid(ds[k]))
    && (forall k :: 0 <= k < |ds| - 1 ==> ds[k + 1] == NextDay(ds[k]))
  }

  /** In a run of consecutive days, day numbers go up one at a time. */
  lemma DayNumbersFrom(ds: seq<CalendarDate>, a: int, i: int)
    requires 0 <= a < |ds| && 0 <= i < |ds|
    requires ConsecutiveRun(ds)
    ensures DayNumber(ds[i]) == DayNumber(ds[a]) + i - a
  {
    if i >= a {
      DayNumbersUp(ds, a, i);
    } else {
      DayNumbersUp(ds, i, a);
    }
  }

  lemma DayNumbersUp(ds: seq<CalendarDate>, a: int, i: int)
    requires 0 <= a <= i < |ds|
    requires ConsecutiveRun(ds)
    ensures DayNumber(ds[i]) == DayNumber(ds[a]) + i - a
  {
    var ns := seq(|ds|, k requires 0 <= k < |ds| => DayNumber(ds[k]));
    forall k | 0 <= k < |ds| - 1
      ensures ns[k + 1] == ns[k] + 1
    {
      DayNumberNext(ds[k]);
    }
    StepsUp(ns, a, i);
  }

  /** A sequence of integers that goes up one at a time. */
  lemma {:induction false} StepsUp(ns: seq<int>, a: int, i: int)
    requires 0 <= a <= i < |ns|
    requires forall k :: 0 <= k < |ns| - 1 ==> ns[k + 1] == ns[k] + 1
    ensures ns[i] == ns[a] + i - a
    decreases i - a
  {
    if i > a {
      StepsUp(ns, a, i - 1);
    }
  }

  lemma WeekdayShift(n: int, s: int, w: int)
    requires 0 <= w < 7 && WeekdayOf(n) == w
    ensures WeekdayOf(n + s) == (w + s) % 7
  {
    var q := (n + 4) / 7;
    assert n + 4 == 7 * q + w;
    var q2 := (w + s) / 7;
    assert w + s == 7 * q2 + (w + s) % 7;
    assert n + s + 4 == 7 * (q + q2) + (w + s) % 7;
  }

  /** `getMonthName(month)`: the name of a month counted from 0, and
      `undefined` for any other index. */
  function GetMonthName(month: int): (name: Option<string>)
    ensures name.Some? <==> 0 <= month < 12
  {
    var names := ["January", "February", "March", "April", "May", "June",
                  "July", "August", "September", "October", "November", "December"];
    if 0 <= month < 12 then Some(names[month]) else None
  }

  /** January first, December last; each name is the month's own. */
  lemma MonthNames()
    ensures GetMonthName(0) == Some("January") && GetMonthName(11) == Some("December")
    ensures forall m, k :: 0 <= m < 12 && 0 <= k < 12 && m != k ==> GetMonthName(m) != GetMonthName(k)
  {
  }

  /** Every cell's text reads back as its date, for years from 100 on. */
  lemma DateStringsReadBack(year: int, month: int, today: CalendarDate, number: string -> Num)
    requires ReadsDigits(number)
    ensures var days := GetCalendarDays(year, month, today);
      forall i :: 0 <= i < 42 && days[i].date.year >= 100 ==> ParseLocalDate(days[i].dateString, number) == DateOf(days[i].date)
  {
    var days := GetCalendarDays(year, month, today);
    GridLayout(year, month, today);
    forall i | 0 <= i < 42 && days[i].date.year >= 100
      ensures ParseLocalDate(days[i].dateString, number) == DateOf(days[i].date)
    {
      ParseFormatted(days[i].date, number);
    }
  }
}

=== FILE: csv_export.dfy ===
/** The CSV export: `escapeCsvValue`, `exportExercisesToCSV` and
    `exportWorkoutsToCSV` (src/lib/utils/csv.ts; src/lib/utils/import-export.ts
    holds the same code at the same lines). The partner of the writer is a
    reference reader of one CSV record in the sense of section 2 of RFC 4180:
    every exported line reads back into exactly the values written. */
module CsvExport {
  import opened Base
  import opened Text
  import opened Records
  import WorkoutRows
  import ExerciseImport
  import Messages
  import Outcomes

  /** A value the writer must quote: it holds a comma, a quote or a line
      feed. */
  predicate NeedsQuoting(v: string) {
    ',' in v || '"' in v || '\n' in v
  }

  /** `value.replace(/"/g, '""')` */
  function DoubleQuotes(v: string): (r: string)
    ensures |r| >= |v|
  {
    if |v| == 0 then ""
    else (if v[0] == '"' then "\"\"" else [v[0]]) + DoubleQuotes(v[1..])
  }

  /** `escapeCsvValue(value)`. */
  function EscapeCsvValue(v: string): (r: string)
    ensures !NeedsQuoting(v) ==> r == v
    ensures NeedsQuoting(v) ==> |r| >= 2 && r[0] == '"' && r[|r| - 1] == '"'
  {
    if v == "" then ""
    else if NeedsQuoting(v) then "\"" + DoubleQuotes(v) + "\""
    else v
  }

  function EscapeAll(vs: seq<string>): (r: seq<string>)
    ensures |r| == |vs|
    ensures forall i :: 0 <= i < |vs| ==> r[i] == EscapeCsvValue(vs[i])
  {
    seq(|vs|, i requires 0 <= i < |vs| => EscapeCsvValue(vs[i]))
  }

  /** One record as the exporter writes it: the values escaped and joined
      with commas. */
  function RecordLine(vs: seq<string>): string {
    Join(EscapeAll(vs), ",")
  }

  // ---------------------------------------------------------------------
  // The reference reader

  /** What follows a field: a comma and the rest of the record, or the end
      of the record. */
  function Tail(rest: Option<string>): string {
    match rest
    case None => ""
    case Some(more) => "," + more
  }

  /** Reads an unquoted field: the text up to the first comma, and the text
      after that comma (`None` at the end of the record). */
  function ReadPlain(s: string): (r: (string, Option<string>))
    ensures r.1.Some? ==> |r.1.value| < |s|
  {
    if |s| == 0 then ("", None)
    else if s[0] == ',' then ("", Some(s[1..]))
    else
      var r' := ReadPlain(s[1..]);
      ([s[0]] + r'.0, r'.1)
  }

  /** Reads a quoted field after its opening quote: two quotes stand for
      one, a single quote closes the field. Text between the closing quote
      and the next comma is kept, as lenient readers do. */
  function ReadQuoted(s: string): (r: (string, Option<string>))
    ensures r.1.Some? ==> |r.1.value| < |s|
  {
    if |s| == 0 then ("", None)
    else if s[0] == '"' then
      if |s| >= 2 && s[1] == '"' then
        var r' := ReadQuoted(s[2..]);
        ("\"" + r'.0, r'.1)
      else ReadPlain(s[1..])
    else
      var r' := ReadQuoted(s[1..]);
      ([s[0]] + r'.0, r'.1)
  }

  function ReadField(s: string): (r: (string, Option<string>))
    ensures r.1.Some? ==> |r.1.value| < |s|
  {
    if |s| > 0 && s[0] == '"' then ReadQuoted(s[1..]) else ReadPlain(s)
  }

  /** The fields of one record. */
  function ReadRecord(s: string): (fields: seq<string>)
    ensures |fields| > 0
    decreases |s|
  {
    var r := ReadField(s);
    match r.1
    case None => [r.0]
    case Some(more) => [r.0] + ReadRecord(more)
  }

  lemma {:induction false} ReadPlainOf(v: string, rest: Option<string>)
    requires ',' !in v
    ensures ReadPlain(v + Tail(rest)) == (v, rest)
  {
    if |v| == 0 {
      assert v + Tail(rest) == Tail(rest);
      if rest.Some? {
        assert Tail(rest)[1..] == rest.value;
      }
    } else {
      assert (v + Tail(rest))[1..] == v[1..] + Tail(rest);
      ReadPlainOf(v[1..], rest);
      assert [v[0]] + v[1..] == v;
    }
  }

  lemma ReadQuotedPair(t: string)
    ensures ReadQuoted("\"\"" + t) == ("\"" + ReadQuoted(t).0, ReadQuoted(t).1)
  {
    assert ("\"\"" + t)[2..] == t;
  }

  lemma ReadQuotedChar(c: char, t: string)
    requires c != '"'
    ensures ReadQuoted([c] + t) == ([c] + ReadQuoted(t).0, ReadQuoted(t).1)
  {
    assert ([c] + t)[1..] == t;
  }

  lemma ReadQuotedClose(rest: Option<string>)
    ensures ReadQuoted("\"" + Tail(rest)) == ("", rest)
  {
    var s := "\"" + Tail(rest);
    assert s[1..] == "" + Tail(rest);
    ReadPlainOf("", rest);
  }

  lemma Concat4<T>(a: seq<T>, b: seq<T>, c: seq<T>, d: seq<T>)
    ensures a + b + c + d == a + (b + c + d)
  {
  }

  lemma DoubleQuotesPair(v: string, rest: Option<string>)
    requires |v| > 0 && v[0] == '"'
    ensures DoubleQuotes(v) + "\"" + Tail(rest) == "\"\"" + (DoubleQuotes(v[1..]) + "\"" + Tail(rest))
  {
    var a := DoubleQuotes(v[1..]);
    var q := "\"";
    var qq := "\"\"";
    assert DoubleQuotes(v) == qq + a;
    Concat4(qq, a, q, Tail(rest));
  }

  lemma QuotedStepPair(v: string, t: string, rest: Option<string>)
    requires |v| > 0 && v[0] == '"'
    requires ReadQuoted(t) == (v[1..], rest)
    ensures ReadQuoted("\"\"" + t) == (v, rest)
  {
    ReadQuotedPair(t);
    assert v == "\"" + v[1..];
  }

  lemma DoubleQuotesChar(v: string, rest: Option<string>)
    requires |v| > 0 && v[0] != '"'
    ensures DoubleQuotes(v) + "\"" + Tail(rest) == [v[0]] + (DoubleQuotes(v[1..]) + "\"" + Tail(rest))
  {
    var a := DoubleQuotes(v[1..]);
    var q := "\"";
    assert DoubleQuotes(v) == [v[0]] + a;
    Concat4([v[0]], a, q, Tail(rest));
  }

  lemma QuotedStepChar(v: string, t: string, rest: Option<string>)
    requires |v| > 0 && v[0] != '"'
    requires ReadQuoted(t) == (v[1..], rest)
    ensures ReadQuoted([v[0]] + t) == (v, rest)
  {
    ReadQuotedChar(v[0], t);
    assert v == [v[0]] + v[1..];
  }

  lemma {:induction false} ReadQuotedOf(v: string, rest: Option<string>)
    ensures ReadQuoted(DoubleQuotes(v) + "\"" + Tail(rest)) == (v, rest)
  {
    if |v| == 0 {
      assert DoubleQuotes(v) + "\"" + Tail(rest) == "\"" + Tail(rest);
      ReadQuotedClose(rest);
    } else {
      var t := DoubleQuotes(v[1..]) + "\"" + Tail(rest);
      ReadQuotedOf(v[1..], rest);
      if v[0] == '"' {
        DoubleQuotesPair(v, rest);
        QuotedStepPair(v, t, rest);
      } else {
        DoubleQuotesChar(v, rest);
        QuotedStepChar(v, t, rest);
      }
    }
  }

  lemma ReadQuotedField(v: string, rest: Option<string>)
    requires NeedsQuoting(v)
    ensures ReadField(EscapeCsvValue(v) + Tail(rest)) == (v, rest)
  {
    var q := "\"";
    assert EscapeCsvValue(v) == q + DoubleQuotes(v) + q;
    Concat4(q, DoubleQuotes(v), q, Tail(rest));
    ReadFieldQuoted(DoubleQuotes(v) + q + Tail(rest));
    ReadQuotedOf(v, rest);
  }

  lemma ReadFieldQuoted(t: string)
    ensures ReadField("\"" + t) == ReadQuoted(t)
  {
    assert ("\"" + t)[1..] == t;
  }

  lemma ReadPlainField(v: string, rest: Option<string>)
    requires !NeedsQuoting(v)
    ensures ReadField(EscapeCsvValue(v) + Tail(rest)) == (v, rest)
  {
    ReadPlainOf(v, rest);
    if v != "" {
      assert (v + Tail(rest))[0] == v[0] && v[0] in v;
    }
  }

  /** Reading an escaped value gives the value back and stops exactly after
      it. */
  lemma ReadEscaped(v: string, rest: Option<string>)
    ensures ReadField(EscapeCsvValue(v) + Tail(rest)) == (v, rest)
  {
    if NeedsQuoting(v) {
      ReadQuotedField(v, rest);
    } else {
      ReadPlainField(v, rest);
    }
  }

  /** Writing a record and reading it back gives the same values: the
      writer's quoting is exactly what a reader needs. */
  lemma {:induction false} ReadRecordLine(vs: seq<string>)
    requires |vs| > 0
    ensures ReadRecord(RecordLine(vs)) == vs
  {
    var es := EscapeAll(vs);
    if |vs| == 1 {
      assert RecordLine(vs) == EscapeCsvValue(vs[0]) + Tail(None);
      ReadEscaped(vs[0], None);
    } else {
      assert es[1..] == EscapeAll(vs[1..]);
      var more := RecordLine(vs[1..]);
      assert RecordLine(vs) == EscapeCsvValue(vs[0]) + Tail(Some(more));
      ReadEscaped(vs[0], Some(more));
      ReadRecordLine(vs[1..]);
      assert vs == [vs[0]] + vs[1..];
    }
  }

  lemma {:induction false} DoubleQuotesKeeps(v: string, c: char)
    requires c != '"' && c !in v
    ensures c !in DoubleQuotes(v)
  {
    if |v| > 0 {
      DoubleQuotesKeeps(v[1..], c);
      assert v[0] != c;
    }
  }

  lemma EscapedSingle(v: string)
    requires '\n' !in v
    ensures '\n' !in EscapeCsvValue(v)
  {
    DoubleQuotesKeeps(v, '\n');
  }

  lemma {:induction false} JoinKeeps(parts: seq<string>, c: char)
    requires c != ','
    requires forall i :: 0 <= i < |parts| ==> c !in parts[i]
    ensures c !in Join(parts, ",")
  {
    if |parts| > 1 {
      JoinKeeps(parts[1..], c);
      assert Join(parts, ",") == parts[0] + "," + Join(parts[1..], ",");
    }
  }

  /** A record whose values have no line feed is one line. */
  lemma {:induction false} RecordLineSingle(vs: seq<string>)
    requires forall i :: 0 <= i < |vs| ==> '\n' !in vs[i]
    ensures '\n' !in RecordLine(vs)
  {
    if |vs| == 1 {
      EscapedSingle(vs[0]);
    } else if |vs| > 1 {
      EscapedSingle(vs[0]);
      assert EscapeAll(vs)[1..] == EscapeAll(vs[1..]);
      RecordLineSingle(vs[1..]);
      assert RecordLine(vs) == EscapeCsvValue(vs[0]) + "," + RecordLine(vs[1..]);
    }
  }

  /** Joined lines that hold no line feed split back apart. */
  lemma {:induction false} SplitJoinedLines(lines: seq<string>)
    requires |lines| > 0
    requires forall i :: 0 <= i < |lines| ==> '\n' !in lines[i]
    ensures Split(Join(lines, "\n"), '\n') == lines
  {
    if |lines| == 1 {
      SplitNoSeparator(lines[0], '\n');
    } else {
      SplitJoinedLines(lines[1..]);
      SplitAt(lines[0], Join(lines[1..], "\n"), '\n');
      assert lines == [lines[0]] + lines[1..];
    }
  }

  // ---------------------------------------------------------------------
  // exportExercisesToCSV

  /** The header line, `headers.join(',')`. */
  const ExerciseHeader := "name,description,videoLink"

  /** `x || ''` for an optional string. */
  function OrEmpty(s: Option<string>): string {
    match s
    case None => ""
    case Some(v) => v
  }

  /** The values of an exercise's row. */
  function ExerciseValues(e: ExerciseDraft): seq<string> {
    [e.name, e.description, OrEmpty(e.videoLink)]
  }

  /** The lines of the exercise file, header first, then one record per
      exercise. */
  function ExerciseLines(exercises: seq<ExerciseDraft>): (lines: seq<string>)
    ensures |lines| == |exercises| + 1
    ensures lines[0] == "name,description,videoLink"
    ensures forall i :: 0 <= i < |exercises| ==> lines[i + 1] == RecordLine(ExerciseValues(exercises[i]))
  {
    [ExerciseHeader] + seq(|exercises|, i requires 0 <= i < |exercises| => RecordLine(ExerciseValues(exercises[i])))
  }

  /** Every exercise line reads back as the exercise's values. */
  lemma ExerciseLinesReadBack(exercises: seq<ExerciseDraft>)
    ensures forall i :: 0 <= i < |exercises| ==> ReadRecord(ExerciseLines(exercises)[i + 1]) == ExerciseValues(exercises[i])
  {
    forall i | 0 <= i < |exercises|
      ensures ReadRecord(ExerciseLines(exercises)[i + 1]) == ExerciseValues(exercises[i])
    {
      ReadRecordLine(ExerciseValues(exercises[i]));
    }
  }

  function ExportExercisesToCsv(exercises: seq<ExerciseDraft>): (text: string) {
    Join(ExerciseLines(exercises), "\n")
  }

  /** When no value holds a line feed, the exported file splits into the
      header and one line per exercise, each reading back as the
      exercise's name, description and video link. */
  lemma ExportedExercisesReadBack(exercises: seq<ExerciseDraft>)
    requires forall i :: 0 <= i < |exercises| ==>
      forall k :: 0 <= k < 3 ==> '\n' !in ExerciseValues(exercises[i])[k]
    ensures var lines := Split(ExportExercisesToCsv(exercises), '\n');
      && |lines| == |exercises| + 1
      && lines[0] == "name,description,videoLink"
      && forall i :: 0 <= i < |exercises| ==> ReadRecord(lines[i + 1]) == ExerciseValues(exercises[i])
  {
    var lines := ExerciseLines(exercises);
    forall j | 0 <= j < |lines|
      ensures '\n' !in lines[j]
    {
      ExerciseLineSingle(exercises, j);
    }
    SplitJoinedLines(lines);
    ExerciseLinesReadBack(exercises);
  }

  lemma ExerciseLineSingle(exercises: seq<ExerciseDraft>, j: int)
    requires forall i :: 0 <= i < |exercises| ==>
      forall k :: 0 <= k < 3 ==> '\n' !in ExerciseValues(exercises[i])[k]
    requires 0 <= j <= |exercises|
    ensures '\n' !in ExerciseLines(exercises)[j]
  {
    if j > 0 {
      RecordLineSingle(ExerciseValues(exercises[j - 1]));
    } else {
      ExerciseHeaderSingle();
    }
  }

  lemma ExerciseHeaderSingle()
    ensures '\n' !in ExerciseHeader
  {
    var h := ExerciseHeader;
    forall k | 0 <= k < |h|
      ensures h[k] != '\n'
    {
    }
  }

  /** Exporting an exercise and importing its row gives the same exercise
      back, for an exercise as the importer itself stores them: name,
      description and link trimmed, and a link never blank. */
  lemma ExerciseRoundTrip(e: ExerciseDraft)
    requires Trim(e.name) == e.name && Trim(e.description) == e.description
    requires e.videoLink.Some? ==> Trim(e.videoLink.value) == e.videoLink.value && e.videoLink.value != ""
    ensures ExerciseImport.Draft(ExerciseValues(e)) == e
  {
    if e.videoLink.None? {
      assert AllSpace("");
    }
  }

  /** The whole importer accepts an exported exercise row and inserts the
      same exercise, when its name and description are not empty, its name
      is new to the catalog and storage does not fail. */
  lemma ExportedExerciseReimported(e: ExerciseDraft, line: nat, existing: seq<string>, st: Storage)
    requires Trim(e.name) == e.name && Trim(e.description) == e.description
    requires e.videoLink.Some? ==> Trim(e.videoLink.value) == e.videoLink.value && e.videoLink.value != ""
    requires e.name != "" && e.description != ""
    requires Lower(e.name) !in existing
    requires Reliable(st)
    ensures ExerciseImport.ExerciseRow(ExerciseValues(e), line, existing, st) == Outcomes.Inserted(e)
  {
    ExerciseRoundTrip(e);
    ExerciseImport.FreshRowInserted(ExerciseValues(e), line, existing, st);
  }

  /** An exercise stored with an empty description, as the JSON import
      stores one whose description is missing or blank, is exported with an
      empty description column and rejected when that row is imported. */
  lemma EmptyDescriptionNotReimported(e: ExerciseDraft, line: nat, existing: seq<string>, st: Storage)
    requires Trim(e.name) == e.name && e.name != "" && e.description == ""
    ensures ExerciseImport.ExerciseRow(ExerciseValues(e), line, existing, st)
      == Outcomes.Failed(Messages.ExerciseDescriptionRequired(line), false)
  {
    assert Trim(ExerciseValues(e)[1]) == "";
  }

  // ---------------------------------------------------------------------
  // exportWorkoutsToCSV

  const WorkoutColumns: seq<string> := [
    "date", "workoutName", "exerciseName", "setNumber", "weight",
    "weightUnit", "reps", "duration", "instructions", "notes"]

  /** The header line, `headers.join(',')`. */
  const WorkoutHeader := Join(WorkoutColumns, ",")

  /** `String(set.duration || '')`: no duration, zero and NaN give the
      empty string. */
  function DurationText(d: Option<Num>, show: Num -> string): string {
    match d
    case None => ""
    case Some(n) => if n.IsFalsy() then "" else show(n)
  }

  /** The values of the row of set `i` of exercise `x` in workout `w`;
      `show` is `String(number)`. */
  function SetValues(w: Workout, x: WorkoutExercise, i: nat, show: Num -> string): (vs: seq<string>)
    requires i < |x.sets|
    ensures |vs| == 10
  {
    [w.date, w.name, x.exerciseName, IntToString(i + 1), show(x.sets[i].weight), "kg",
     IntToString(x.sets[i].reps), DurationText(x.sets[i].duration, show),
     OrEmpty(x.instructions), OrEmpty(x.notes)]
  }

  /** The row as the exporter builds it: only the text columns pass through
      `escapeCsvValue`; the numbers and the unit are written as they are. */
  function SetLine(w: Workout, x: WorkoutExercise, i: nat, show: Num -> string): string
    requires i < |x.sets|
  {
    var v := SetValues(w, x, i, show);
    Join([EscapeCsvValue(v[0]), EscapeCsvValue(v[1]), EscapeCsvValue(v[2]), v[3], v[4], v[5], v[6], v[7],
          EscapeCsvValue(v[8]), EscapeCsvValue(v[9])], ",")
  }

  /** The lines of one workout: its exercises in order, the sets of each in
      order. */
  function WorkoutSetLines(w: Workout, xs: seq<WorkoutExercise>, show: Num -> string): (lines: seq<string>)
    ensures |lines| == SetCount(xs)
  {
    if |xs| == 0 then []
    else
      var x := xs[|xs| - 1];
      WorkoutSetLines(w, xs[..|xs| - 1], show) + seq(|x.sets|, i requires 0 <= i < |x.sets| => SetLine(w, x, i, show))
  }

  /** The data lines of the workout file: one per set. */
  function SetLines(ws: seq<Workout>, show: Num -> string): (lines: seq<string>)
    ensures |lines| == TotalSets(ws)
  {
    if |ws| == 0 then []
    else SetLines(ws[..|ws| - 1], show) + WorkoutSetLines(ws[|ws| - 1], ws[|ws| - 1].exercises, show)
  }

  function ExportWorkoutsToCsv(ws: seq<Workout>, show: Num -> string): (text: string) {
    Join([WorkoutHeader] + SetLines(ws, show), "\n")
  }

  /** Text a number prints as: `String(n)` never holds a comma, a quote or
      a line feed. */
  ghost predicate PlainNumbers(show: Num -> string) {
    forall n :: !NeedsQuoting(show(n))
  }

  lemma {:induction false} NatTextPlain(n: nat)
    ensures !NeedsQuoting(NatToString(n))
  {
    var s := NatToString(n);
    forall k | 0 <= k < |s|
      ensures s[k] != ',' && s[k] != '"' && s[k] != '\n'
    {
      assert IsDigit(s[k]);
    }
  }

  lemma IntTextPlain(i: int)
    ensures !NeedsQuoting(IntToString(i))
  {
    NatTextPlain(if i < 0 then -i else i);
    if i < 0 {
      var s := IntToString(i);
      assert s == "-" + NatToString(-i);
      forall c | c in s
        ensures c != ',' && c != '"' && c != '\n'
      {
        var k :| 0 <= k < |s| && s[k] == c;
        if k > 0 {
          assert c == NatToString(-i)[k - 1];
        }
      }
    }
  }

  /** With plain number texts, the exporter's row is the record of the
      set's ten values. */
  lemma SetLineIsRecord(w: Workout, x: WorkoutExercise, i: nat, show: Num -> string)
    requires i < |x.sets|
    requires PlainNumbers(show)
    ensures SetLine(w, x, i, show) == RecordLine(SetValues(w, x, i, show))
  {
    var v := SetValues(w, x, i, show);
    IntTextPlain(i + 1);
    IntTextPlain(x.sets[i].reps);
    assert v[3] == IntToString(i + 1) && v[6] == IntToString(x.sets[i].reps);
    assert v[4] == show(x.sets[i].weight);
    assert !NeedsQuoting(v[5]) by {
      assert v[5] == "kg";
    }
    assert !NeedsQuoting(v[7]) by {
      assert !NeedsQuoting("");
    }
    MiddlePlain(v);
  }

  /** Escaping leaves the five numeric columns of a row as they are. */
  lemma MiddlePlain(v: seq<string>)
    requires |v| == 10
    requires forall k :: 3 <= k < 8 ==> !NeedsQuoting(v[k])
    ensures EscapeAll(v) == [EscapeCsvValue(v[0]), EscapeCsvValue(v[1]), EscapeCsvValue(v[2]), v[3], v[4], v[5], v[6], v[7],
                             EscapeCsvValue(v[8]), EscapeCsvValue(v[9])]
  {
  }

  /** `line` is the exporter's row of some set of the workouts. */
  predicate IsSetLine(line: string, ws: seq<Workout>, show: Num -> string) {
    exists j, m, i :: 0 <= j < |ws| && 0 <= m < |ws[j].exercises| && 0 <= i < |ws[j].exercises[m].sets| &&
      line == SetLine(ws[j], ws[j].exercises[m], i, show)
  }

  /** `line` reads back as the ten values of some set of the workouts. */
  predicate LineOfSet(line: string, ws: seq<Workout>, show: Num -> string) {
    exists j, m, i :: 0 <= j < |ws| && 0 <= m < |ws[j].exercises| && 0 <= i < |ws[j].exercises[m].sets| &&
      ReadRecord(line) == SetValues(ws[j], ws[j].exercises[m], i, show)
  }

  lemma {:induction false} WorkoutSetLinesFrom(w: Workout, xs: seq<WorkoutExercise>, show: Num -> string)
    ensures forall line :: line in WorkoutSetLines(w, xs, show) ==>
      exists m, i :: 0 <= m < |xs| && 0 <= i < |xs[m].sets| && line == SetLine(w, xs[m], i, show)
  {
    if |xs| > 0 {
      var front := xs[..|xs| - 1];
      var x := xs[|xs| - 1];
      WorkoutSetLinesFrom(w, front, show);
      forall line | line in WorkoutSetLines(w, xs, show)
        ensures exists m, i :: 0 <= m < |xs| && 0 <= i < |xs[m].sets| && line == SetLine(w, xs[m], i, show)
      {
        if line in WorkoutSetLines(w, front, show) {
          var m, i :| 0 <= m < |front| && 0 <= i < |front[m].sets| && line == SetLine(w, front[m], i, show);
          assert front[m] == xs[m];
        } else {
          var own := seq(|x.sets|, i requires 0 <= i < |x.sets| => SetLine(w, x, i, show));
          assert line in own;
          var i :| 0 <= i < |x.sets| && own[i] == line;
          assert xs[|xs| - 1] == x;
        }
      }
    }
  }

  /** Set `i` of exercise `m` is written at its own position: after the
      sets of the exercises before it, in file order. */
  lemma {:induction false} WorkoutSetLineAt(w: Workout, xs: seq<WorkoutExercise>, m: nat, i: nat, show: Num -> string)
    requires m < |xs| && i < |xs[m].sets|
    ensures SetCount(xs[..m]) + i < |WorkoutSetLines(w, xs, show)|
    ensures WorkoutSetLines(w, xs, show)[SetCount(xs[..m]) + i] == SetLine(w, xs[m], i, show)
  {
    var front := xs[..|xs| - 1];
    var x := xs[|xs| - 1];
    var own := seq(|x.sets|, k requires 0 <= k < |x.sets| => SetLine(w, x, k, show));
    assert WorkoutSetLines(w, xs, show) == WorkoutSetLines(w, front, show) + own;
    if m == |xs| - 1 {
      assert xs[..m] == front;
    } else {
      assert front[..m] == xs[..m] && front[m] == xs[m];
      WorkoutSetLineAt(w, front, m, i, show);
    }
  }

  /** Set `i` of exercise `m` of workout `j` is data line
      `TotalSets(ws[..j]) + SetCount(ws[j].exercises[..m]) + i`: every set
      is written once, workout by workout, exercise by exercise, set by
      set. */
  lemma {:induction false} SetLineAt(ws: seq<Workout>, j: nat, m: nat, i: nat, show: Num -> string)
    requires j < |ws| && m < |ws[j].exercises| && i < |ws[j].exercises[m].sets|
    ensures TotalSets(ws[..j]) + SetCount(ws[j].exercises[..m]) + i < |SetLines(ws, show)|
    ensures SetLines(ws, show)[TotalSets(ws[..j]) + SetCount(ws[j].exercises[..m]) + i]
      == SetLine(ws[j], ws[j].exercises[m], i, show)
  {
    if j == |ws| - 1 {
      LastWorkoutSetLineAt(ws, j, m, i, show);
    } else {
      var front := ws[..|ws| - 1];
      var a := SetLines(front, show);
      var b := WorkoutSetLines(ws[|ws| - 1], ws[|ws| - 1].exercises, show);
      assert SetLines(ws, show) == a + b;
      assert front[..j] == ws[..j] && front[j] == ws[j];
      SetLineAt(front, j, m, i, show);
      var k := TotalSets(ws[..j]) + SetCount(ws[j].exercises[..m]) + i;
      var x := SetLine(ws[j], ws[j].exercises[m], i, show);
      assert k < |a| && a[k] == x;
      PrefixIndex(SetLines(ws, show), a, b, k, x);
    }
  }

  /** The sets of the last workout follow the lines of all the others. */
  lemma LastWorkoutSetLineAt(ws: seq<Workout>, j: nat, m: nat, i: nat, show: Num -> string)
    requires j == |ws| - 1 && m < |ws[j].exercises| && i < |ws[j].exercises[m].sets|
    ensures TotalSets(ws[..j]) + SetCount(ws[j].exercises[..m]) + i < |SetLines(ws, show)|
    ensures SetLines(ws, show)[TotalSets(ws[..j]) + SetCount(ws[j].exercises[..m]) + i]
      == SetLine(ws[j], ws[j].exercises[m], i, show)
  {
    var w := ws[j];
    var a := SetLines(ws[..j], show);
    var b := WorkoutSetLines(w, w.exercises, show);
    assert SetLines(ws, show) == a + b;
    WorkoutSetLineAt(w, w.exercises, m, i, show);
    ConcatRight(a, b, SetCount(w.exercises[..m]) + i);
  }

  lemma PrefixIndex<T>(full: seq<T>, a: seq<T>, b: seq<T>, k: nat, x: T)
    requires full == a + b && k < |a| && a[k] == x
    ensures k < |full| && full[k] == x
  {
  }

  lemma ConcatRight<T>(a: seq<T>, b: seq<T>, k: nat)
    requires k < |b|
    ensures (a + b)[|a| + k] == b[k]
  {
  }

  /** Every data line of the workout file is the row of one exported set. */
  lemma {:induction false} SetLinesFrom(ws: seq<Workout>, show: Num -> string)
    ensures forall line :: line in SetLines(ws, show) ==> IsSetLine(line, ws, show)
  {
    if |ws| > 0 {
      var front := ws[..|ws| - 1];
      var w := ws[|ws| - 1];
      SetLinesFrom(front, show);
      WorkoutSetLinesFrom(w, w.exercises, show);
      forall line | line in SetLines(ws, show)
        ensures IsSetLine(line, ws, show)
      {
        if line in SetLines(front, show) {
          var j, m, i :| 0 <= j < |front| && 0 <= m < |front[j].exercises| && 0 <= i < |front[j].exercises[m].sets| &&
            line == SetLine(front[j], front[j].exercises[m], i, show);
          assert front[j] == ws[j];
        } else {
          var m, i :| 0 <= m < |w.exercises| && 0 <= i < |w.exercises[m].sets| && line == SetLine(w, w.exercises[m], i, show);
          assert ws[|ws| - 1] == w;
        }
      }
    }
  }

  /** Every data line of the workout file reads back as the ten values of
      one exported set. */
  lemma ExportedSetLinesReadBack(ws: seq<Workout>, show: Num -> string)
    requires PlainNumbers(show)
    ensures forall line :: line in SetLines(ws, show) ==> LineOfSet(line, ws, show)
  {
    SetLinesFrom(ws, show);
    forall line | line in SetLines(ws, show)
      ensures LineOfSet(line, ws, show)
    {
      var j, m, i :| 0 <= j < |ws| && 0 <= m < |ws[j].exercises| && 0 <= i < |ws[j].exercises[m].sets| &&
        line == SetLine(ws[j], ws[j].exercises[m], i, show);
      SetLineIsRecord(ws[j], ws[j].exercises[m], i, show);
      ReadRecordLine(SetValues(ws[j], ws[j].exercises[m], i, show));
    }
  }

  /** The texts of the exported workouts hold no line feed. */
  predicate SingleLineTexts(ws: seq<Workout>) {
    forall j, m :: 0 <= j < |ws| && 0 <= m < |ws[j].exercises| ==>
      var x := ws[j].exercises[m];
      '\n' !in ws[j].date && '\n' !in ws[j].name && '\n' !in x.exerciseName &&
      '\n' !in OrEmpty(x.instructions) && '\n' !in OrEmpty(x.notes)
  }

  lemma SetLineSingle(w: Workout, x: WorkoutExercise, i: nat, show: Num -> string)
    requires i < |x.sets|
    requires PlainNumbers(show)
    requires '\n' !in w.date && '\n' !in w.name && '\n' !in x.exerciseName
    requires '\n' !in OrEmpty(x.instructions) && '\n' !in OrEmpty(x.notes)
    ensures '\n' !in SetLine(w, x, i, show)
  {
    var v := SetValues(w, x, i, show);
    IntTextPlain(i + 1);
    IntTextPlain(x.sets[i].reps);
    assert !NeedsQuoting(v[4]);
    assert !NeedsQuoting(v[7]) by {
      assert !NeedsQuoting("");
    }
    SetLineIsRecord(w, x, i, show);
    forall k | 0 <= k < |v|
      ensures '\n' !in v[k]
    {
    }
    RecordLineSingle(v);
  }

  lemma SetLinesSingle(ws: seq<Workout>, show: Num -> string)
    requires PlainNumbers(show)
    requires SingleLineTexts(ws)
    ensures forall line :: line in SetLines(ws, show) ==> '\n' !in line
  {
    SetLinesFrom(ws, show);
    forall line | line in SetLines(ws, show)
      ensures '\n' !in line
    {
      var j, m, i :| 0 <= j < |ws| && 0 <= m < |ws[j].exercises| && 0 <= i < |ws[j].exercises[m].sets| &&
        line == SetLine(ws[j], ws[j].exercises[m], i, show);
      SetLineSingle(ws[j], ws[j].exercises[m], i, show);
    }
  }

  lemma HeaderSingle()
    ensures '\n' !in WorkoutHeader
  {
    JoinKeeps(WorkoutColumns, '\n');
  }

  /** The exported workout file splits into the header and one line per
      set, each reading back as the ten values of an exported set. */
  lemma ExportedWorkoutsReadBack(ws: seq<Workout>, show: Num -> string)
    requires PlainNumbers(show)
    requires SingleLineTexts(ws)
    ensures var lines := Split(ExportWorkoutsToCsv(ws, show), '\n');
      && |lines| == 1 + TotalSets(ws)
      && lines[0] == WorkoutHeader
      && forall k :: 1 <= k < |lines| ==> LineOfSet(lines[k], ws, show)
  {
    var lines := [WorkoutHeader] + SetLines(ws, show);
    SetLinesSingle(ws, show);
    ExportedSetLinesReadBack(ws, show);
    forall k | 0 <= k < |lines|
      ensures '\n' !in lines[k]
    {
      if k > 0 {
        assert lines[k] in SetLines(ws, show);
      } else {
        HeaderSingle();
      }
    }
    SplitJoinedLines(lines);
    forall k | 1 <= k < |lines|
      ensures LineOfSet(lines[k], ws, show)
    {
      assert lines[k] in SetLines(ws, show);
    }
  }

  /** A row read back from the export uses the ten-column layout: the
      importer sees the set's own values, with the unit kilograms, so the
      weight is stored again without conversion. */
  lemma ExportedRowLayout(w: Workout, x: WorkoutExercise, i: nat, show: Num -> string)
    requires i < |x.sets|
    ensures var r := WorkoutRows.ReadRow(SetValues(w, x, i, show));
      && r.date == w.date && r.workoutName == w.name && r.exerciseName == x.exerciseName
      && r.setNumberText == IntToString(i + 1)
      && r.weightText == show(x.sets[i].weight)
      && r.repsText == IntToString(x.sets[i].reps)
      && r.durationText == DurationText(x.sets[i].duration, show)
      && r.instructions == Some(OrEmpty(x.instructions)) && r.notes == Some(OrEmpty(x.notes))
      && WorkoutRows.UnitOk(r) && !WorkoutRows.IsPounds(WorkoutRows.UnitKey(r.weightUnit))
  {
    KilogramUnitKey();
  }

  lemma KilogramUnitKey()
    ensures WorkoutRows.UnitKey("kg") == "kg"
  {
    var kg := "kg";
    assert Lower(kg) == kg by {
      assert |Lower(kg)| == 2 && Lower(kg)[0] == LowerChar('k') && Lower(kg)[1] == LowerChar('g');
    }
    assert !IsSpace(kg[0]) && !IsSpace(kg[1]);
    assert TrimStart(kg) == kg;
    assert TrimEnd(kg) == kg;
  }
}

=== FILE: csv_workout_import.dfy ===
/** `importWorkoutsFromCSV` of src/lib/utils/csv.ts:160-390: check every
    row, group the accepted rows into workouts, then insert each workout
    that the database does not already hold under the same date and
    (lower-cased) name. Exercises take the catalog's id and spelling; the
    instructions and notes of an exercise are those of its first set after
    sorting by set number. */
module CsvWorkoutImport {
  import opened Base
  import opened Text
  import opened Assoc
  import opened Records
  import opened Messages
  import opened Outcomes
  import opened WorkoutRows
  import opened SetOrder
  import opened WorkoutGrouping

  /** What the sorted sets are stored as: every set starts not completed. */
  function ToEntry(s: SetData): SetEntry {
    SetEntry(s.weight, s.reps, s.duration, false)
  }

  function ToEntries(sets: seq<SetData>): (es: seq<SetEntry>)
    ensures |es| == |sets|
    ensures forall i :: 0 <= i < |sets| ==> es[i] == ToEntry(sets[i])
  {
    seq(|sets|, i requires 0 <= i < |sets| => ToEntry(sets[i]))
  }

  /** The message of the `TypeError` thrown by `exercise.id` when the
      catalog lookup comes back `undefined` (the JavaScript engine's text). */
  const MissingEntryMessage: string := "Cannot read properties of undefined (reading 'id')"

  /** One exercise of a workout (csv.ts:353-372): `None` when the catalog
      has no exercise of that lower-cased name, which throws. */
  function BuildExercise(name: string, sets: seq<SetData>, catalog: seq<CatalogEntry>): (r: Option<WorkoutExercise>)
    ensures r.None? <==> !ExerciseKnown(catalog, name)
    ensures r.Some? ==>
      && CatalogEntry(r.value.exerciseId, r.value.exerciseName) in catalog
      && Lower(r.value.exerciseName) == Lower(name)
      && r.value.sets == ToEntries(SortBySetNumber(sets))
      && (|sets| == 0 ==> r.value.instructions.None? && r.value.notes.None?)
  {
    match LookupExercise(catalog, name)
    case None => None
    case Some(entry) =>
      var sorted := SortBySetNumber(sets);
      Some(WorkoutExercise(entry.id, entry.name, ToEntries(sorted),
        if |sorted| > 0 then sorted[0].instructions else None,
        if |sorted| > 0 then sorted[0].notes else None))
  }

  /** Every exercise of a workout, or `None` if one of them throws. */
  function BuildExercises(exercises: Groups<string, SetData>, catalog: seq<CatalogEntry>): (r: Option<seq<WorkoutExercise>>)
    ensures r.None? <==> exists j :: 0 <= j < |exercises| && !ExerciseKnown(catalog, exercises[j].0)
    ensures r.Some? ==> |r.value| == |exercises|
    ensures r.Some? ==> forall j :: 0 <= j < |exercises| ==>
      Some(r.value[j]) == BuildExercise(exercises[j].0, exercises[j].1, catalog)
  {
    if |exercises| == 0 then Some([])
    else
      var front := exercises[..|exercises| - 1];
      var last := exercises[|exercises| - 1];
      assert forall j :: 0 <= j < |exercises| - 1 ==> front[j] == exercises[j];
      match BuildExercises(front, catalog)
      case None => None
      case Some(es) =>
        match BuildExercise(last.0, last.1, catalog)
        case None => None
        case Some(e) =>
          MapSnoc(front, es, last, e, (p: (string, seq<SetData>)) => BuildExercise(p.0, p.1, catalog));
          LastSplit(exercises);
          Some(es + [e])
  }

  /** One workout entry of the map (csv.ts:344-386). */
  function WorkoutOutcome(g: WorkoutGroup, catalog: seq<CatalogEntry>, existingKeys: seq<string>, st: Storage): (o: Outcome<Workout>)
    ensures o == Skipped <==> DuplicateKey(g.date, g.name) in existingKeys
    ensures o.Failed? ==> !o.alsoSkipped
    ensures o.Inserted? ==> o.item.name == g.name && o.item.date == g.date && |o.item.exercises| == |g.exercises|
    ensures o.Inserted? ==>
      BuildExercises(g.exercises, catalog).Some? && o.item == Workout(g.name, g.date, BuildExercises(g.exercises, catalog).value, None)
    ensures DuplicateKey(g.date, g.name) !in existingKeys && BuildExercises(g.exercises, catalog).None? ==>
      o == Failed(WorkoutFailed(g.name, g.date, MissingEntryMessage), false)
  {
    if DuplicateKey(g.date, g.name) in existingKeys then Skipped
    else
      match BuildExercises(g.exercises, catalog)
      case None => Failed(WorkoutFailed(g.name, g.date, MissingEntryMessage), false)
      case Some(exercises) =>
        var w := Workout(g.name, g.date, exercises, None);
        match st.workoutFault(w)
        case Some(message) => Failed(WorkoutFailed(g.name, g.date, message), false)
        case None => Inserted(w)
  }

  function WorkoutOutcomes(m: WorkoutMap, catalog: seq<CatalogEntry>, existingKeys: seq<string>, st: Storage): (outs: seq<Outcome<Workout>>)
    ensures |outs| == |m|
    ensures forall i :: 0 <= i < |m| ==> outs[i] == WorkoutOutcome(m[i].1, catalog, existingKeys, st)
  {
    seq(|m|, i requires 0 <= i < |m| => WorkoutOutcome(m[i].1, catalog, existingKeys, st))
  }

  /** The workout map of a file's data rows. */
  function GroupFile(dataLines: seq<seq<string>>, catalog: seq<CatalogEntry>, p: NumParsers): WorkoutMap {
    GroupRows(AcceptedRows(ValidateAll(dataLines, catalog, p)))
  }

  /** What the importer stores: a workout of a valid date that the database
      did not hold, with at least one exercise, each exercise a catalog entry
      with at least one set, every set checked and not completed. */
  predicate SoundWorkout(w: Workout, catalog: seq<CatalogEntry>, existingKeys: seq<string>) {
    && IsIsoDate(w.date)
    && DuplicateKey(w.date, w.name) !in existingKeys
    && |w.exercises| > 0
    && forall j :: 0 <= j < |w.exercises| ==> ExerciseSound(w.exercises[j], catalog)
  }

  /** The importer end to end. */
  function ImportWorkoutsFromCsv(p: ParseResult, catalog: seq<CatalogEntry>, existing: seq<Workout>, parsers: NumParsers, st: Storage): (t: Tally<Workout>)
    ensures |p.parseErrors| > 0 ==> t.success == 0 && t.skipped == 0 && |t.errors| == |p.parseErrors|
    ensures |p.parseErrors| == 0 && |p.rows| < 2 ==> t == Tally(0, 0, [EmptyCsv], [])
    ensures |p.parseErrors| == 0 && |p.rows| >= 2 ==> t == ImportRows(p.rows[1..], catalog, existing, parsers, st)
    ensures t.success == |t.inserted|
    ensures forall w :: w in t.inserted ==> SoundWorkout(w, catalog, ExistingKeys(existing))
  {
    match EarlyReturn(p)
    case Some(early) => early
    case None => ImportRows(p.rows[1..], catalog, existing, parsers, st)
  }

  /** The data rows, once the file parsed and has any. Rejected rows are
      reported first, in file order, then the failures of whole workouts. */
  function ImportRows(dataLines: seq<seq<string>>, catalog: seq<CatalogEntry>, existing: seq<Workout>, parsers: NumParsers, st: Storage): (t: Tally<Workout>)
    ensures t.success == |t.inserted|
    ensures RowErrors(ValidateAll(dataLines, catalog, parsers)) <= t.errors
    ensures t.success + t.skipped <= |GroupFile(dataLines, catalog, parsers)| <= |AcceptedRows(ValidateAll(dataLines, catalog, parsers))|
    ensures forall w :: w in t.inserted ==> SoundWorkout(w, catalog, ExistingKeys(existing))
  {
    var rowErrors := RowErrors(ValidateAll(dataLines, catalog, parsers));
    var m := GroupFile(dataLines, catalog, parsers);
    var t := StoreWorkouts(m, catalog, ExistingKeys(existing), st);
    GroupFileBound(dataLines, catalog, parsers);
    GroupsBuild(dataLines, catalog, parsers);
    PrependErrors(rowErrors, t)
  }

  function PrependErrors<T>(errors: seq<ImportError>, t: Tally<T>): (r: Tally<T>)
    ensures r.errors == errors + t.errors
    ensures r.success == t.success && r.skipped == t.skipped && r.inserted == t.inserted
  {
    t.(errors := errors + t.errors)
  }

  /** The second phase: every workout entry in the map's order. */
  function StoreWorkouts(m: WorkoutMap, catalog: seq<CatalogEntry>, existingKeys: seq<string>, st: Storage): (t: Tally<Workout>)
    ensures t.success == |t.inserted|
    ensures t.success + t.skipped <= |m|
    ensures (forall i :: 0 <= i < |m| ==> SoundGroup(m[i].1, catalog)) ==>
      forall w :: w in t.inserted ==> SoundWorkout(w, catalog, existingKeys)
  {
    var outs := WorkoutOutcomes(m, catalog, existingKeys, st);
    var t := TallyAll(outs);
    if forall i :: 0 <= i < |m| ==> SoundGroup(m[i].1, catalog) then
      InsertedSound(m, catalog, existingKeys, st);
      t
    else t
  }

  lemma GroupFileBound(dataLines: seq<seq<string>>, catalog: seq<CatalogEntry>, parsers: NumParsers)
    ensures |GroupFile(dataLines, catalog, parsers)| <= |AcceptedRows(ValidateAll(dataLines, catalog, parsers))|
  {
    GroupCountBound(AcceptedRows(ValidateAll(dataLines, catalog, parsers)));
  }

  /** There are at most as many workouts as accepted rows. */
  lemma GroupCountBound(rows: seq<ValidRow>)
    ensures |GroupRows(rows)| <= |rows|
  {
    GroupRowsKeys(rows);
    DedupeShorter(RowKeys(rows));
  }

  /** Every workout entry builds: its exercise names all come from accepted
      rows, whose exercise the catalog holds. So the `TypeError` branch is
      never taken. */
  lemma GroupsBuild(dataLines: seq<seq<string>>, catalog: seq<CatalogEntry>, parsers: NumParsers)
    ensures var m := GroupFile(dataLines, catalog, parsers);
      forall i :: 0 <= i < |m| ==> SoundGroup(m[i].1, catalog) && BuildExercises(m[i].1.exercises, catalog).Some?
  {
    AcceptedRowsSound(dataLines, catalog, parsers);
    GroupsSound(AcceptedRows(ValidateAll(dataLines, catalog, parsers)), catalog);
  }

  lemma InsertedSound(m: WorkoutMap, catalog: seq<CatalogEntry>, existingKeys: seq<string>, st: Storage)
    requires forall i :: 0 <= i < |m| ==> SoundGroup(m[i].1, catalog)
    ensures forall w :: w in InsertedItems(WorkoutOutcomes(m, catalog, existingKeys, st)) ==> SoundWorkout(w, catalog, existingKeys)
  {
    var outs := WorkoutOutcomes(m, catalog, existingKeys, st);
    InsertedItemsFrom(outs);
    forall w | w in InsertedItems(outs)
      ensures SoundWorkout(w, catalog, existingKeys)
    {
      var j :| 0 <= j < |outs| && outs[j] == Inserted(w);
      OutcomeSound(m[j].1, catalog, existingKeys, st);
    }
  }

  lemma OutcomeSound(g: WorkoutGroup, catalog: seq<CatalogEntry>, existingKeys: seq<string>, st: Storage)
    requires SoundGroup(g, catalog)
    requires WorkoutOutcome(g, catalog, existingKeys, st).Inserted?
    ensures SoundWorkout(WorkoutOutcome(g, catalog, existingKeys, st).item, catalog, existingKeys)
  {
    var w := WorkoutOutcome(g, catalog, existingKeys, st).item;
    var es := BuildExercises(g.exercises, catalog).value;
    assert w.exercises == es;
    forall j | 0 <= j < |es|
      ensures ExerciseSound(es[j], catalog)
    {
      assert Some(es[j]) == BuildExercise(g.exercises[j].0, g.exercises[j].1, catalog);
      BuiltExerciseSound(g.exercises[j].0, g.exercises[j].1, catalog);
    }
  }

  predicate ExerciseSound(e: WorkoutExercise, catalog: seq<CatalogEntry>) {
    && CatalogEntry(e.exerciseId, e.exerciseName) in catalog
    && |e.sets| > 0
    && forall k :: 0 <= k < |e.sets| ==> !e.sets[k].completed && NonNegative(e.sets[k].weight) && e.sets[k].reps >= 0
  }

  lemma BuiltExerciseSound(name: string, sets: seq<SetData>, catalog: seq<CatalogEntry>)
    requires ExerciseKnown(catalog, name) && |sets| > 0
    requires forall s :: s in sets ==> SoundSet(s)
    ensures ExerciseSound(BuildExercise(name, sets, catalog).value, catalog)
  {
    var sorted := SortBySetNumber(sets);
    var es := ToEntries(sorted);
    assert BuildExercise(name, sets, catalog).value.sets == es;
    forall k | 0 <= k < |sorted|
      ensures SoundSet(sorted[k])
    {
      assert sorted[k] in multiset(sets);
    }
  }

  /** Importing the same file again once its workouts are stored skips
      every one of them. */
  lemma ReimportSkips(g: WorkoutGroup, catalog: seq<CatalogEntry>, existing: seq<Workout>, st: Storage, st2: Storage)
    requires WorkoutOutcome(g, catalog, ExistingKeys(existing), st).Inserted?
    ensures var w := WorkoutOutcome(g, catalog, ExistingKeys(existing), st).item;
      WorkoutOutcome(g, catalog, ExistingKeys(existing + [w]), st2) == Skipped
  {
    var w := WorkoutOutcome(g, catalog, ExistingKeys(existing), st).item;
    assert ExistingKeys(existing + [w])[|existing|] == DuplicateKey(g.date, g.name);
  }

  /** The instructions and notes stored for an exercise are those of a set
      with the lowest set number, the first such set in the file. */
  lemma ExerciseNotesFromFirstSet(name: string, sets: seq<SetData>, catalog: seq<CatalogEntry>)
    requires |sets| > 0 && ExerciseKnown(catalog, name)
    ensures var e := BuildExercise(name, sets, catalog).value;
      exists s :: s in sets
        && (forall x :: x in sets ==> s.setNumber <= x.setNumber)
        && |WithSetNumber(sets, s.setNumber)| > 0
        && s == WithSetNumber(sets, s.setNumber)[0]
        && e.instructions == s.instructions && e.notes == s.notes
  {
    FirstAfterSort(sets);
    var sorted := SortBySetNumber(sets);
    var s := sorted[0];
    assert s in multiset(sets);
    var e := BuildExercise(name, sets, catalog).value;
    var entry := LookupExercise(catalog, name).value;
    assert e == WorkoutExercise(entry.id, entry.name, ToEntries(sorted), s.instructions, s.notes);
    assert s in sets;
  }

  /** The sets a built workout holds are the sets of its entry. */
  lemma {:induction false} BuiltSetCount(exercises: Groups<string, SetData>, catalog: seq<CatalogEntry>)
    requires BuildExercises(exercises, catalog).Some?
    ensures SetCount(BuildExercises(exercises, catalog).value) == Count(exercises)
  {
    if |exercises| > 0 {
      var front := exercises[..|exercises| - 1];
      BuiltSetCount(front, catalog);
      var es := BuildExercises(exercises, catalog).value;
      assert es[..|es| - 1] == BuildExercises(front, catalog).value;
    }
  }

  /** With storage that never fails, every new entry whose exercises all
      resolve is inserted. */
  lemma AllInserted(m: WorkoutMap, catalog: seq<CatalogEntry>, existingKeys: seq<string>, st: Storage)
    requires Reliable(st)
    requires forall i :: 0 <= i < |m| ==> BuildExercises(m[i].1.exercises, catalog).Some?
    requires forall i :: 0 <= i < |m| ==> DuplicateKey(m[i].1.date, m[i].1.name) !in existingKeys
    ensures forall i :: 0 <= i < |m| ==> WorkoutOutcomes(m, catalog, existingKeys, st)[i].Inserted?
  {
    var outs := WorkoutOutcomes(m, catalog, existingKeys, st);
    forall i | 0 <= i < |m|
      ensures outs[i].Inserted?
    {
      var w := Workout(m[i].1.name, m[i].1.date, BuildExercises(m[i].1.exercises, catalog).value, None);
      assert st.workoutFault(w).None?;
    }
  }

  /** When every entry is inserted, the stored workouts hold every set of
      the map. */
  lemma {:induction false} StoredSetCount(m: WorkoutMap, catalog: seq<CatalogEntry>, existingKeys: seq<string>, st: Storage)
    requires forall i :: 0 <= i < |m| ==> WorkoutOutcomes(m, catalog, existingKeys, st)[i].Inserted?
    ensures TotalSets(InsertedItems(WorkoutOutcomes(m, catalog, existingKeys, st))) == SetTotal(m)
    ensures |InsertedItems(WorkoutOutcomes(m, catalog, existingKeys, st))| == |m|
  {
    if |m| > 0 {
      var outs := WorkoutOutcomes(m, catalog, existingKeys, st);
      var front := m[..|m| - 1];
      var g := m[|m| - 1].1;
      assert outs[..|outs| - 1] == WorkoutOutcomes(front, catalog, existingKeys, st);
      StoredSetCount(front, catalog, existingKeys, st);
      var last := outs[|outs| - 1];
      assert last == WorkoutOutcome(g, catalog, existingKeys, st);
      assert last.item.exercises == BuildExercises(g.exercises, catalog).value;
      BuiltSetCount(g.exercises, catalog);
      var items := InsertedItems(outs);
      assert items == InsertedItems(outs[..|outs| - 1]) + [last.item];
      assert items[..|items| - 1] == InsertedItems(outs[..|outs| - 1]);
    }
  }

  /** Into an empty database with storage that never fails, every accepted
      row becomes exactly one stored set, and the only errors are those of
      the rejected rows. */
  lemma EveryAcceptedRowStored(p: ParseResult, catalog: seq<CatalogEntry>, parsers: NumParsers, st: Storage)
    requires Reliable(st) && |p.parseErrors| == 0 && |p.rows| >= 2
    ensures var t := ImportWorkoutsFromCsv(p, catalog, [], parsers, st);
      var outs := ValidateAll(p.rows[1..], catalog, parsers);
      && TotalSets(t.inserted) == |AcceptedRows(outs)|
      && t.errors == RowErrors(outs)
      && t.skipped == 0
  {
    var dataLines := p.rows[1..];
    var outs := ValidateAll(dataLines, catalog, parsers);
    var m := GroupFile(dataLines, catalog, parsers);
    GroupsBuild(dataLines, catalog, parsers);
    assert ExistingKeys([]) == [];
    AllInserted(m, catalog, [], st);
    StoredSetCount(m, catalog, [], st);
    GroupRowsKeepsEverySet(AcceptedRows(outs));
    var wouts := WorkoutOutcomes(m, catalog, [], st);
    NoFailures(wouts);
    var stored := StoreWorkouts(m, catalog, [], st);
    assert stored == TallyAll(wouts);
    assert ImportRows(dataLines, catalog, [], parsers, st) == PrependErrors(RowErrors(outs), stored);
  }
}

=== FILE: dates.dfy ===
/** Local calendar dates (src/lib/utils/date.ts), on an explicit proleptic
    Gregorian calendar in place of JavaScript's `Date`: the date part of a
    local time is a year, a month counted from 0 as `getMonth` returns it,
    and a day of the month. */
module Dates {
  import opened Base
  import opened Text

  datatype CalendarDate = CalendarDate(year: int, month: int, day: int)

  predicate IsLeapYear(y: int) {
    (y % 4 == 0 && y % 100 != 0) || y % 400 == 0
  }

  function DaysInMonth(y: int, m: int): (n: int)
    requires 0 <= m < 12
    ensures 28 <= n <= 31
    ensures n == 29 <==> m == 1 && IsLeapYear(y)
  {
    if m == 1 then (if IsLeapYear(y) then 29 else 28)
    else if m == 3 || m == 5 || m == 8 || m == 10 then 30
    else 31
  }

  /** A date that exists in the calendar. */
  predicate Valid(d: CalendarDate) {
    0 <= d.month < 12 && 1 <= d.day <= DaysInMonth(d.year, d.month)
  }

  /** The day after a valid date. */
  function NextDay(d: CalendarDate): (r: CalendarDate)
    requires Valid(d)
    ensures Valid(r)
    ensures r.year == d.year || (r.year == d.year + 1 && r.month == 0 && r.day == 1)
  {
    if d.day < DaysInMonth(d.year, d.month) then d.(day := d.day + 1)
    else if d.month < 11 then CalendarDate(d.year, d.month + 1, 1)
    else CalendarDate(d.year + 1, 0, 1)
  }

  /** Days from 1 March of year `y - 1` to 1 March of year `y`, counted in
      400-year eras of 146097 days. */
  function MarchDays(y: int): int {
    var era := y / 400;
    var yoe := y - era * 400;
    era * 146097 + yoe * 365 + yoe / 4 - yoe / 100
  }

  /** Days from 1 March to the first of the month `mp` months later. */
  function MonthOffset(mp: int): int {
    (153 * mp + 2) / 5
  }

  /** The number of days from 1 January 1970 (negative before it): the
      civil-from-days reckoning, whose years begin on 1 March so that the
      leap day comes last. */
  function DayNumber(d: CalendarDate): int {
    var yy := if d.month < 2 then d.year - 1 else d.year;
    MarchDays(yy) + MonthOffset((d.month + 10) % 12) + d.day - 1 - 719468
  }

  /** `getDay()` of the day numbered `n`: 0 for Sunday up to 6 for
      Saturday. */
  function WeekdayOf(n: int): (w: int)
    ensures 0 <= w < 7
  {
    (n + 4) % 7
  }

  function Weekday(d: CalendarDate): (w: int)
    ensures 0 <= w < 7
  {
    WeekdayOf(DayNumber(d))
  }

  /** Day 0 is Thursday, 1 January 1970. */
  lemma Epoch()
    ensures DayNumber(CalendarDate(1970, 0, 1)) == 0
    ensures Weekday(CalendarDate(1970, 0, 1)) == 4
  {
    assert 1969 / 400 == 4 && 369 / 4 == 92 && 369 / 100 == 3;
    assert MarchDays(1969) == 719162;
    assert (0 + 10) % 12 == 10 && MonthOffset(10) == 306;
  }

  lemma MarchYear(y: int)
    ensures MarchDays(y) - MarchDays(y - 1) == if IsLeapYear(y) then 366 else 365
  {
    var e := y / 400;
    var o := y - e * 400;
    assert 0 <= o < 400;
    if o == 0 {
      assert (y - 1) / 400 == e - 1;
      assert y % 400 == 0;
    } else {
      assert (y - 1) / 400 == e;
      assert (y - 1) - e * 400 == o - 1;
      EraRemainders(y, e, o);
      DivStep(o);
    }
  }

  /** `o / 4` and `o / 100` step up by one exactly where 4 and 100
      divide `o`. */
  lemma DivStep(o: int)
    requires 0 < o
    ensures o / 4 - (o - 1) / 4 == if o % 4 == 0 then 1 else 0
    ensures o / 100 - (o - 1) / 100 == if o % 100 == 0 then 1 else 0
  {
  }

  /** A year and its place in its 400-year era agree on leap-year
      divisibility. */
  lemma EraRemainders(y: int, e: int, o: int)
    requires y == e * 400 + o
    ensures y % 4 == o % 4 && y % 100 == o % 100 && y % 400 == o % 400
  {
    ModShift(o, e);
  }

  /** Adding a multiple of 400 keeps the remainders modulo 4, 100 and
      400. */
  lemma ModShift(o: int, e: int)
    ensures (e * 400 + o) % 4 == o % 4
    ensures (e * 400 + o) % 100 == o % 100
    ensures (e * 400 + o) % 400 == o % 400
  {
    ModBy4(e * 400 + o, 100 * e + o / 4, o % 4);
    ModBy100(e * 400 + o, 4 * e + o / 100, o % 100);
    ModBy400(e * 400 + o, e + o / 400, o % 400);
  }

  lemma ModBy4(y: int, q: int, r: int)
    requires y == 4 * q + r && 0 <= r < 4
    ensures y % 4 == r
  {
  }

  lemma ModBy100(y: int, q: int, r: int)
    requires y == 100 * q + r && 0 <= r < 100
    ensures y % 100 == r
  {
  }

  lemma ModBy400(y: int, q: int, r: int)
    requires y == 400 * q + r && 0 <= r < 400
    ensures y % 400 == r
  {
  }

  /** The month lengths from March on, as the offsets space them. */
  lemma MonthOffsetStep(m: int, y: int)
    requires 0 <= m < 12 && m != 1 && m != 11
    ensures MonthOffset((m + 10) % 12 + 1) - MonthOffset((m + 10) % 12) == DaysInMonth(y, m)
    ensures (m + 1 + 10) % 12 == (m + 10) % 12 + 1
  {
    if m == 0 {} else if m == 2 {} else if m == 3 {} else if m == 4 {} else if m == 5 {}
    else if m == 6 {} else if m == 7 {} else if m == 8 {} else if m == 9 {} else {}
  }

  /** Consecutive days have consecutive day numbers. */
  lemma DayNumberNext(d: CalendarDate)
    requires Valid(d)
    ensures DayNumber(NextDay(d)) == DayNumber(d) + 1
  {
    if d.day < DaysInMonth(d.year, d.month) {
      assert NextDay(d) == d.(day := d.day + 1);
    } else if d.month == 1 {
      assert NextDay(d) == CalendarDate(d.year, 2, 1);
      MarchFirst(d.year, d.day);
    } else if d.month == 11 {
      assert NextDay(d) == CalendarDate(d.year + 1, 0, 1);
      NewYear(d.year);
    } else {
      assert NextDay(d) == CalendarDate(d.year, d.month + 1, 1);
      MonthOffsetStep(d.month, d.year);
      NextMonth(d.year, d.month, d.day);
    }
  }

  /** The last day of February is followed by 1 March. */
  lemma MarchFirst(y: int, last: int)
    requires last == DaysInMonth(y, 1)
    ensures DayNumber(CalendarDate(y, 2, 1)) == DayNumber(CalendarDate(y, 1, last)) + 1
  {
    MarchYear(y);
    assert (2 + 10) % 12 == 0 && (1 + 10) % 12 == 11;
    assert MonthOffset(11) == 337 && MonthOffset(0) == 0;
    assert last == if IsLeapYear(y) then 29 else 28;
    assert DayNumber(CalendarDate(y, 2, 1)) == MarchDays(y) - 719468;
    assert DayNumber(CalendarDate(y, 1, last)) == MarchDays(y - 1) + 337 + last - 1 - 719468;
  }

  /** 31 December is followed by 1 January. */
  lemma NewYear(y: int)
    ensures DayNumber(CalendarDate(y + 1, 0, 1)) == DayNumber(CalendarDate(y, 11, 31)) + 1
  {
    assert MonthOffset(9) == 275 && MonthOffset(10) == 306;
  }

  /** The last day of any other month is followed by the first of the
      next. */
  lemma NextMonth(y: int, m: int, last: int)
    requires 0 <= m < 12 && m != 1 && m != 11
    requires MonthOffset((m + 10) % 12 + 1) - MonthOffset((m + 10) % 12) == last
    requires (m + 1 + 10) % 12 == (m + 10) % 12 + 1
    ensures DayNumber(CalendarDate(y, m + 1, 1)) == DayNumber(CalendarDate(y, m, last)) + 1
  {
  }

  lemma WeekdayOfNext(n: int)
    ensures WeekdayOf(n + 1) == (WeekdayOf(n) + 1) % 7
  {
    var a := n + 4;
    var q := a / 7;
    assert a == 7 * q + a % 7;
    if a % 7 == 6 {
      assert a + 1 == 7 * (q + 1);
    } else {
      assert a + 1 == 7 * q + (a % 7 + 1);
    }
  }

  /** Consecutive days fall on consecutive weekdays. */
  lemma WeekdayNext(d: CalendarDate)
    requires Valid(d)
    ensures Weekday(NextDay(d)) == (Weekday(d) + 1) % 7
  {
    DayNumberNext(d);
    WeekdayOfNext(DayNumber(d));
  }

  // ---------------------------------------------------------------------
  // The `Date` constructor

  /** `new Date(y, …)` reads a year argument from 0 to 99 as 1900 to 1999. */
  function FullYear(y: int): int {
    if 0 <= y <= 99 then 1900 + y else y
  }

  function PrevMonth(y: int, m: int): (r: (int, int))
    requires 0 <= m < 12
    ensures 0 <= r.1 < 12
  {
    if m == 0 then (y - 1, 11) else (y, m - 1)
  }

  /** A day of the month out of range rolls over into the neighbouring
      months, as the `Date` constructor and `setDate` do. */
  function Normalize(y: int, m: int, d: int): (r: CalendarDate)
    requires 0 <= m < 12
    ensures Valid(r)
    decreases if d < 1 then 1 else 0, if d < 1 then -d else d
  {
    if d < 1 then
      var p := PrevMonth(y, m);
      Normalize(p.0, p.1, d + DaysInMonth(p.0, p.1))
    else if d > DaysInMonth(y, m) then
      if m < 11 then Normalize(y, m + 1, d - DaysInMonth(y, m))
      else Normalize(y + 1, 0, d - DaysInMonth(y, m))
    else CalendarDate(y, m, d)
  }

  /** The date part of `new Date(y, m, d)` for integer arguments: month
      overflow moves the year, day overflow moves the month. */
  function MakeDate(y: int, m: int, d: int): (r: CalendarDate)
    ensures Valid(r)
  {
    Normalize(FullYear(y) + m / 12, m % 12, d)
  }

  /** A month argument from 0 to 11 needs no carry into the year. */
  lemma MakeDateInYear(y: int, m: int, d: int)
    requires 0 <= m < 12
    ensures MakeDate(y, m, d) == Normalize(FullYear(y), m, d)
  {
    assert m / 12 == 0 && m % 12 == m;
  }

  /** A date in range is its own normal form. */
  lemma NormalizeValid(d: CalendarDate)
    requires Valid(d)
    ensures Normalize(d.year, d.month, d.day) == d
  {
  }

  /** Day 0 of a month is the last day of the month before. */
  lemma NormalizeDayZero(y: int, m: int)
    requires 0 <= m < 12
    ensures var p := PrevMonth(y, m);
      Normalize(y, m, 0) == CalendarDate(p.0, p.1, DaysInMonth(p.0, p.1))
  {
  }

  /** One past the last day is the first of the next month. */
  lemma NormalizePastEnd(y: int, m: int)
    requires 0 <= m < 12
    ensures Normalize(y, m, DaysInMonth(y, m) + 1) ==
      if m < 11 then CalendarDate(y, m + 1, 1) else CalendarDate(y + 1, 0, 1)
  {
    var n := DaysInMonth(y, m) + 1;
    if m < 11 {
      assert Normalize(y, m, n) == Normalize(y, m + 1, 1);
    } else {
      assert Normalize(y, m, n) == Normalize(y + 1, 0, 1);
    }
  }

  /** `setDate(getDate() + 1)` moves to the next day. */
  lemma NormalizeNext(d: CalendarDate)
    requires Valid(d)
    ensures Normalize(d.year, d.month, d.day + 1) == NextDay(d)
  {
    if d.day == DaysInMonth(d.year, d.month) {
      NormalizePastEnd(d.year, d.month);
    }
  }

  // ---------------------------------------------------------------------
  // Formatting and parsing

  /** `formatLocalDate(date)`: the year as printed, then the month counted
      from 1 and the day, each padded to two digits, joined with `-`. */
  function FormatLocalDate(d: CalendarDate): (s: string)
    requires Valid(d)
  {
    IntToString(d.year) + "-" + PadStart2(IntToString(d.month + 1)) + "-" + PadStart2(IntToString(d.day))
  }

  /** A number from 1 to 99 printed with two digits. */
  lemma TwoDigits(n: int)
    requires 1 <= n < 100
    ensures var s := PadStart2(IntToString(n));
      |s| == 2 && AllDigits(s) && DecimalValue(s) == n
  {
    var t := NatToString(n);
    DecimalValueOfNatToString(n);
    if |t| == 1 {
      DecimalValueLeadingZero(t);
    }
  }

  /** Splitting `a-b-c` where no piece holds a dash. */
  lemma SplitThree(a: string, b: string, c: string)
    requires '-' !in a && '-' !in b && '-' !in c
    ensures Split(a + "-" + b + "-" + c, '-') == [a, b, c]
  {
    assert a + "-" + b + "-" + c == a + ['-'] + (b + ['-'] + c);
    SplitAt(a, b + ['-'] + c, '-');
    SplitAt(b, c, '-');
    SplitNoSeparator(c, '-');
  }

  /** The pieces of a formatted date, for a year from 0 on. */
  lemma FormatPieces(d: CalendarDate)
    requires Valid(d) && d.year >= 0
    ensures var parts := Split(FormatLocalDate(d), '-');
      && |parts| == 3
      && AllDigits(parts[0]) && parts[0] != "" && DecimalValue(parts[0]) == d.year
      && |parts[1]| == 2 && AllDigits(parts[1]) && DecimalValue(parts[1]) == d.month + 1
      && |parts[2]| == 2 && AllDigits(parts[2]) && DecimalValue(parts[2]) == d.day
  {
    var y := IntToString(d.year);
    var mm := PadStart2(IntToString(d.month + 1));
    var dd := PadStart2(IntToString(d.day));
    DecimalValueOfNatToString(d.year);
    TwoDigits(d.month + 1);
    TwoDigits(d.day);
    NoDash(y);
    NoDash(mm);
    NoDash(dd);
    SplitThree(y, mm, dd);
  }

  lemma NoDash(s: string)
    requires AllDigits(s)
    ensures '-' !in s
  {
    forall k | 0 <= k < |s|
      ensures s[k] != '-'
    {
      assert IsDigit(s[k]);
    }
  }

  /** The result of `new Date(…)`: a date, or an Invalid Date when an
      argument is not a finite number. */
  datatype DateValue = InvalidDate | DateOf(date: CalendarDate)

  /** `ToIntegerOrInfinity` on a finite number: truncation toward zero. */
  function Truncate(x: real): (i: int)
    ensures x >= 0.0 ==> i == x.Floor
    ensures x < 0.0 ==> i == -((-x).Floor)
  {
    if x >= 0.0 then x.Floor else -((-x).Floor)
  }

  /** `Number(s)` on a string of decimal digits is its decimal value. */
  ghost predicate ReadsDigits(number: string -> Num) {
    forall s :: AllDigits(s) && s != "" ==> number(s) == FromInt(DecimalValue(s))
  }

  /** The `i`-th piece after `split('-').map(Number)`; a piece that is
      not there destructures as `undefined`, which becomes NaN. */
  function Piece(parts: seq<string>, i: nat, number: string -> Num): Num {
    if i < |parts| then number(parts[i]) else NaN
  }

  /** `parseLocalDate(dateString)`, with `Number` passed in. */
  function ParseLocalDate(s: string, number: string -> Num): (r: DateValue)
    ensures r.DateOf? ==> Valid(r.date)
    ensures r.DateOf? ==> |Split(s, '-')| >= 3
  {
    var parts := Split(s, '-');
    var y := Piece(parts, 0, number);
    var m := Piece(parts, 1, number);
    var d := Piece(parts, 2, number);
    if y.Finite? && m.Finite? && d.Finite? then
      DateOf(MakeDate(Truncate(y.value), Truncate(m.value - 1.0), Truncate(d.value)))
    else InvalidDate
  }

  /** Parsing text whose first three pieces read as whole numbers. */
  lemma ParseWholeNumbers(s: string, number: string -> Num, y: int, m: int, d: int)
    requires |Split(s, '-')| >= 3
    requires number(Split(s, '-')[0]) == FromInt(y)
    requires number(Split(s, '-')[1]) == FromInt(m)
    requires number(Split(s, '-')[2]) == FromInt(d)
    ensures ParseLocalDate(s, number) == DateOf(MakeDate(y, m - 1, d))
  {
    assert (m as real) - 1.0 == (m - 1) as real;
    assert Truncate((m - 1) as real) == m - 1;
    assert Truncate(y as real) == y;
    assert Truncate(d as real) == d;
  }

  /** A formatted date's pieces read back as its year, month counted from 1,
      and day. */
  lemma ParseFormattedPieces(d: CalendarDate, number: string -> Num)
    requires Valid(d) && d.year >= 0
    requires ReadsDigits(number)
    ensures ParseLocalDate(FormatLocalDate(d), number) == DateOf(MakeDate(d.year, d.month, d.day))
  {
    FormatPieces(d);
    var parts := Split(FormatLocalDate(d), '-');
    assert number(parts[0]) == FromInt(d.year);
    assert number(parts[1]) == FromInt(d.month + 1);
    assert number(parts[2]) == FromInt(d.day);
    ParseWholeNumbers(FormatLocalDate(d), number, d.year, d.month + 1, d.day);
  }

  /** Formatting a date and parsing the text gives the date back, for every
      year from 100 on. */
  lemma ParseFormatted(d: CalendarDate, number: string -> Num)
    requires Valid(d) && d.year >= 100
    requires ReadsDigits(number)
    ensures ParseLocalDate(FormatLocalDate(d), number) == DateOf(d)
  {
    ParseFormattedPieces(d, number);
    MakeDateInYear(d.year, d.month, d.day);
    NormalizeValid(d);
  }

  /** A year below 100 does not survive the trip: it is formatted without
      padding and read back as a year of the 1900s (29 February of year 0
      has no counterpart there, 1900 not being a leap year). */
  lemma TwoDigitYearShifts(d: CalendarDate, number: string -> Num)
    requires Valid(d) && 0 <= d.year < 100
    requires Valid(d.(year := d.year + 1900))
    requires ReadsDigits(number)
    ensures ParseLocalDate(FormatLocalDate(d), number) == DateOf(d.(year := d.year + 1900))
  {
    ParseFormattedPieces(d, number);
    var e := d.(year := d.year + 1900);
    MakeDateInYear(d.year, d.month, d.day);
    NormalizeValid(e);
  }

  /** `getTodayLocalDate()` with the current local date passed in. */
  function GetTodayLocalDate(now: CalendarDate): string
    requires Valid(now)
  {
    FormatLocalDate(now)
  }

  /** `getTomorrowLocalDate()` with the current local date passed in:
      `setDate(getDate() + 1)`, then formatted. */
  function GetTomorrowLocalDate(now: CalendarDate): (s: string)
    requires Valid(now)
    ensures s == FormatLocalDate(NextDay(now))
  {
    NormalizeNext(now);
    FormatLocalDate(Normalize(now.year, now.month, now.day + 1))
  }

  /** Today's and tomorrow's strings read back as today and the day after,
      one day apart. */
  lemma TodayAndTomorrow(now: CalendarDate, number: string -> Num)
    requires Valid(now) && now.year >= 100
    requires ReadsDigits(number)
    ensures ParseLocalDate(GetTodayLocalDate(now), number) == DateOf(now)
    ensures var t := ParseLocalDate(GetTomorrowLocalDate(now), number);
      t.DateOf? && DayNumber(t.date) == DayNumber(now) + 1
  {
    ParseFormatted(now, number);
    ParseFormatted(NextDay(now), number);
    DayNumberNext(now);
  }
}

=== FILE: exercise_import.dfy ===
/** `importExercisesFromCSV` (src/lib/utils/csv.ts:82-155; the copy in
    src/lib/utils/import-export.ts:82-155 is the same code). Each data row
    becomes an exercise unless it lacks a field, has a blank name or
    description, or names an exercise the catalog already had before the
    import. */
module ExerciseImport {
  import opened Base
  import opened Text
  import opened Records
  import opened Messages
  import opened Outcomes

  /** `existingExercises.map((e) => e.name.toLowerCase())`, read once
      before the first row. */
  function ExistingNames(catalog: seq<CatalogEntry>): (names: seq<string>)
    ensures |names| == |catalog|
    ensures forall i :: 0 <= i < |catalog| ==> names[i] == Lower(catalog[i].name)
  {
    seq(|catalog|, i requires 0 <= i < |catalog| => Lower(catalog[i].name))
  }

  /** The exercise a row describes: the name and description without
      surrounding white space, each empty exactly when its column is blank,
      and the video link only when its column is there and not blank. */
  function Draft(fields: seq<string>): (d: ExerciseDraft)
    requires |fields| >= 2
    ensures Trim(d.name) == d.name && Trim(d.description) == d.description
    ensures d.name == "" <==> AllSpace(fields[0])
    ensures d.description == "" <==> AllSpace(fields[1])
    ensures d.videoLink.None? <==> |fields| == 2 || AllSpace(fields[2])
    ensures d.videoLink.Some? ==> d.videoLink.value != "" && Trim(d.videoLink.value) == d.videoLink.value
  {
    TrimIdempotent(fields[0]);
    TrimIdempotent(fields[1]);
    TrimEmptyIffAllSpace(fields[0]);
    TrimEmptyIffAllSpace(fields[1]);
    if |fields| > 2 then
      TrimIdempotent(fields[2]);
      ExerciseDraft(Trim(fields[0]), Trim(fields[1]), BlankToUndefined(Some(fields[2])))
    else
      ExerciseDraft(Trim(fields[0]), Trim(fields[1]), None)
  }

  /** One data row at line `line`, against the names the catalog held before
      the import (the set is never extended while importing). */
  function ExerciseRow(fields: seq<string>, line: nat, existing: seq<string>, st: Storage): (o: Outcome<ExerciseDraft>)
    ensures o.Failed? ==> !o.alsoSkipped
    ensures o.Inserted? ==>
      && |fields| >= 2
      && o.item == Draft(fields)
      && o.item.name != "" && o.item.description != ""
      && Lower(o.item.name) !in existing
  {
    if |fields| < 2 then Failed(ExerciseFieldsMissing(line), false)
    else if Trim(fields[0]) == "" then Failed(ExerciseNameRequired(line), false)
    else if Trim(fields[1]) == "" then Failed(ExerciseDescriptionRequired(line), false)
    else if Lower(Trim(fields[0])) in existing then Skipped
    else
      var d := Draft(fields);
      match st.exerciseFault(d)
      case Some(message) => Failed(LineFailed(line, message), false)
      case None => Inserted(d)
  }

  /** The checks of a row in order: each message exactly when the earlier
      checks pass and its own fails. */
  lemma ExerciseRowOrder(fields: seq<string>, line: nat, existing: seq<string>, st: Storage)
    ensures var o := ExerciseRow(fields, line, existing, st);
      && (o == Failed(ExerciseFieldsMissing(line), false) <==> |fields| < 2)
      && (o == Failed(ExerciseNameRequired(line), false) <==> |fields| >= 2 && AllSpace(fields[0]))
      && (o == Failed(ExerciseDescriptionRequired(line), false) <==>
            |fields| >= 2 && !AllSpace(fields[0]) && AllSpace(fields[1]))
      && (o == Skipped <==>
            |fields| >= 2 && !AllSpace(fields[0]) && !AllSpace(fields[1]) && Lower(Trim(fields[0])) in existing)
  {
    if |fields| >= 2 {
      TrimEmptyIffAllSpace(fields[0]);
      TrimEmptyIffAllSpace(fields[1]);
    }
  }

  /** The importer, from the parse result to the returned counters. */
  function ImportExercisesFromCsv(p: ParseResult, catalog: seq<CatalogEntry>, st: Storage): (t: Tally<ExerciseDraft>)
    ensures |p.parseErrors| > 0 ==> t.success == 0 && |t.errors| == |p.parseErrors|
    ensures |p.parseErrors| == 0 && |p.rows| < 2 ==> t == Tally(0, 0, [EmptyCsv], [])
    ensures |p.rows| >= 2 ==> t.success + t.skipped <= |p.rows| - 1
    ensures t.success == |t.inserted|
    ensures forall d :: d in t.inserted ==> d.name != "" && d.description != "" && Lower(d.name) !in ExistingNames(catalog)
  {
    match EarlyReturn(p)
    case Some(early) => early
    case None =>
      var outs := RowOutcomes(p.rows[1..], ExistingNames(catalog), st);
      InsertedDraftsSound(outs, ExistingNames(catalog));
      TallyAll(outs)
  }

  lemma InsertedDraftsSound(outs: seq<Outcome<ExerciseDraft>>, existing: seq<string>)
    requires forall j :: 0 <= j < |outs| && outs[j].Inserted? ==>
      outs[j].item.name != "" && outs[j].item.description != "" && Lower(outs[j].item.name) !in existing
    ensures forall d :: d in InsertedItems(outs) ==> d.name != "" && d.description != "" && Lower(d.name) !in existing
  {
    InsertedItemsFrom(outs);
    forall d | d in InsertedItems(outs)
      ensures d.name != "" && d.description != "" && Lower(d.name) !in existing
    {
      var j :| 0 <= j < |outs| && outs[j] == Inserted(d);
    }
  }

  /** The outcome of every data row; the first data row is line 2. */
  function RowOutcomes(dataLines: seq<seq<string>>, existing: seq<string>, st: Storage): (outs: seq<Outcome<ExerciseDraft>>)
    ensures |outs| == |dataLines|
    ensures forall i :: 0 <= i < |dataLines| ==> outs[i] == ExerciseRow(dataLines[i], i + 2, existing, st)
  {
    seq(|dataLines|, i requires 0 <= i < |dataLines| => ExerciseRow(dataLines[i], i + 2, existing, st))
  }

  /** Only names present before the import count as duplicates: a file that
      lists a new exercise twice inserts it twice. */
  lemma RepeatedRowInsertedTwice(header: seq<string>, row: seq<string>, catalog: seq<CatalogEntry>, st: Storage)
    requires Reliable(st)
    requires |row| >= 2 && !AllSpace(row[0]) && !AllSpace(row[1])
    requires Lower(Trim(row[0])) !in ExistingNames(catalog)
    ensures var t := ImportExercisesFromCsv(ParseResult([header, row, row], []), catalog, st);
      t.success == 2 && t.inserted == [Draft(row), Draft(row)] && t.errors == []
  {
    TrimEmptyIffAllSpace(row[0]);
    TrimEmptyIffAllSpace(row[1]);
    var p := ParseResult([header, row, row], []);
    var lines := p.rows[1..];
    assert |lines| == 2 && lines[0] == row && lines[1] == row;
    var outs := RowOutcomes(lines, ExistingNames(catalog), st);
    var o := Inserted(Draft(row));
    FreshRowInserted(row, 2, ExistingNames(catalog), st);
    FreshRowInserted(row, 3, ExistingNames(catalog), st);
    assert |outs| == 2 && outs[0] == o && outs[1] == o;
    PairOfSame(outs, o);
    assert EarlyReturn<ExerciseDraft>(p).None?;
    assert ImportExercisesFromCsv(p, catalog, st) == TallyAll(outs);
    InsertedTwice(Draft(row));
  }

  lemma PairOfSame<T>(s: seq<T>, x: T)
    requires |s| == 2 && s[0] == x && s[1] == x
    ensures s == [x, x]
  {
  }

  lemma FreshRowInserted(row: seq<string>, line: nat, existing: seq<string>, st: Storage)
    requires Reliable(st)
    requires |row| >= 2 && Trim(row[0]) != "" && Trim(row[1]) != ""
    requires Lower(Trim(row[0])) !in existing
    ensures ExerciseRow(row, line, existing, st) == Inserted(Draft(row))
  {
    assert st.exerciseFault(Draft(row)).None?;
  }

  /** Importing the same row again once its exercise is in the catalog skips
      it: a second import of a file creates no duplicate. */
  lemma ReimportSkips(fields: seq<string>, line: nat, catalog: seq<CatalogEntry>, id: int, st: Storage, st2: Storage)
    requires ExerciseRow(fields, line, ExistingNames(catalog), st).Inserted?
    ensures var d := ExerciseRow(fields, line, ExistingNames(catalog), st).item;
      ExerciseRow(fields, line + 1, ExistingNames(catalog + [CatalogEntry(id, d.name)]), st2) == Skipped
  {
    var d := ExerciseRow(fields, line, ExistingNames(catalog), st).item;
    var names := ExistingNames(catalog + [CatalogEntry(id, d.name)]);
    assert names[|catalog|] == Lower(d.name);
  }
}

=== FILE: import_export.dfy ===
/** The shared helpers of src/lib/utils/import-export.ts and its CSV workout
    importer (lines 160-379). The rows are checked and grouped exactly as in
    csv.ts; the workouts are then built by `buildWorkoutExercises`, which
    looks exercises up by id, keeps each exercise's name as the file writes
    it, and drops exercises without an id instead of throwing. */
module ImportExport {
  import opened Base
  import opened Text
  import opened Units
  import opened Assoc
  import opened Records
  import opened Messages
  import opened Outcomes
  import opened WorkoutRows
  import opened SetOrder
  import opened WorkoutGrouping
  import CsvWorkoutImport

  /** `convertWeightToKg` (import-export.ts:523-528) on JavaScript numbers. */
  function ConvertWeightToKg(weight: Num, unit: UnitPreference): (kg: Num)
    ensures weight.Finite? ==> kg == Finite(ConvertWeightToStorage(weight.value, unit))
    ensures !weight.Finite? ==> kg == weight
  {
    if unit == Imperial then LbsToKgNum(weight) else weight
  }

  /** The entries of `exerciseNameToId`, in insertion order: every catalog
      exercise with a truthy (non-zero) id, under the key `keyOf` gives its
      name. */
  function IdIndex(catalog: seq<CatalogEntry>, keyOf: string -> string): (idx: seq<(string, int)>)
    ensures |idx| <= |catalog|
    ensures forall j :: 0 <= j < |idx| ==> idx[j].1 != 0
  {
    if |catalog| == 0 then []
    else
      var e := catalog[|catalog| - 1];
      IdIndex(catalog[..|catalog| - 1], keyOf) + if e.id != 0 then [(keyOf(e.name), e.id)] else []
  }

  /** `exerciseNameToId.get(k)`: the id of the last exercise with a truthy
      id whose key is `k`. */
  function LookupId(catalog: seq<CatalogEntry>, keyOf: string -> string, k: string): (r: Option<int>)
    ensures r == LastValue(IdIndex(catalog, keyOf), k)
    ensures r.Some? ==> r.value != 0
  {
    if |catalog| == 0 then None
    else
      var front := catalog[..|catalog| - 1];
      var e := catalog[|catalog| - 1];
      var idx := IdIndex(catalog, keyOf);
      if e.id != 0 && keyOf(e.name) == k then
        assert idx == IdIndex(front, keyOf) + [(k, e.id)];
        Some(e.id)
      else if e.id != 0 then
        assert idx[..|idx| - 1] == IdIndex(front, keyOf);
        LookupId(front, keyOf, k)
      else
        assert idx == IdIndex(front, keyOf);
        LookupId(front, keyOf, k)
  }

  /** An id is found exactly when some exercise with an id has the key, and
      it is the id of such an exercise. */
  lemma {:induction false} LookupIdSpec(catalog: seq<CatalogEntry>, keyOf: string -> string, k: string)
    ensures LookupId(catalog, keyOf, k).Some? <==> exists i :: 0 <= i < |catalog| && catalog[i].id != 0 && keyOf(catalog[i].name) == k
    ensures LookupId(catalog, keyOf, k).Some? ==>
      exists i :: 0 <= i < |catalog| && catalog[i].id == LookupId(catalog, keyOf, k).value && keyOf(catalog[i].name) == k
  {
    if |catalog| > 0 {
      var front := catalog[..|catalog| - 1];
      var e := catalog[|catalog| - 1];
      LookupIdSpec(front, keyOf, k);
      assert forall i :: 0 <= i < |front| ==> front[i] == catalog[i];
      if !(e.id != 0 && keyOf(e.name) == k) {
        assert LookupId(catalog, keyOf, k) == LookupId(front, keyOf, k);
      }
    }
  }

  /** The id lookup ignores an exercise without an id and lets a later
      exercise of the same key shadow an earlier one. */
  lemma LookupIdLastWins(catalog: seq<CatalogEntry>, keyOf: string -> string, e: CatalogEntry)
    requires e.id != 0
    ensures LookupId(catalog + [e], keyOf, keyOf(e.name)) == Some(e.id)
    ensures forall k :: k != keyOf(e.name) ==> LookupId(catalog + [e], keyOf, k) == LookupId(catalog, keyOf, k)
  {
    assert (catalog + [e])[..|catalog|] == catalog;
  }

  /** One exercise of `buildWorkoutExercises` (import-export.ts:557-583):
      `None` when it has no id; otherwise the sets sorted by number and the
      instructions and notes of the first sorted set, trimmed, with blanks
      dropped. */
  function BuildExercise(name: string, sets: seq<SetData>, catalog: seq<CatalogEntry>, keyOf: string -> string): (r: Option<WorkoutExercise>)
    ensures r.None? <==> LookupId(catalog, keyOf, Lower(name)).None?
    ensures r.Some? ==>
      && r.value.exerciseId == LookupId(catalog, keyOf, Lower(name)).value
      && r.value.exerciseName == name
      && |r.value.sets| == |sets|
      && r.value.sets == CsvWorkoutImport.ToEntries(SortBySetNumber(sets))
      && (forall k :: 0 <= k < |r.value.sets| ==> !r.value.sets[k].completed)
      && (r.value.instructions.Some? ==> r.value.instructions.value != "" && !AllSpace(r.value.instructions.value))
      && (r.value.notes.Some? ==> r.value.notes.value != "" && !AllSpace(r.value.notes.value))
  {
    match LookupId(catalog, keyOf, Lower(name))
    case None => None
    case Some(id) =>
      var sorted := SortBySetNumber(sets);
      var instructions := BlankToUndefined(if |sorted| > 0 then sorted[0].instructions else None);
      var notes := BlankToUndefined(if |sorted| > 0 then sorted[0].notes else None);
      Some(WorkoutExercise(id, name, CsvWorkoutImport.ToEntries(sorted), instructions, notes))
  }

  /** The sets of a built exercise are the input sets, sorted stably by set
      number (`sorted` is that order), each keeping its weight, reps and
      duration, with completion cleared. */
  lemma BuiltSets(name: string, sets: seq<SetData>, catalog: seq<CatalogEntry>, keyOf: string -> string) returns (sorted: seq<SetData>)
    requires BuildExercise(name, sets, catalog, keyOf).Some?
    ensures multiset(sorted) == multiset(sets) && SortedBySetNumber(sorted)
    ensures forall k :: WithSetNumber(sorted, k) == WithSetNumber(sets, k)
    ensures var es := BuildExercise(name, sets, catalog, keyOf).value.sets;
      && |es| == |sorted|
      && forall i :: 0 <= i < |es| ==> es[i] == SetEntry(sorted[i].weight, sorted[i].reps, sorted[i].duration, false)
  {
    sorted := SortBySetNumber(sets);
    SortIsSorted(sets);
    forall k
      ensures WithSetNumber(sorted, k) == WithSetNumber(sets, k)
    {
      SortIsStable(sets, k);
    }
  }

  /** `buildWorkoutExercises` (import-export.ts:545-587): the exercises that
      have an id, in the map's order. */
  function BuildWorkoutExercises(exercises: Groups<string, SetData>, catalog: seq<CatalogEntry>, keyOf: string -> string): (r: seq<WorkoutExercise>)
    ensures |r| <= |exercises|
    ensures |r| == 0 <==> forall j :: 0 <= j < |exercises| ==> LookupId(catalog, keyOf, Lower(exercises[j].0)).None?
  {
    if |exercises| == 0 then []
    else
      var front := exercises[..|exercises| - 1];
      var last := exercises[|exercises| - 1];
      var rest := BuildWorkoutExercises(front, catalog, keyOf);
      assert forall j :: 0 <= j < |front| ==> front[j] == exercises[j];
      match BuildExercise(last.0, last.1, catalog, keyOf)
      case None => rest
      case Some(e) => rest + [e]
  }

  /** Every exercise built is the exercise of one map entry. */
  lemma {:induction false} BuiltFromEntries(exercises: Groups<string, SetData>, catalog: seq<CatalogEntry>, keyOf: string -> string)
    ensures forall e :: e in BuildWorkoutExercises(exercises, catalog, keyOf) ==>
      exists j :: 0 <= j < |exercises| && Some(e) == BuildExercise(exercises[j].0, exercises[j].1, catalog, keyOf)
  {
    if |exercises| > 0 {
      var front := exercises[..|exercises| - 1];
      BuiltFromEntries(front, catalog, keyOf);
      assert forall j :: 0 <= j < |front| ==> front[j] == exercises[j];
    }
  }

  /** When every exercise has an id, none is dropped and each keeps its
      place. */
  lemma {:induction false} AllExercisesBuilt(exercises: Groups<string, SetData>, catalog: seq<CatalogEntry>, keyOf: string -> string)
    requires forall j :: 0 <= j < |exercises| ==> LookupId(catalog, keyOf, Lower(exercises[j].0)).Some?
    ensures var r := BuildWorkoutExercises(exercises, catalog, keyOf);
      && |r| == |exercises|
      && forall j :: 0 <= j < |exercises| ==> Some(r[j]) == BuildExercise(exercises[j].0, exercises[j].1, catalog, keyOf)
  {
    if |exercises| > 0 {
      var front := exercises[..|exercises| - 1];
      var last := exercises[|exercises| - 1];
      AllExercisesBuilt(front, catalog, keyOf);
      var rest := BuildWorkoutExercises(front, catalog, keyOf);
      var e := BuildExercise(last.0, last.1, catalog, keyOf).value;
      var r := BuildWorkoutExercises(exercises, catalog, keyOf);
      assert r == rest + [e];
      var f := (p: (string, seq<SetData>)) => BuildExercise(p.0, p.1, catalog, keyOf);
      assert forall j :: 0 <= j < |front| ==> f(front[j]) == Some(rest[j]);
      MapSnoc(front, rest, last, e, f);
      LastSplit(exercises);
    }
  }

  /** The stored instructions and notes of an exercise are those of a set
      with the lowest set number, the first such set in the file, trimmed
      and with blanks dropped. */
  lemma ExerciseNotesFromFirstSet(name: string, sets: seq<SetData>, catalog: seq<CatalogEntry>, keyOf: string -> string)
    requires |sets| > 0 && LookupId(catalog, keyOf, Lower(name)).Some?
    ensures var e := BuildExercise(name, sets, catalog, keyOf).value;
      exists s :: s in sets
        && (forall x :: x in sets ==> s.setNumber <= x.setNumber)
        && |WithSetNumber(sets, s.setNumber)| > 0
        && s == WithSetNumber(sets, s.setNumber)[0]
        && e.instructions == BlankToUndefined(s.instructions) && e.notes == BlankToUndefined(s.notes)
  {
    FirstAfterSort(sets);
    var sorted := SortBySetNumber(sets);
    var s := sorted[0];
    assert s in multiset(sets);
    assert s in sets;
  }

  /** A stored workout of this importer: a valid date the database did not
      hold under the same name, at least one exercise, each with a catalog
      id given under its lower-cased name, at least one set, and every set
      checked and not completed. */
  predicate SoundWorkout(w: Workout, catalog: seq<CatalogEntry>, existingKeys: seq<string>) {
    && IsIsoDate(w.date)
    && DuplicateKey(w.date, w.name) !in existingKeys
    && |w.exercises| > 0
    && forall j :: 0 <= j < |w.exercises| ==> ExerciseSound(w.exercises[j], catalog)
  }

  predicate ExerciseSound(e: WorkoutExercise, catalog: seq<CatalogEntry>) {
    && e.exerciseId != 0
    && (exists i :: 0 <= i < |catalog| && catalog[i].id == e.exerciseId && Lower(catalog[i].name) == Lower(e.exerciseName))
    && |e.sets| > 0
    && forall k :: 0 <= k < |e.sets| ==> !e.sets[k].completed && NonNegative(e.sets[k].weight) && e.sets[k].reps >= 0
  }

  /** One workout entry (import-export.ts:344-377): a duplicate is skipped;
      an entry none of whose exercises has an id is reported and skipped;
      a storage failure is reported and not counted as a skip. */
  function WorkoutOutcome(g: WorkoutGroup, catalog: seq<CatalogEntry>, existingKeys: seq<string>, st: Storage): (o: Outcome<Workout>)
    ensures o == Skipped <==> DuplicateKey(g.date, g.name) in existingKeys
    ensures o == Failed(NoValidExercises(g.name, g.date), true) <==>
      DuplicateKey(g.date, g.name) !in existingKeys && |BuildWorkoutExercises(g.exercises, catalog, Lower)| == 0
    ensures o.Failed? && o.alsoSkipped ==> o.error == NoValidExercises(g.name, g.date)
    ensures o.Inserted? ==>
      && o.item == Workout(g.name, g.date, BuildWorkoutExercises(g.exercises, catalog, Lower), None)
      && |o.item.exercises| > 0
  {
    if DuplicateKey(g.date, g.name) in existingKeys then Skipped
    else
      var exercises := BuildWorkoutExercises(g.exercises, catalog, Lower);
      if |exercises| == 0 then Failed(NoValidExercises(g.name, g.date), true)
      else
        var w := Workout(g.name, g.date, exercises, None);
        match st.workoutFault(w)
        case Some(message) => Failed(WorkoutFailed(g.name, g.date, message), false)
        case None => Inserted(w)
  }

  /** The outcome of every workout of the map, in order. It has the shape of
      `CsvWorkoutImport.WorkoutOutcomes` but applies this importer's own
      `WorkoutOutcome`, which drops unresolved exercises and counts "No
      valid exercises found" as skipped. */
  function WorkoutOutcomes(m: WorkoutMap, catalog: seq<CatalogEntry>, existingKeys: seq<string>, st: Storage): (outs: seq<Outcome<Workout>>)
    ensures |outs| == |m|
    ensures forall i :: 0 <= i < |m| ==> outs[i] == WorkoutOutcome(m[i].1, catalog, existingKeys, st)
  {
    seq(|m|, i requires 0 <= i < |m| => WorkoutOutcome(m[i].1, catalog, existingKeys, st))
  }

  /** `importWorkoutsFromCSV` of import-export.ts, end to end. */
  function ImportWorkoutsFromCsv(p: ParseResult, catalog: seq<CatalogEntry>, existing: seq<Workout>, parsers: NumParsers, st: Storage): (t: Tally<Workout>)
    ensures |p.parseErrors| > 0 ==> t.success == 0 && t.skipped == 0 && |t.errors| == |p.parseErrors|
    ensures |p.parseErrors| == 0 && |p.rows| < 2 ==> t == Tally(0, 0, [EmptyCsv], [])
    ensures |p.parseErrors| == 0 && |p.rows| >= 2 ==>
      && RowErrors(ValidateAll(p.rows[1..], catalog, parsers)) <= t.errors
      && t.success + t.skipped <= |CsvWorkoutImport.GroupFile(p.rows[1..], catalog, parsers)|
    ensures t.success == |t.inserted|
    ensures forall w :: w in t.inserted ==> SoundWorkout(w, catalog, ExistingKeys(existing))
  {
    match EarlyReturn(p)
    case Some(early) => early
    case None =>
      var dataLines := p.rows[1..];
      var m := CsvWorkoutImport.GroupFile(dataLines, catalog, parsers);
      var outs := WorkoutOutcomes(m, catalog, ExistingKeys(existing), st);
      CsvWorkoutImport.GroupsBuild(dataLines, catalog, parsers);
      InsertedSound(m, catalog, ExistingKeys(existing), st);
      CsvWorkoutImport.PrependErrors(RowErrors(ValidateAll(dataLines, catalog, parsers)), TallyAll(outs))
  }

  /** Every workout this importer stores is sound. The statement matches
      `CsvWorkoutImport.InsertedSound`, but it is about this module's
      `WorkoutOutcomes`, so the proof rests on this module's `OutcomeSound`. */
  lemma InsertedSound(m: WorkoutMap, catalog: seq<CatalogEntry>, existingKeys: seq<string>, st: Storage)
    requires forall i :: 0 <= i < |m| ==> SoundGroup(m[i].1, catalog)
    ensures forall w :: w in InsertedItems(WorkoutOutcomes(m, catalog, existingKeys, st)) ==> SoundWorkout(w, catalog, existingKeys)
  {
    var outs := WorkoutOutcomes(m, catalog, existingKeys, st);
    InsertedItemsFrom(outs);
    forall w | w in InsertedItems(outs)
      ensures SoundWorkout(w, catalog, existingKeys)
    {
      var j :| 0 <= j < |outs| && outs[j] == Inserted(w);
      OutcomeSound(m[j].1, catalog, existingKeys, st);
    }
  }

  lemma OutcomeSound(g: WorkoutGroup, catalog: seq<CatalogEntry>, existingKeys: seq<string>, st: Storage)
    requires SoundGroup(g, catalog)
    requires WorkoutOutcome(g, catalog, existingKeys, st).Inserted?
    ensures SoundWorkout(WorkoutOutcome(g, catalog, existingKeys, st).item, catalog, existingKeys)
  {
    var es := BuildWorkoutExercises(g.exercises, catalog, Lower);
    assert WorkoutOutcome(g, catalog, existingKeys, st).item.exercises == es;
    forall j | 0 <= j < |es|
      ensures ExerciseSound(es[j], catalog)
    {
      BuiltMemberSound(g, catalog, es[j]);
    }
  }

  lemma BuiltMemberSound(g: WorkoutGroup, catalog: seq<CatalogEntry>, e: WorkoutExercise)
    requires SoundGroup(g, catalog)
    requires e in BuildWorkoutExercises(g.exercises, catalog, Lower)
    ensures ExerciseSound(e, catalog)
  {
    BuiltFromEntries(g.exercises, catalog, Lower);
    var j :| 0 <= j < |g.exercises| && Some(e) == BuildExercise(g.exercises[j].0, g.exercises[j].1, catalog, Lower);
    BuiltExerciseSound(g.exercises[j].0, g.exercises[j].1, catalog);
  }

  lemma BuiltExerciseSound(name: string, sets: seq<SetData>, catalog: seq<CatalogEntry>)
    requires BuildExercise(name, sets, catalog, Lower).Some? && |sets| > 0
    requires forall s :: s in sets ==> SoundSet(s)
    ensures ExerciseSound(BuildExercise(name, sets, catalog, Lower).value, catalog)
  {
    var e := BuildExercise(name, sets, catalog, Lower).value;
    var sorted := SortBySetNumber(sets);
    assert e.sets == CsvWorkoutImport.ToEntries(sorted);
    forall k | 0 <= k < |sorted|
      ensures SoundSet(sorted[k])
    {
      assert sorted[k] in multiset(sets);
    }
    LookupIdSpec(catalog, Lower, Lower(name));
    var i :| 0 <= i < |catalog| && catalog[i].id == e.exerciseId && Lower(catalog[i].name) == Lower(name);
    assert Lower(catalog[i].name) == Lower(e.exerciseName);
  }

  /** Every exercise of an accepted row resolves once every catalog entry
      has an id. */
  lemma KnownExerciseHasId(catalog: seq<CatalogEntry>, name: string)
    requires forall i :: 0 <= i < |catalog| ==> catalog[i].id != 0
    requires exists i :: 0 <= i < |catalog| && Lower(catalog[i].name) == Lower(name)
    ensures LookupId(catalog, Lower, Lower(name)).Some?
  {
    var i :| 0 <= i < |catalog| && Lower(catalog[i].name) == Lower(name);
    LookupIdSpec(catalog, Lower, Lower(name));
  }

  /** The sets a built workout holds are the sets of its entry when every
      exercise resolves. */
  lemma BuiltSetCount(exercises: Groups<string, SetData>, catalog: seq<CatalogEntry>)
    requires forall j :: 0 <= j < |exercises| ==> LookupId(catalog, Lower, Lower(exercises[j].0)).Some?
    ensures SetCount(BuildWorkoutExercises(exercises, catalog, Lower)) == Count(exercises)
  {
    AllExercisesBuilt(exercises, catalog, Lower);
    SetCountPointwise(BuildWorkoutExercises(exercises, catalog, Lower), exercises);
  }

  lemma {:induction false} SetCountPointwise(es: seq<WorkoutExercise>, exercises: Groups<string, SetData>)
    requires |es| == |exercises|
    requires forall j :: 0 <= j < |es| ==> |es[j].sets| == |exercises[j].1|
    ensures SetCount(es) == Count(exercises)
  {
    if |es| > 0 {
      SetCountPointwise(es[..|es| - 1], exercises[..|exercises| - 1]);
    }
  }

  /** With storage that never fails, every new entry of a sound map is
      inserted. */
  lemma AllInserted(m: WorkoutMap, catalog: seq<CatalogEntry>, existingKeys: seq<string>, st: Storage)
    requires Reliable(st)
    requires forall i :: 0 <= i < |catalog| ==> catalog[i].id != 0
    requires forall i :: 0 <= i < |m| ==> SoundGroup(m[i].1, catalog)
    requires forall i :: 0 <= i < |m| ==> DuplicateKey(m[i].1.date, m[i].1.name) !in existingKeys
    ensures forall i :: 0 <= i < |m| ==> WorkoutOutcomes(m, catalog, existingKeys, st)[i].Inserted?
    ensures forall i :: 0 <= i < |m| ==> SetCount(WorkoutOutcomes(m, catalog, existingKeys, st)[i].item.exercises) == Count(m[i].1.exercises)
  {
    var outs := WorkoutOutcomes(m, catalog, existingKeys, st);
    forall i | 0 <= i < |m|
      ensures outs[i].Inserted?
      ensures SetCount(outs[i].item.exercises) == Count(m[i].1.exercises)
    {
      EntryInserted(m[i].1, catalog, existingKeys, st);
    }
  }

  lemma EntryInserted(g: WorkoutGroup, catalog: seq<CatalogEntry>, existingKeys: seq<string>, st: Storage)
    requires Reliable(st)
    requires forall i :: 0 <= i < |catalog| ==> catalog[i].id != 0
    requires SoundGroup(g, catalog)
    requires DuplicateKey(g.date, g.name) !in existingKeys
    ensures WorkoutOutcome(g, catalog, existingKeys, st).Inserted?
    ensures SetCount(WorkoutOutcome(g, catalog, existingKeys, st).item.exercises) == Count(g.exercises)
  {
    forall j | 0 <= j < |g.exercises|
      ensures LookupId(catalog, Lower, Lower(g.exercises[j].0)).Some?
    {
      KnownExerciseHasId(catalog, g.exercises[j].0);
    }
    AllExercisesBuilt(g.exercises, catalog, Lower);
    BuiltSetCount(g.exercises, catalog);
    var w := Workout(g.name, g.date, BuildWorkoutExercises(g.exercises, catalog, Lower), None);
    assert st.workoutFault(w).None?;
  }

  /** When every entry is inserted, the stored workouts hold every set of
      the map. */
  lemma StoredSetCount(m: WorkoutMap, catalog: seq<CatalogEntry>, existingKeys: seq<string>, st: Storage)
    requires forall i :: 0 <= i < |m| ==> WorkoutOutcomes(m, catalog, existingKeys, st)[i].Inserted?
    requires forall i :: 0 <= i < |m| ==> SetCount(WorkoutOutcomes(m, catalog, existingKeys, st)[i].item.exercises) == Count(m[i].1.exercises)
    ensures TotalSets(InsertedItems(WorkoutOutcomes(m, catalog, existingKeys, st))) == SetTotal(m)
    ensures |InsertedItems(WorkoutOutcomes(m, catalog, existingKeys, st))| == |m|
  {
    InsertedSetTotal(WorkoutOutcomes(m, catalog, existingKeys, st), m);
  }

  lemma {:induction false} InsertedSetTotal(outs: seq<Outcome<Workout>>, m: WorkoutMap)
    requires |outs| == |m|
    requires forall i :: 0 <= i < |m| ==> outs[i].Inserted? && SetCount(outs[i].item.exercises) == Count(m[i].1.exercises)
    ensures TotalSets(InsertedItems(outs)) == SetTotal(m)
    ensures |InsertedItems(outs)| == |m|
  {
    if |m| > 0 {
      var n := |m| - 1;
      var front := outs[..n];
      assert forall i :: 0 <= i < n ==> front[i] == outs[i] && m[..n][i] == m[i];
      InsertedSetTotal(front, m[..n]);
      var last := outs[n];
      assert InsertedItems(outs) == InsertedItems(front) + [last.item];
      TotalSetsSnoc(InsertedItems(front), last.item);
    }
  }

  lemma TotalSetsSnoc(ws: seq<Workout>, w: Workout)
    ensures TotalSets(ws + [w]) == TotalSets(ws) + SetCount(w.exercises)
  {
    assert (ws + [w])[..|ws|] == ws;
  }

  /** Into an empty database with storage that never fails and a catalog
      whose exercises all have ids, every accepted row becomes exactly one
      stored set, and the only errors are those of the rejected rows. */
  lemma EveryAcceptedRowStored(p: ParseResult, catalog: seq<CatalogEntry>, parsers: NumParsers, st: Storage)
    requires Reliable(st) && |p.parseErrors| == 0 && |p.rows| >= 2
    requires forall i :: 0 <= i < |catalog| ==> catalog[i].id != 0
    ensures var t := ImportWorkoutsFromCsv(p, catalog, [], parsers, st);
      var outs := ValidateAll(p.rows[1..], catalog, parsers);
      && TotalSets(t.inserted) == |AcceptedRows(outs)|
      && t.errors == RowErrors(outs)
      && t.skipped == 0
  {
    var dataLines := p.rows[1..];
    var outs := ValidateAll(dataLines, catalog, parsers);
    var m := CsvWorkoutImport.GroupFile(dataLines, catalog, parsers);
    CsvWorkoutImport.GroupsBuild(dataLines, catalog, parsers);
    assert ExistingKeys([]) == [];
    AllInserted(m, catalog, [], st);
    StoredSetCount(m, catalog, [], st);
    GroupRowsKeepsEverySet(AcceptedRows(outs));
    var wouts := WorkoutOutcomes(m, catalog, [], st);
    NoFailures(wouts);
  }

  /** The difference from csv.ts: this importer keeps the exercise's name as
      the file spells it, where csv.ts stores the catalog's spelling. */
  lemma NameAsWritten(name: string, sets: seq<SetData>, catalog: seq<CatalogEntry>)
    requires forall i :: 0 <= i < |catalog| ==> catalog[i].id != 0
    requires ExerciseKnown(catalog, name)
    ensures BuildExercise(name, sets, catalog, Lower).Some? && BuildExercise(name, sets, catalog, Lower).value.exerciseName == name
    ensures CsvWorkoutImport.BuildExercise(name, sets, catalog).Some?
      && CsvWorkoutImport.BuildExercise(name, sets, catalog).value.exerciseName == LookupExercise(catalog, name).value.name
  {
    var entry := LookupExercise(catalog, name).value;
    assert exists i :: 0 <= i < |catalog| && Lower(catalog[i].name) == Lower(name);
    KnownExerciseHasId(catalog, name);
    var built := BuildExercise(name, sets, catalog, Lower);
    assert built.Some?;
    var sorted := SortBySetNumber(sets);
    assert CsvWorkoutImport.BuildExercise(name, sets, catalog) ==
      Some(WorkoutExercise(entry.id, entry.name, CsvWorkoutImport.ToEntries(sorted),
        if |sorted| > 0 then sorted[0].instructions else None,
        if |sorted| > 0 then sorted[0].notes else None));
  }
}

=== FILE: json_import.dfy ===
/** `importFromJSON` (src/lib/utils/import-export.ts:613-784). A document
    holds an array of exercises and an array of workout rows. Exercises are
    imported first, each checked against the catalog's names and the names
    imported before it. Then the rows are grouped by date and then by workout
    name, and each workout is built with ids looked up in the catalog as it
    stands after the exercise pass. */
module JsonImport {
  import opened Base
  import opened Text
  import opened Units
  import opened Assoc
  import opened Records
  import opened Messages
  import opened Outcomes
  import opened WorkoutRows
  import opened ImportExport

  /** An element of `exercises`; a missing property is `None`. */
  datatype JsonExercise = JsonExercise(name: Option<string>, description: Option<string>, videoLink: Option<string>)

  /** An element of `workouts`. `reps` is `None` when the property is
      missing; the strings are `None` when missing. */
  datatype JsonWorkoutRow = JsonWorkoutRow(
    date: Option<string>,
    workoutName: Option<string>,
    exerciseName: Option<string>,
    setNumber: int,
    weight: Num,
    weightUnit: Option<string>,
    reps: Option<int>,
    duration: Option<string>,
    instructions: Option<string>,
    notes: Option<string>)

  /** What `JSON.parse` yields: either it throws with a message, or a
      document whose two arrays may be missing. */
  datatype JsonDocument =
    | Unparsable(message: string)
    | Document(exercises: Option<seq<JsonExercise>>, workouts: Option<seq<JsonWorkoutRow>>)

  /** The returned counters and messages, with the records inserted. */
  datatype JsonSummary = JsonSummary(
    exercisesSuccess: nat,
    exercisesSkipped: nat,
    workoutsSuccess: nat,
    workoutsSkipped: nat,
    errors: seq<ImportError>,
    exercisesAdded: seq<ExerciseDraft>,
    workoutsAdded: seq<Workout>)

  /** The key of the exercise maps of this importer: `toLowerCase().trim()`. */
  function NameKey(name: string): string {
    Trim(Lower(name))
  }

  /** `existingExerciseNames` as first read from the catalog. */
  function ExistingNameKeys(catalog: seq<CatalogEntry>): (names: seq<string>)
    ensures |names| == |catalog|
    ensures forall i :: 0 <= i < |catalog| ==> names[i] == NameKey(catalog[i].name)
  {
    seq(|catalog|, i requires 0 <= i < |catalog| => NameKey(catalog[i].name))
  }

  // ---------------------------------------------------------------------
  // The exercise pass (import-export.ts:640-677)

  /** One element of `exercises`, against the names known so far. A missing
      or blank name is reported and skipped, a known name is skipped, and a
      storage failure is reported without counting as a skip. */
  function ExerciseOutcome(x: JsonExercise, names: seq<string>, st: Storage): (o: Outcome<ExerciseDraft>)
    ensures o == Failed(MissingExerciseName, true) <==> x.name.None? || AllSpace(x.name.value)
    ensures o == Skipped <==> x.name.Some? && !AllSpace(x.name.value) && Lower(Trim(x.name.value)) in names
    ensures o.Failed? && !o.alsoSkipped ==> o.error.ExerciseImportFailed? && o.error.rawName == x.name
    ensures o.Inserted? ==>
      && x.name.Some?
      && o.item.name == Trim(x.name.value) && o.item.name != ""
      && Lower(o.item.name) !in names
      && o.item.description == (if x.description.None? then "" else Trim(x.description.value))
      && o.item.videoLink == BlankToUndefined(x.videoLink)
  {
    match TrimOptional(x.name)
    case None => Failed(MissingExerciseName, true)
    case Some(name) =>
      TrimEmptyIffAllSpace(x.name.value);
      if name == "" then Failed(MissingExerciseName, true)
      else if Lower(name) in names then Skipped
      else
        var description := match TrimOptional(x.description) case None => "" case Some(d) => d;
        var draft := ExerciseDraft(name, description, BlankToUndefined(x.videoLink));
        match st.exerciseFault(draft)
        case Some(message) => Failed(ExerciseImportFailed(x.name, message), false)
        case None => Inserted(draft)
  }

  /** The lower-cased names of the inserted exercises, in order. It is the
      draft counterpart of `ExerciseImport.ExistingNames`, which lower-cases
      the names of catalog entries. */
  function DraftNames(ds: seq<ExerciseDraft>): (ns: seq<string>)
    ensures |ns| == |ds|
    ensures forall i :: 0 <= i < |ds| ==> ns[i] == Lower(ds[i].name)
  {
    seq(|ds|, i requires 0 <= i < |ds| => Lower(ds[i].name))
  }

  lemma DraftNamesSnoc(ds: seq<ExerciseDraft>, d: ExerciseDraft)
    ensures DraftNames(ds + [d]) == DraftNames(ds) + [Lower(d.name)]
  {
  }

  datatype ExercisePass = ExercisePass(names: seq<string>, outs: seq<Outcome<ExerciseDraft>>)

  /** Every element in turn; an inserted exercise's name joins the known
      names, so a later element of the same name is skipped. */
  function ExercisePhase(xs: seq<JsonExercise>, names0: seq<string>, st: Storage): (r: ExercisePass)
    ensures |r.outs| == |xs|
  {
    if |xs| == 0 then ExercisePass(names0, [])
    else
      var p := ExercisePhase(xs[..|xs| - 1], names0, st);
      var o := ExerciseOutcome(xs[|xs| - 1], p.names, st);
      ExercisePass(if o.Inserted? then p.names + [Lower(o.item.name)] else p.names, p.outs + [o])
  }

  /** The known names after the pass are the catalog's and those of the
      exercises inserted, in order. */
  lemma {:induction false} PhaseNames(xs: seq<JsonExercise>, names0: seq<string>, st: Storage)
    ensures ExercisePhase(xs, names0, st).names == names0 + DraftNames(InsertedItems(ExercisePhase(xs, names0, st).outs))
  {
    if |xs| > 0 {
      var p := ExercisePhase(xs[..|xs| - 1], names0, st);
      PhaseNames(xs[..|xs| - 1], names0, st);
      var o := ExerciseOutcome(xs[|xs| - 1], p.names, st);
      assert ExercisePhase(xs, names0, st) ==
        ExercisePass(if o.Inserted? then p.names + [Lower(o.item.name)] else p.names, p.outs + [o]);
      NamesStep(names0, p.names, p.outs, o);
    }
  }

  lemma NamesStep(names0: seq<string>, ns: seq<string>, outs: seq<Outcome<ExerciseDraft>>, o: Outcome<ExerciseDraft>)
    requires ns == names0 + DraftNames(InsertedItems(outs))
    ensures (if o.Inserted? then ns + [Lower(o.item.name)] else ns) == names0 + DraftNames(InsertedItems(outs + [o]))
  {
    InsertedItemsSnoc(outs, o);
    if o.Inserted? {
      DraftNamesSnoc(InsertedItems(outs), o.item);
    }
  }

  /** The last step of the pass. */
  lemma PhaseSnoc(xs: seq<JsonExercise>, names0: seq<string>, st: Storage)
    requires |xs| > 0
    ensures var p := ExercisePhase(xs[..|xs| - 1], names0, st);
      ExercisePhase(xs, names0, st).outs == p.outs + [ExerciseOutcome(xs[|xs| - 1], p.names, st)]
  {
  }

  /** Names none of which is known and no two of which are equal. */
  predicate FreshNames(ns: seq<string>, known: seq<string>) {
    && (forall i :: 0 <= i < |ns| ==> ns[i] !in known)
    && (forall i, j :: 0 <= i < j < |ns| ==> ns[i] != ns[j])
  }

  /** The pass never creates a duplicate: no inserted name matches a known
      name, and no two inserted names match each other (ignoring case). */
  lemma {:induction false} InsertedNamesFresh(xs: seq<JsonExercise>, names0: seq<string>, st: Storage)
    ensures FreshNames(DraftNames(InsertedItems(ExercisePhase(xs, names0, st).outs)), names0)
  {
    if |xs| > 0 {
      var p := ExercisePhase(xs[..|xs| - 1], names0, st);
      InsertedNamesFresh(xs[..|xs| - 1], names0, st);
      PhaseNames(xs[..|xs| - 1], names0, st);
      var o := ExerciseOutcome(xs[|xs| - 1], p.names, st);
      PhaseSnoc(xs, names0, st);
      InsertedItemsSnoc(p.outs, o);
      var front := DraftNames(InsertedItems(p.outs));
      if o.Inserted? {
        var n := Lower(o.item.name);
        DraftNamesSnoc(InsertedItems(p.outs), o.item);
        assert n !in names0 + front;
        FreshSnoc(front, n, names0);
      }
    }
  }

  lemma FreshSnoc(ns: seq<string>, n: string, known: seq<string>)
    requires FreshNames(ns, known) && n !in known + ns
    ensures FreshNames(ns + [n], known)
  {
    assert forall i :: 0 <= i < |ns| ==> ns[i] in known + ns;
  }

  /** Every exercise inserted has a non-blank trimmed name. */
  lemma {:induction false} InsertedNamesNonBlank(xs: seq<JsonExercise>, names0: seq<string>, st: Storage)
    ensures forall d :: d in InsertedItems(ExercisePhase(xs, names0, st).outs) ==> d.name != "" && Trim(d.name) == d.name
  {
    if |xs| > 0 {
      var p := ExercisePhase(xs[..|xs| - 1], names0, st);
      InsertedNamesNonBlank(xs[..|xs| - 1], names0, st);
      var o := ExerciseOutcome(xs[|xs| - 1], p.names, st);
      PhaseSnoc(xs, names0, st);
      InsertedItemsSnoc(p.outs, o);
      if o.Inserted? {
        TrimIdempotent(xs[|xs| - 1].name.value);
        TrimmedSnoc(InsertedItems(p.outs), o.item);
      } else {
        assert InsertedItems(p.outs + [o]) == InsertedItems(p.outs) + [];
      }
    }
  }

  lemma TrimmedSnoc(ds: seq<ExerciseDraft>, d: ExerciseDraft)
    requires forall e :: e in ds ==> e.name != "" && Trim(e.name) == e.name
    requires d.name != "" && Trim(d.name) == d.name
    ensures forall e :: e in ds + [d] ==> e.name != "" && Trim(e.name) == e.name
  {
  }

  /** A document naming a new exercise twice inserts it once and skips the
      second element (the CSV importer would insert it twice). */
  lemma RepeatedExerciseSkippedOnce(x: JsonExercise, catalog: seq<CatalogEntry>, st: Storage)
    requires Reliable(st)
    requires x.name.Some? && !AllSpace(x.name.value)
    requires Lower(Trim(x.name.value)) !in ExistingNameKeys(catalog)
    ensures var p := ExercisePhase([x, x], ExistingNameKeys(catalog), st);
      var t := TallyAll(p.outs);
      t.success == 1 && t.skipped == 1 && t.errors == []
  {
    var names0 := ExistingNameKeys(catalog);
    var o := ExerciseOutcome(x, names0, st);
    assert o.Inserted?;
    var p1 := TwiceFirst(x, names0, st);
    var o2 := ExerciseOutcome(x, p1.names, st);
    assert o2 == Skipped;
    TwiceOuts(x, names0, st);
    InsertedThenSkipped(o.item);
  }

  /** The pass after the first of two equal elements. */
  lemma TwiceFirst(x: JsonExercise, names0: seq<string>, st: Storage) returns (p1: ExercisePass)
    ensures p1 == ExercisePhase([x], names0, st)
    ensures var o := ExerciseOutcome(x, names0, st);
      p1.names == (if o.Inserted? then names0 + [Lower(o.item.name)] else names0)
  {
    assert [x][..0] == [];
    p1 := ExercisePhase([x], names0, st);
  }

  lemma TwiceOuts(x: JsonExercise, names0: seq<string>, st: Storage)
    ensures var p1 := ExercisePhase([x], names0, st);
      ExercisePhase([x, x], names0, st).outs == [ExerciseOutcome(x, names0, st), ExerciseOutcome(x, p1.names, st)]
  {
    assert [x, x][..1] == [x];
    assert [x][..0] == [];
  }

  /** The catalog as read back after the exercise pass: the inserted
      exercises follow, with the ids the database handed out. */
  function AfterImport(catalog: seq<CatalogEntry>, added: seq<ExerciseDraft>, firstId: int): (all: seq<CatalogEntry>)
    ensures |all| == |catalog| + |added|
    ensures all[..|catalog|] == catalog
    ensures forall k :: 0 <= k < |added| ==> all[|catalog| + k] == CatalogEntry(firstId + k, added[k].name)
  {
    catalog + seq(|added|, k requires 0 <= k < |added| => CatalogEntry(firstId + k, added[k].name))
  }

  /** Every exercise added gets an id under its own name: a workout row
      naming it, in any case, finds it. */
  lemma AddedExerciseFound(catalog: seq<CatalogEntry>, added: seq<ExerciseDraft>, firstId: int, k: nat)
    requires k < |added| && firstId + k != 0
    requires Trim(added[k].name) == added[k].name
    ensures LookupId(AfterImport(catalog, added, firstId), NameKey, Lower(added[k].name)).Some?
  {
    var all := AfterImport(catalog, added, firstId);
    var i := |catalog| + k;
    TrimLowerCommute(added[k].name);
    assert all[i] == CatalogEntry(firstId + k, added[k].name);
    LookupFound(all, NameKey, Lower(added[k].name), i);
  }

  lemma LookupFound(catalog: seq<CatalogEntry>, keyOf: string -> string, key: string, i: int)
    requires 0 <= i < |catalog| && catalog[i].id != 0 && keyOf(catalog[i].name) == key
    ensures LookupId(catalog, keyOf, key).Some?
  {
    LookupIdSpec(catalog, keyOf, key);
  }

  // ---------------------------------------------------------------------
  // Grouping the rows (import-export.ts:691-711)

  /** The trimmed date, workout name and exercise name of a row, or `None`
      when one of them is missing or blank. */
  function RowPlace(r: JsonWorkoutRow): (p: Option<(string, string, string)>)
    ensures p.None? <==>
      || r.date.None? || AllSpace(r.date.value)
      || r.workoutName.None? || AllSpace(r.workoutName.value)
      || r.exerciseName.None? || AllSpace(r.exerciseName.value)
    ensures p.Some? ==>
      p.value == (Trim(r.date.value), Trim(r.workoutName.value), Trim(r.exerciseName.value))
  {
    var date := BlankToUndefined(r.date);
    var name := BlankToUndefined(r.workoutName);
    var exercise := BlankToUndefined(r.exerciseName);
    if date.None? || name.None? || exercise.None? then None
    else Some((date.value, name.value, exercise.value))
  }

  /** The rows that go into the grouping, as `(date, (workoutName,
      (exerciseName, row)))`, in document order. */
  function PlacedRows(rows: seq<JsonWorkoutRow>): (items: seq<(string, (string, (string, JsonWorkoutRow)))>)
    ensures |items| <= |rows|
  {
    if |rows| == 0 then []
    else
      var r := rows[|rows| - 1];
      PlacedRows(rows[..|rows| - 1]) +
        match RowPlace(r)
        case None => []
        case Some(p) => [(p.0, (p.1, (p.2, r)))]
  }

  /** The number of rows reported as missing a field. */
  function MissingCount(rows: seq<JsonWorkoutRow>): (n: nat)
    ensures n + |PlacedRows(rows)| == |rows|
  {
    if |rows| == 0 then 0
    else MissingCount(rows[..|rows| - 1]) + if RowPlace(rows[|rows| - 1]).None? then 1 else 0
  }

  /** A map of maps: each date with the workout names pushed under it. */
  type Nested<V> = seq<(string, Groups<string, V>)>

  predicate NestedWellFormed<V>(g: Nested<V>) {
    && UniqueKeys(g)
    && forall i :: 0 <= i < |g| ==> UniqueKeys(g[i].1)
  }

  /** `workoutGroups.get(date).get(workoutName).push(item)`, creating the
      inner map and the list on first sight. */
  function NestedPush<V>(g: Nested<V>, date: string, name: string, v: V): (r: Nested<V>)
    requires NestedWellFormed(g)
    ensures NestedWellFormed(r)
  {
    match Find(g, date)
    case None =>
      var r := g + [(date, Push([], name, v))];
      assert Keys(r) == Keys(g) + [date];
      r
    case Some(i) =>
      var r := g[i := (date, Push(g[i].1, name, v))];
      assert Keys(r) == Keys(g);
      r
  }

  /** The nested map after every placed row. */
  function NestedGroup<V>(items: seq<(string, (string, V))>): (g: Nested<V>)
    ensures NestedWellFormed(g)
  {
    if |items| == 0 then []
    else
      var last := items[|items| - 1];
      NestedPush(NestedGroup(items[..|items| - 1]), last.0, last.1.0, last.1.1)
  }

  /** Reference definition: group by date, then group each date's list by
      workout name. */
  function GroupEach<V>(g: Groups<string, (string, V)>): (r: Nested<V>)
    ensures |r| == |g|
    ensures Keys(r) == Keys(g)
    ensures forall i :: 0 <= i < |g| ==> r[i] == (g[i].0, GroupAll(g[i].1))
  {
    seq(|g|, i requires 0 <= i < |g| => (g[i].0, GroupAll(g[i].1)))
  }

  lemma GroupEachPush<V>(g: Groups<string, (string, V)>, date: string, name: string, v: V)
    requires UniqueKeys(g)
    ensures NestedWellFormed(GroupEach(g))
    ensures NestedPush(GroupEach(g), date, name, v) == GroupEach(Push(g, date, (name, v)))
  {
    var e := GroupEach(g);
    assert UniqueKeys(e) by {
      assert forall i :: 0 <= i < |g| ==> e[i].0 == g[i].0;
    }
    match Find(g, date)
    case None =>
      GroupEachPushNew(g, date, name, v);
    case Some(i) =>
      GroupEachPushOld(g, date, name, v, i);
  }

  lemma GroupEachPushNew<V>(g: Groups<string, (string, V)>, date: string, name: string, v: V)
    requires UniqueKeys(g) && NestedWellFormed(GroupEach(g)) && Find(g, date).None?
    ensures NestedPush(GroupEach(g), date, name, v) == GroupEach(Push(g, date, (name, v)))
  {
    var e := GroupEach(g);
    assert Find(e, date).None?;
    var cell := Push([], name, v);
    assert NestedPush(e, date, name, v) == e + [(date, cell)];
    assert Push(g, date, (name, v)) == g + [(date, [(name, v)])];
    assert GroupAll([(name, v)]) == cell by {
      GroupAllSnoc([], (name, v));
      assert [] + [(name, v)] == [(name, v)];
    }
    assert GroupEach(g + [(date, [(name, v)])]) == e + [(date, cell)];
  }

  lemma GroupEachPushOld<V>(g: Groups<string, (string, V)>, date: string, name: string, v: V, i: nat)
    requires UniqueKeys(g) && NestedWellFormed(GroupEach(g)) && Find(g, date) == Some(i)
    ensures NestedPush(GroupEach(g), date, name, v) == GroupEach(Push(g, date, (name, v)))
  {
    var e := GroupEach(g);
    assert Find(e, date) == Some(i) by {
      FindUnique(e, date, i);
    }
    var cell := Push(e[i].1, name, v);
    assert NestedPush(e, date, name, v) == e[i := (date, cell)];
    var h := g[i := (date, g[i].1 + [(name, v)])];
    assert Push(g, date, (name, v)) == h;
    GroupAllSnoc(g[i].1, (name, v));
    assert GroupAll(g[i].1 + [(name, v)]) == cell;
    GroupEachUpdate(g, i, (date, g[i].1 + [(name, v)]));
  }

  lemma GroupEachUpdate<V>(g: Groups<string, (string, V)>, i: nat, x: (string, seq<(string, V)>))
    requires i < |g|
    ensures GroupEach(g[i := x]) == GroupEach(g)[i := (x.0, GroupAll(x.1))]
  {
  }

  lemma FindUnique<K, W>(g: seq<(K, W)>, k: K, i: nat)
    requires UniqueKeys(g) && i < |g| && g[i].0 == k
    ensures Find(g, k) == Some(i)
  {
    assert k in Keys(g) by {
      assert Keys(g)[i] == k;
    }
  }

  /** The nested map the importer builds is the grouping by date of the
      grouping by workout name: dates in order of first appearance, and
      under each date its workout names in order of first appearance, each
      with its rows in document order. */
  lemma {:induction false} NestedGroupSpec<V>(items: seq<(string, (string, V))>)
    ensures NestedGroup(items) == GroupEach(GroupAll(items))
  {
    if |items| > 0 {
      var front := items[..|items| - 1];
      var last := items[|items| - 1];
      NestedGroupSpec(front);
      assert NestedGroup(items) == NestedPush(NestedGroup(front), last.0, last.1.0, last.1.1);
      assert GroupAll(items) == Push(GroupAll(front), last.0, last.1);
      GroupEachPush(GroupAll(front), last.0, last.1.0, last.1.1);
    }
  }

  /** One workout of the document: a date, a workout name and its rows as
      `(exerciseName, row)`. */
  datatype WorkoutEntry = WorkoutEntry(date: string, name: string, rows: seq<(string, JsonWorkoutRow)>)

  /** The order the two nested loops visit the workouts in. */
  function Flatten(g: Nested<(string, JsonWorkoutRow)>): (es: seq<WorkoutEntry>) {
    if |g| == 0 then []
    else
      var last := g[|g| - 1];
      Flatten(g[..|g| - 1]) +
        seq(|last.1|, j requires 0 <= j < |last.1| => WorkoutEntry(last.0, last.1[j].0, last.1[j].1))
  }

  function WorkoutEntries(rows: seq<JsonWorkoutRow>): seq<WorkoutEntry> {
    Flatten(NestedGroup(PlacedRows(rows)))
  }

  /** There are at most as many workouts as placed rows. */
  lemma WorkoutEntriesBound(rows: seq<JsonWorkoutRow>)
    ensures |WorkoutEntries(rows)| <= |PlacedRows(rows)|
  {
    var items := PlacedRows(rows);
    NestedGroupSpec(items);
    FlattenBound(GroupAll(items));
    CountGroupAll(items);
  }

  lemma {:induction false} FlattenBound(g: Groups<string, (string, (string, JsonWorkoutRow))>)
    ensures |Flatten(GroupEach(g))| <= Count(g)
  {
    if |g| > 0 {
      var front := g[..|g| - 1];
      FlattenBound(front);
      assert GroupEach(g)[..|g| - 1] == GroupEach(front);
      GroupAllBound(g[|g| - 1].1);
    }
  }

  // ---------------------------------------------------------------------
  // Building and storing the workouts (import-export.ts:714-764)

  /** The set one row describes (import-export.ts:725-738): the weight in
      kilograms unless the unit is exactly `"kg"`, missing or zero reps as
      0, an empty or missing duration as absent, and a duration that does
      not parse as NaN. */
  function ToSet(r: JsonWorkoutRow, parseInt: string -> Option<int>): (s: SetData)
    ensures s.weight == ConvertWeightToKg(r.weight, if r.weightUnit == Some("kg") then Metric else Imperial)
    ensures r.reps.None? ==> s.reps == 0
    ensures r.reps.Some? ==> s.reps == r.reps.value
    ensures s.duration.None? <==> r.duration.None? || r.duration.value == ""
    ensures s.setNumber == r.setNumber
    ensures s.instructions == TrimOptional(r.instructions) && s.notes == TrimOptional(r.notes)
  {
    var unit := if r.weightUnit == Some("kg") then Metric else Imperial;
    var reps := match r.reps case None => 0 case Some(n) => n;
    var duration :=
      match r.duration
      case None => None
      case Some(d) =>
        if d == "" then None
        else match parseInt(d) case None => Some(NaN) case Some(n) => Some(FromInt(n));
    SetData(ConvertWeightToKg(r.weight, unit), reps, r.setNumber, duration,
      TrimOptional(r.instructions), TrimOptional(r.notes))
  }

  function ToSets(rows: seq<(string, JsonWorkoutRow)>, parseInt: string -> Option<int>): (ps: seq<(string, SetData)>)
    ensures |ps| == |rows|
    ensures forall i :: 0 <= i < |rows| ==> ps[i] == (rows[i].0, ToSet(rows[i].1, parseInt))
  {
    seq(|rows|, i requires 0 <= i < |rows| => (rows[i].0, ToSet(rows[i].1, parseInt)))
  }

  /** One workout. A duplicate of a stored workout is skipped; a workout
      none of whose exercises has an id, and one the database refuses, are
      reported and counted as skipped. */
  function WorkoutOutcome(e: WorkoutEntry, all: seq<CatalogEntry>, existingKeys: seq<string>,
                          parseInt: string -> Option<int>, st: Storage): (o: Outcome<Workout>)
    ensures o == Skipped <==> DuplicateKey(e.date, e.name) in existingKeys
    ensures o.Failed? ==> o.alsoSkipped
    ensures o == Failed(JsonNoValidExercises(e.name, e.date), true) <==>
      DuplicateKey(e.date, e.name) !in existingKeys && |BuildWorkoutExercises(GroupAll(ToSets(e.rows, parseInt)), all, NameKey)| == 0
    ensures o.Inserted? ==>
      && o.item == Workout(e.name, e.date, BuildWorkoutExercises(GroupAll(ToSets(e.rows, parseInt)), all, NameKey), None)
      && |o.item.exercises| > 0
  {
    if DuplicateKey(e.date, e.name) in existingKeys then Skipped
    else
      var exercises := BuildWorkoutExercises(GroupAll(ToSets(e.rows, parseInt)), all, NameKey);
      if |exercises| == 0 then Failed(JsonNoValidExercises(e.name, e.date), true)
      else
        var w := Workout(e.name, e.date, exercises, None);
        match st.workoutFault(w)
        case Some(message) => Failed(JsonWorkoutFailed(e.name, e.date, message), true)
        case None => Inserted(w)
  }

  function WorkoutOutcomes(es: seq<WorkoutEntry>, all: seq<CatalogEntry>, existingKeys: seq<string>,
                           parseInt: string -> Option<int>, st: Storage): (outs: seq<Outcome<Workout>>)
    ensures |outs| == |es|
    ensures forall i :: 0 <= i < |es| ==> outs[i] == WorkoutOutcome(es[i], all, existingKeys, parseInt, st)
  {
    seq(|es|, i requires 0 <= i < |es| => WorkoutOutcome(es[i], all, existingKeys, parseInt, st))
  }

  /** A stored workout of this importer: the database did not hold it under
      the same date and name, and each of its exercises carries the id of a
      catalog exercise (after the exercise pass) of the same trimmed,
      lower-cased name. */
  predicate StoredSound(w: Workout, all: seq<CatalogEntry>, existingKeys: seq<string>) {
    && DuplicateKey(w.date, w.name) !in existingKeys
    && |w.exercises| > 0
    && AllResolved(w.exercises, all)
  }

  predicate AllResolved(es: seq<WorkoutExercise>, all: seq<CatalogEntry>) {
    forall j :: 0 <= j < |es| ==> ExerciseResolved(es[j], all)
  }

  predicate ExerciseResolved(e: WorkoutExercise, all: seq<CatalogEntry>) {
    && e.exerciseId != 0
    && (exists i :: 0 <= i < |all| && all[i].id == e.exerciseId && NameKey(all[i].name) == Lower(e.exerciseName))
    && forall k :: 0 <= k < |e.sets| ==> !e.sets[k].completed
  }

  lemma InsertedWorkoutsSound(es: seq<WorkoutEntry>, all: seq<CatalogEntry>, existingKeys: seq<string>,
                              parseInt: string -> Option<int>, st: Storage)
    ensures forall w :: w in InsertedItems(WorkoutOutcomes(es, all, existingKeys, parseInt, st)) ==> StoredSound(w, all, existingKeys)
  {
    var outs := WorkoutOutcomes(es, all, existingKeys, parseInt, st);
    InsertedItemsFrom(outs);
    forall w | w in InsertedItems(outs)
      ensures StoredSound(w, all, existingKeys)
    {
      var j :| 0 <= j < |outs| && outs[j] == Inserted(w);
      OutcomeSound(es[j], all, existingKeys, parseInt, st);
    }
  }

  /** One workout inserted is sound. */
  lemma OutcomeSound(e: WorkoutEntry, all: seq<CatalogEntry>, existingKeys: seq<string>,
                     parseInt: string -> Option<int>, st: Storage)
    ensures var o := WorkoutOutcome(e, all, existingKeys, parseInt, st);
      o.Inserted? ==> StoredSound(o.item, all, existingKeys)
  {
    var o := WorkoutOutcome(e, all, existingKeys, parseInt, st);
    if o.Inserted? {
      var g := GroupAll(ToSets(e.rows, parseInt));
      var built := BuildWorkoutExercises(g, all, NameKey);
      assert o.item == Workout(e.name, e.date, built, None);
      BuiltResolved(g, all);
    }
  }

  /** Every exercise built carries the id of a catalog exercise of its
      name. */
  lemma BuiltResolved(g: Groups<string, SetData>, all: seq<CatalogEntry>)
    ensures AllResolved(BuildWorkoutExercises(g, all, NameKey), all)
  {
    var built := BuildWorkoutExercises(g, all, NameKey);
    BuiltFromEntries(g, all, NameKey);
    forall k | 0 <= k < |built|
      ensures ExerciseResolved(built[k], all)
    {
      assert built[k] in built;
      var i :| 0 <= i < |g| && Some(built[k]) == BuildExercise(g[i].0, g[i].1, all, NameKey);
      LookupIdSpec(all, NameKey, Lower(g[i].0));
    }
  }

  // ---------------------------------------------------------------------
  // The importer

  /** The summary of a document whose two arrays are present. The errors
      are the exercise pass's failures, then one message per workout row
      missing a field, then the workout pass's failures. */
  function ImportDocument(xs: seq<JsonExercise>, rows: seq<JsonWorkoutRow>, catalog: seq<CatalogEntry>,
                          existing: seq<Workout>, parseInt: string -> Option<int>, st: Storage): (r: JsonSummary)
    ensures r.exercisesSuccess == |r.exercisesAdded| && r.workoutsSuccess == |r.workoutsAdded|
    ensures r.exercisesSuccess + r.exercisesSkipped <= |xs|
    ensures r.workoutsSuccess + r.workoutsSkipped == MissingCount(rows) + |WorkoutEntries(rows)|
    ensures r.workoutsSuccess + r.workoutsSkipped <= |rows|
    ensures forall d :: d in r.exercisesAdded ==> d.name != "" && Trim(d.name) == d.name
    ensures FreshNames(DraftNames(r.exercisesAdded), ExistingNameKeys(catalog))
    ensures forall w :: w in r.workoutsAdded ==>
      StoredSound(w, AfterImport(catalog, r.exercisesAdded, st.nextExerciseId), ExistingKeys(existing))
    ensures r.errors == DocumentErrors(FailureErrors(ExercisePhase(xs, ExistingNameKeys(catalog), st).outs), MissingCount(rows),
      FailureErrors(WorkoutOutcomes(WorkoutEntries(rows), AfterImport(catalog, r.exercisesAdded, st.nextExerciseId),
        ExistingKeys(existing), parseInt, st)))
  {
    var names0 := ExistingNameKeys(catalog);
    var ep := ExercisePhase(xs, names0, st);
    var et := TallyAll(ep.outs);
    var all := AfterImport(catalog, et.inserted, st.nextExerciseId);
    var missing := MissingCount(rows);
    var entries := WorkoutEntries(rows);
    var outs := WorkoutOutcomes(entries, all, ExistingKeys(existing), parseInt, st);
    var wt := TallyAll(outs);
    InsertedNamesFresh(xs, names0, st);
    InsertedNamesNonBlank(xs, names0, st);
    FailuresSkipped(outs);
    WorkoutEntriesBound(rows);
    InsertedWorkoutsSound(entries, all, ExistingKeys(existing), parseInt, st);
    JsonSummary(et.success, et.skipped, wt.success, missing + wt.skipped,
      DocumentErrors(et.errors, missing, wt.errors), et.inserted, wt.inserted)
  }

  /** The error list of an import: the exercise pass's errors, then
      `missing` copies of the missing-field message, then the workout
      pass's errors. */
  function DocumentErrors(exerciseErrors: seq<ImportError>, missing: nat, workoutErrors: seq<ImportError>): (errors: seq<ImportError>)
    ensures |errors| == |exerciseErrors| + missing + |workoutErrors|
    ensures errors[..|exerciseErrors|] == exerciseErrors
    ensures forall i :: |exerciseErrors| <= i < |exerciseErrors| + missing ==> errors[i] == MissingWorkoutFields
    ensures errors[|exerciseErrors| + missing..] == workoutErrors
  {
    exerciseErrors + seq(missing, _ => MissingWorkoutFields) + workoutErrors
  }

  /** `importFromJSON`, end to end. A document that does not parse, or
      lacks one of its arrays, imports nothing and yields one message. */
  function ImportFromJson(doc: JsonDocument, catalog: seq<CatalogEntry>, existing: seq<Workout>,
                          parseInt: string -> Option<int>, st: Storage): (r: JsonSummary)
    ensures doc.Unparsable? ==> r == JsonSummary(0, 0, 0, 0, [JsonFailed(doc.message)], [], [])
    ensures doc.Document? && (doc.exercises.None? || doc.workouts.None?) ==>
      r == JsonSummary(0, 0, 0, 0, [JsonFailed(InvalidJsonFormat)], [], [])
    ensures doc.Document? && doc.exercises.Some? && doc.workouts.Some? ==>
      r == ImportDocument(doc.exercises.value, doc.workouts.value, catalog, existing, parseInt, st)
  {
    match doc
    case Unparsable(message) => JsonSummary(0, 0, 0, 0, [JsonFailed(message)], [], [])
    case Document(xs, rows) =>
      if xs.None? || rows.None? then JsonSummary(0, 0, 0, 0, [JsonFailed(InvalidJsonFormat)], [], [])
      else ImportDocument(xs.value, rows.value, catalog, existing, parseInt, st)
  }

  /** The names the importer compares are trimmed before lower-casing on
      both sides, so an inserted exercise differs, ignoring case and
      surrounding white space, from every catalog exercise. */
  lemma NoExerciseDuplicatesCatalog(xs: seq<JsonExercise>, rows: seq<JsonWorkoutRow>, catalog: seq<CatalogEntry>,
                                    existing: seq<Workout>, parseInt: string -> Option<int>, st: Storage)
    ensures var r := ImportDocument(xs, rows, catalog, existing, parseInt, st);
      forall d, c :: d in r.exercisesAdded && c in catalog ==> Lower(Trim(d.name)) != Lower(Trim(c.name))
  {
    var r := ImportDocument(xs, rows, catalog, existing, parseInt, st);
    FreshNamesApart(r.exercisesAdded, catalog);
  }

  lemma FreshNamesApart(added: seq<ExerciseDraft>, catalog: seq<CatalogEntry>)
    requires forall d :: d in added ==> Trim(d.name) == d.name
    requires FreshNames(DraftNames(added), ExistingNameKeys(catalog))
    ensures forall d, c :: d in added && c in catalog ==> Lower(Trim(d.name)) != Lower(Trim(c.name))
  {
    var ns := DraftNames(added);
    forall d, c | d in added && c in catalog
      ensures Lower(Trim(d.name)) != Lower(Trim(c.name))
    {
      var k :| 0 <= k < |added| && added[k] == d;
      var i :| 0 <= i < |catalog| && catalog[i] == c;
      TrimLowerCommute(c.name);
      assert ExistingNameKeys(catalog)[i] == Lower(Trim(c.name));
      assert ns[k] == Lower(d.name);
    }
  }
}

=== FILE: messages.dfy ===
/** The error messages the importers return, as a datatype with the exact
    text each one renders to (src/lib/utils/csv.ts and
    src/lib/utils/import-export.ts). `line` is the 1-based line of the CSV
    file: the header is line 1, the first data row line 2. */
module Messages {
  import opened Base
  import opened Text

  datatype ImportError =
      // whole-file failures
    | ParseError(row: int, message: string)
    | EmptyCsv
      // exercise rows
    | ExerciseFieldsMissing(line: nat)
    | ExerciseNameRequired(line: nat)
    | ExerciseDescriptionRequired(line: nat)
    | LineFailed(line: nat, detail: string)
      // workout rows
    | MissingFields(line: nat)
    | InvalidDate(line: nat)
    | ExerciseNotFound(line: nat, exerciseName: string)
    | InvalidWeight(line: nat)
    | InvalidUnit(line: nat, unit: string)
    | InvalidReps(line: nat)
    | InvalidSetNumber(line: nat)
    | InvalidDuration(line: nat)
      // workouts
    | NoValidExercises(workoutName: string, date: string)
    | WorkoutFailed(workoutName: string, date: string, detail: string)
      // JSON import
    | JsonFailed(detail: string)
    | MissingExerciseName
    | ExerciseImportFailed(rawName: Option<string>, detail: string)
    | MissingWorkoutFields
    | JsonNoValidExercises(workoutName: string, date: string)
    | JsonWorkoutFailed(workoutName: string, date: string, detail: string)

  /** The message of the error thrown when the JSON document lacks one of
      its two arrays. */
  const InvalidJsonFormat: string := "Invalid JSON format. Expected \"exercises\" and \"workouts\" arrays."

  /** What a JavaScript template literal prints for an optional string. */
  function ShowOptional(s: Option<string>): string {
    match s
    case None => "undefined"
    case Some(v) => v
  }

  /** A value in double quotes, as the messages print it. */
  function Quoted(s: string): string {
    "\"" + s + "\""
  }

  function LinePrefix(line: nat): string {
    "Line " + NatToString(line) + ": "
  }

  /** The text pushed onto the `errors` array. */
  function Message(e: ImportError): string {
    match e
    case ParseError(row, message) => "Parse error at row " + IntToString(row) + ": " + message
    case EmptyCsv => "CSV file is empty or has no data rows"
    case ExerciseFieldsMissing(line) => LinePrefix(line) + "Missing required fields (name, description)"
    case ExerciseNameRequired(line) => LinePrefix(line) + "Exercise name is required"
    case ExerciseDescriptionRequired(line) => LinePrefix(line) + "Exercise description is required"
    case LineFailed(line, detail) => LinePrefix(line) + detail
    case MissingFields(line) => LinePrefix(line) + "Missing required fields"
    case InvalidDate(line) => LinePrefix(line) + "Invalid date format (use YYYY-MM-DD)"
    case ExerciseNotFound(line, name) =>
      LinePrefix(line) + "Exercise \"" + name + "\" not found. Please import exercises first."
    case InvalidWeight(line) => LinePrefix(line) + "Invalid weight value"
    case InvalidUnit(line, unit) => LinePrefix(line) + "Invalid weight unit " + Quoted(unit) + " (use \"lb\" or \"kg\")"
    case InvalidReps(line) => LinePrefix(line) + "Invalid reps value"
    case InvalidSetNumber(line) => LinePrefix(line) + "Invalid set number"
    case InvalidDuration(line) => LinePrefix(line) + "Invalid duration value"
    case NoValidExercises(name, date) => "Workout \"" + name + "\" on " + date + ": No valid exercises found"
    case WorkoutFailed(name, date, detail) => "Workout \"" + name + "\" on " + date + ": " + detail
    case JsonFailed(detail) => "Failed to parse JSON: " + detail
    case MissingExerciseName => "Skipped exercise with missing name"
    case ExerciseImportFailed(name, detail) =>
      "Failed to import exercise \"" + ShowOptional(name) + "\": " + detail
    case MissingWorkoutFields => "Skipped workout row with missing date, workoutName, or exerciseName"
    case JsonNoValidExercises(name, date) =>
      "Skipped workout \"" + name + "\" on " + date + ": No valid exercises found"
    case JsonWorkoutFailed(name, date, detail) =>
      "Failed to import workout \"" + name + "\" on " + date + ": " + detail
  }

  /** The unit error names the unit as written in the row. */
  lemma InvalidUnitMessage(line: nat, unit: string)
    ensures Contains(Message(InvalidUnit(line, unit)), "\"" + unit + "\"")
  {
    var head := LinePrefix(line) + "Invalid weight unit ";
    var tail := " (use \"lb\" or \"kg\")";
    assert Message(InvalidUnit(line, unit)) == head + Quoted(unit) + tail;
    ContainsMiddle(head, Quoted(unit), tail);
  }
}

=== FILE: outcomes.dfy ===
/** What the importers return: counters of inserted and skipped items and
    the list of error messages, accumulated item by item. Also the result
    of CSV parsing, which both CSV importers inspect first. */
module Outcomes {
  import opened Base
  import opened Messages

  /** What happened to one item. A failure may or may not also count as a
      skip, depending on the importer. */
  datatype Outcome<T> = Inserted(item: T) | Skipped | Failed(error: ImportError, alsoSkipped: bool)

  /** `{ success, skipped, errors }`, with the inserted records alongside. */
  datatype Tally<T> = Tally(success: nat, skipped: nat, errors: seq<ImportError>, inserted: seq<T>)

  function Record<T>(t: Tally<T>, o: Outcome<T>): Tally<T> {
    match o
    case Inserted(x) => t.(success := t.success + 1, inserted := t.inserted + [x])
    case Skipped => t.(skipped := t.skipped + 1)
    case Failed(e, alsoSkipped) => t.(errors := t.errors + [e], skipped := t.skipped + if alsoSkipped then 1 else 0)
  }

  /** The counters after every item in turn. */
  function TallyAll<T>(outs: seq<Outcome<T>>): (t: Tally<T>)
    ensures t.success == |t.inserted|
    ensures t.inserted == InsertedItems(outs)
    ensures t.errors == FailureErrors(outs)
    ensures t.success + t.skipped <= |outs| <= t.success + t.skipped + |t.errors|
  {
    if |outs| == 0 then Tally(0, 0, [], [])
    else Record(TallyAll(outs[..|outs| - 1]), outs[|outs| - 1])
  }

  /** Reference definitions: the inserted items and the failures' errors,
      in item order. */
  function InsertedItems<T>(outs: seq<Outcome<T>>): seq<T> {
    if |outs| == 0 then []
    else InsertedItems(outs[..|outs| - 1]) + if outs[|outs| - 1].Inserted? then [outs[|outs| - 1].item] else []
  }

  function FailureErrors<T>(outs: seq<Outcome<T>>): seq<ImportError> {
    if |outs| == 0 then []
    else FailureErrors(outs[..|outs| - 1]) + if outs[|outs| - 1].Failed? then [outs[|outs| - 1].error] else []
  }

  lemma InsertedItemsSnoc<T>(outs: seq<Outcome<T>>, o: Outcome<T>)
    ensures InsertedItems(outs + [o]) == InsertedItems(outs) + if o.Inserted? then [o.item] else []
  {
    assert (outs + [o])[..|outs|] == outs;
  }

  /** Every inserted item is the item of some outcome. */
  lemma {:induction false} InsertedItemsFrom<T>(outs: seq<Outcome<T>>)
    ensures forall x :: x in InsertedItems(outs) ==> Inserted(x) in outs
  {
    if |outs| > 0 {
      var front := outs[..|outs| - 1];
      InsertedItemsFrom(front);
      assert forall o :: o in front ==> o in outs;
    }
  }

  /** Without failures there are no errors and every item is counted once. */
  lemma {:induction false} NoFailures<T>(outs: seq<Outcome<T>>)
    requires forall i :: 0 <= i < |outs| ==> !outs[i].Failed?
    ensures TallyAll(outs).errors == []
    ensures TallyAll(outs).success + TallyAll(outs).skipped == |outs|
  {
    if |outs| > 0 {
      NoFailures(outs[..|outs| - 1]);
    }
  }

  /** When every failure also counts as a skip, each item is counted once. */
  lemma {:induction false} FailuresSkipped<T>(outs: seq<Outcome<T>>)
    requires forall i :: 0 <= i < |outs| && outs[i].Failed? ==> outs[i].alsoSkipped
    ensures TallyAll(outs).success + TallyAll(outs).skipped == |outs|
  {
    if |outs| > 0 {
      FailuresSkipped(outs[..|outs| - 1]);
    }
  }

  /** An insert followed by a skip. */
  lemma InsertedThenSkipped<T>(x: T)
    ensures TallyAll([Inserted(x), Skipped]) == Tally(1, 1, [], [x])
  {
    assert [Inserted(x), Skipped][..1] == [Inserted(x)];
    assert [Inserted(x)][..0] == [];
  }

  /** Two inserts of the same item. */
  lemma InsertedTwice<T>(x: T)
    ensures TallyAll([Inserted(x), Inserted(x)]) == Tally(2, 0, [], [x, x])
  {
    assert [Inserted(x), Inserted(x)][..1] == [Inserted(x)];
    assert [Inserted(x)][..0] == [];
  }

  /** `Papa.parse(content, { skipEmptyLines: true })`: the rows of fields,
      and the row and message of every parse error. */
  datatype ParseResult = ParseResult(rows: seq<seq<string>>, parseErrors: seq<(int, string)>)

  /** The early return of both CSV importers: one message per parse error,
      or the empty-file message when there is no data row. `None` when the
      rows are to be processed. */
  function EarlyReturn<T>(p: ParseResult): (r: Option<Tally<T>>)
    ensures r.None? <==> |p.parseErrors| == 0 && |p.rows| >= 2
    ensures r.Some? ==> r.value.success == 0 && r.value.skipped == 0 && r.value.inserted == []
    ensures |p.parseErrors| > 0 ==>
      && r.Some? && |r.value.errors| == |p.parseErrors|
      && forall i :: 0 <= i < |p.parseErrors| ==> r.value.errors[i] == ParseError(p.parseErrors[i].0, p.parseErrors[i].1)
    ensures |p.parseErrors| == 0 && |p.rows| < 2 ==> r == Some(Tally(0, 0, [EmptyCsv], []))
  {
    if |p.parseErrors| > 0 then
      Some(Tally(0, 0, seq(|p.parseErrors|, i requires 0 <= i < |p.parseErrors| => ParseError(p.parseErrors[i].0, p.parseErrors[i].1)), []))
    else if |p.rows| < 2 then Some(Tally(0, 0, [EmptyCsv], []))
    else None
  }
}

=== FILE: records.dfy ===
/** The stored records (src/lib/types/index.ts) as far as the import,
    export and workout operations read or write them. Ids are the database's
    auto-increment keys; creation timestamps are not modelled. */
module Records {
  import opened Base

  /** An exercise of the catalog, as the importer reads it. */
  datatype CatalogEntry = CatalogEntry(id: int, name: string)

  /** What `addExercise` is called with. */
  datatype ExerciseDraft = ExerciseDraft(name: string, description: string, videoLink: Option<string>)

  /** One set of a workout exercise. The importer also stores a duration
      in seconds (absent for weight training). */
  datatype SetEntry = SetEntry(weight: Num, reps: int, duration: Option<Num>, completed: bool)

  datatype WorkoutExercise = WorkoutExercise(
    exerciseId: int,
    exerciseName: string,
    sets: seq<SetEntry>,
    instructions: Option<string>,
    notes: Option<string>)

  /** A workout without its id and timestamp: what `addWorkout` is called
      with. */
  datatype Workout = Workout(name: string, date: string, exercises: seq<WorkoutExercise>, notes: Option<string>)

  /** A workout as stored, with its key. */
  datatype StoredWorkout = StoredWorkout(id: int, workout: Workout)

  /** The storage layer as the importer experiences it: an insert either
      succeeds or throws an error with a message (`Some(message)`), and the
      database hands out ids upward from `nextExerciseId`. */
  datatype Storage = Storage(
    exerciseFault: ExerciseDraft -> Option<string>,
    workoutFault: Workout -> Option<string>,
    nextExerciseId: int)

  /** A storage layer that never throws. */
  ghost predicate Reliable(st: Storage) {
    && (forall d :: st.exerciseFault(d).None?)
    && (forall w :: st.workoutFault(w).None?)
  }

  /** Total number of sets in a workout. */
  function SetCount(exercises: seq<WorkoutExercise>): nat {
    if |exercises| == 0 then 0 else SetCount(exercises[..|exercises| - 1]) + |exercises[|exercises| - 1].sets|
  }

  /** Total number of sets over several workouts. */
  function TotalSets(ws: seq<Workout>): nat {
    if |ws| == 0 then 0 else TotalSets(ws[..|ws| - 1]) + SetCount(ws[|ws| - 1].exercises)
  }
}

=== FILE: set_order.dfy ===
/** `sets.sort((a, b) => a.setNumber - b.setNumber)` (src/lib/utils/csv.ts:358,
    src/lib/utils/import-export.ts:566). `Array.prototype.sort` is stable,
    so the model is an insertion sort that places each set after every set
    whose number is not larger. */
module SetOrder {
  import opened WorkoutRows

  predicate SortedBySetNumber(s: seq<SetData>) {
    forall i, j :: 0 <= i < j < |s| ==> s[i].setNumber <= s[j].setNumber
  }

  /** The sets of a given number, in their order in `s`. */
  function WithSetNumber(s: seq<SetData>, k: int): seq<SetData> {
    if |s| == 0 then []
    else WithSetNumber(s[..|s| - 1], k) + (if s[|s| - 1].setNumber == k then [s[|s| - 1]] else [])
  }

  lemma {:induction false} WithSetNumberAppend(a: seq<SetData>, b: seq<SetData>, k: int)
    ensures WithSetNumber(a + b, k) == WithSetNumber(a, k) + WithSetNumber(b, k)
  {
    if |b| > 0 {
      assert (a + b)[..|a + b| - 1] == a + b[..|b| - 1];
      WithSetNumberAppend(a, b[..|b| - 1], k);
    } else {
      assert a + b == a;
    }
  }

  /** Insert `x` behind every set whose number is not larger than its own. */
  function Insert(s: seq<SetData>, x: SetData): (r: seq<SetData>)
    ensures |r| == |s| + 1
    ensures multiset(r) == multiset(s) + multiset{x}
  {
    if |s| == 0 then [x]
    else if s[|s| - 1].setNumber <= x.setNumber then s + [x]
    else
      assert s == s[..|s| - 1] + [s[|s| - 1]];
      Insert(s[..|s| - 1], x) + [s[|s| - 1]]
  }

  function SortBySetNumber(s: seq<SetData>): (r: seq<SetData>)
    ensures |r| == |s|
    ensures multiset(r) == multiset(s)
  {
    if |s| == 0 then []
    else
      assert s == s[..|s| - 1] + [s[|s| - 1]];
      Insert(SortBySetNumber(s[..|s| - 1]), s[|s| - 1])
  }

  lemma {:induction false} InsertKeepsSorted(s: seq<SetData>, x: SetData)
    requires SortedBySetNumber(s)
    ensures SortedBySetNumber(Insert(s, x))
  {
    if |s| > 0 {
      var front := s[..|s| - 1];
      var last := s[|s| - 1];
      if last.setNumber > x.setNumber {
        InsertKeepsSorted(front, x);
        var r := Insert(front, x);
        InsertBounded(front, x, last.setNumber);
        assert Insert(s, x) == r + [last];
        SortedSnoc(r, last);
      } else {
        SortedSnoc(s, x);
      }
    }
  }

  /** Everything inserted stays at or below a bound the parts keep to. */
  lemma InsertBounded(front: seq<SetData>, x: SetData, b: int)
    requires forall i :: 0 <= i < |front| ==> front[i].setNumber <= b
    requires x.setNumber <= b
    ensures forall i :: 0 <= i < |Insert(front, x)| ==> Insert(front, x)[i].setNumber <= b
  {
    var r := Insert(front, x);
    forall i | 0 <= i < |r|
      ensures r[i].setNumber <= b
    {
      assert r[i] in multiset(r);
      if r[i] != x {
        assert r[i] in multiset(front);
        assert r[i] in front;
      }
    }
  }

  lemma SortedSnoc(r: seq<SetData>, last: SetData)
    requires SortedBySetNumber(r)
    requires forall i :: 0 <= i < |r| ==> r[i].setNumber <= last.setNumber
    ensures SortedBySetNumber(r + [last])
  {
    forall i, j | 0 <= i < j < |r| + 1
      ensures (r + [last])[i].setNumber <= (r + [last])[j].setNumber
    {
      if j == |r| {
        assert (r + [last])[i] == r[i];
      }
    }
  }

  /** The result is sorted by set number. */
  lemma {:induction false} SortIsSorted(s: seq<SetData>)
    ensures SortedBySetNumber(SortBySetNumber(s))
  {
    if |s| > 0 {
      SortIsSorted(s[..|s| - 1]);
      InsertKeepsSorted(SortBySetNumber(s[..|s| - 1]), s[|s| - 1]);
    }
  }

  lemma WithSetNumberSingle(y: SetData, k: int)
    ensures WithSetNumber([y], k) == if y.setNumber == k then [y] else []
  {
    assert [y][..0] == [];
  }

  lemma SwapEmpty<T>(a: seq<T>, b: seq<T>, c: seq<T>)
    requires b == [] || c == []
    ensures a + b + c == a + c + b
  {
  }

  lemma {:induction false} InsertStable(s: seq<SetData>, x: SetData, k: int)
    ensures WithSetNumber(Insert(s, x), k) == WithSetNumber(s + [x], k)
  {
    if |s| > 0 && s[|s| - 1].setNumber > x.setNumber {
      var front := s[..|s| - 1];
      var last := s[|s| - 1];
      var r := Insert(front, x);
      var a, xs, ls := WithSetNumber(front, k), WithSetNumber([x], k), WithSetNumber([last], k);
      InsertStable(front, x, k);
      assert Insert(s, x) == r + [last];
      WithSetNumberAppend(r, [last], k);
      WithSetNumberAppend(front, [x], k);
      WithSetNumberAppend(s, [x], k);
      assert WithSetNumber(s, k) == a + ls;
      WithSetNumberSingle(x, k);
      WithSetNumberSingle(last, k);
      SwapEmpty(a, xs, ls);
    } else if |s| == 0 {
      assert s + [x] == [x];
    }
  }

  /** Stability: the sets of each number keep their input order, and none
      is lost or added. */
  lemma {:induction false} SortIsStable(s: seq<SetData>, k: int)
    ensures WithSetNumber(SortBySetNumber(s), k) == WithSetNumber(s, k)
  {
    if |s| > 0 {
      var front := s[..|s| - 1];
      var last := s[|s| - 1];
      var sf := SortBySetNumber(front);
      var tail := if last.setNumber == k then [last] else [];
      SortIsStable(front, k);
      assert SortBySetNumber(s) == Insert(sf, last);
      InsertStable(sf, last, k);
      WithSetNumberAppend(sf, [last], k);
      assert WithSetNumber([last], k) == tail by {
        assert [last][..0] == [];
      }
      assert WithSetNumber(s, k) == WithSetNumber(front, k) + tail;
    }
  }

  /** The first set after sorting, where the exercise's instructions and
      notes are read: a set of the lowest number, the earliest such one in
      input order. */
  lemma FirstAfterSort(s: seq<SetData>)
    requires |s| > 0
    ensures var r := SortBySetNumber(s);
      && (forall x :: x in s ==> r[0].setNumber <= x.setNumber)
      && |WithSetNumber(s, r[0].setNumber)| > 0
      && r[0] == WithSetNumber(s, r[0].setNumber)[0]
  {
    FirstIsLowest(s);
    FirstIsEarliest(s);
  }

  lemma FirstIsLowest(s: seq<SetData>)
    requires |s| > 0
    ensures forall x :: x in s ==> SortBySetNumber(s)[0].setNumber <= x.setNumber
  {
    var r := SortBySetNumber(s);
    SortIsSorted(s);
    forall x | x in s
      ensures r[0].setNumber <= x.setNumber
    {
      assert x in multiset(s);
      assert x in multiset(r);
      var j :| 0 <= j < |r| && r[j] == x;
    }
  }

  lemma FirstIsEarliest(s: seq<SetData>)
    requires |s| > 0
    ensures var r := SortBySetNumber(s);
      && |WithSetNumber(s, r[0].setNumber)| > 0
      && r[0] == WithSetNumber(s, r[0].setNumber)[0]
  {
    var r := SortBySetNumber(s);
    var k := r[0].setNumber;
    WithSetNumberAppend([r[0]], r[1..], k);
    WithSetNumberSingle(r[0], k);
    assert [r[0]] + r[1..] == r;
    SortIsStable(s, k);
  }
}

=== FILE: text.dfy ===
/** The string operations of JavaScript that the engine relies on:
    `trim`, `toLowerCase`, `split`, `join`, `padStart` and integer printing. */
module Text {
  import opened Base

  /** ECMAScript WhiteSpace and LineTerminator code points: what
      `String.prototype.trim` removes. */
  predicate IsSpace(c: char) {
    || c == '\t' || c == '\n' || c == '\U{000B}' || c == '\U{000C}' || c == '\r'
    || c == ' ' || c == '\U{00A0}' || c == '\U{1680}'
    || ('\U{2000}' <= c <= '\U{200A}')
    || c == '\U{2028}' || c == '\U{2029}' || c == '\U{202F}' || c == '\U{205F}'
    || c == '\U{3000}' || c == '\U{FEFF}'
  }

  predicate AllSpace(s: string) {
    forall k :: 0 <= k < |s| ==> IsSpace(s[k])
  }

  /** Drops leading white space. */
  function TrimStart(s: string): (r: string)
    ensures |r| <= |s| && r == s[|s| - |r|..]
    ensures |r| > 0 ==> !IsSpace(r[0])
    ensures AllSpace(s[..|s| - |r|])
  {
    if |s| > 0 && IsSpace(s[0]) then TrimStart(s[1..]) else s
  }

  /** Drops trailing white space. */
  function TrimEnd(s: string): (r: string)
    ensures |r| <= |s| && r == s[..|r|]
    ensures |r| > 0 ==> !IsSpace(r[|r| - 1])
    ensures AllSpace(s[|r|..])
  {
    if |s| > 0 && IsSpace(s[|s| - 1]) then TrimEnd(s[..|s| - 1]) else s
  }

  /** `s.trim()` */
  function Trim(s: string): (r: string)
    ensures |r| <= |s|
    ensures |r| > 0 ==> !IsSpace(r[0]) && !IsSpace(r[|r| - 1])
  {
    TrimEnd(TrimStart(s))
  }

  /** Trimming cuts only white space, and only at the two ends: the result
      is the slice of `s` that starts at index `i`. */
  lemma TrimIsSlice(s: string) returns (i: nat)
    ensures i + |Trim(s)| <= |s| && Trim(s) == s[i..i + |Trim(s)|]
    ensures AllSpace(s[..i]) && AllSpace(s[i + |Trim(s)|..])
  {
    var t := TrimStart(s);
    i := |s| - |t|;
    assert t[|Trim(s)|..] == s[i + |Trim(s)|..];
  }

  /** A trimmed string is empty exactly when the input is all white space. */
  lemma TrimEmptyIffAllSpace(s: string)
    ensures Trim(s) == [] <==> AllSpace(s)
  {
    var t := TrimStart(s);
    if Trim(s) == [] {
      assert AllSpace(t[0..]);
      assert s == s[..|s| - |t|] + t;
    }
    if AllSpace(s) {
      AllSpaceTrimsAway(s);
    }
  }

  lemma AllSpaceTrimsAway(s: string)
    requires AllSpace(s)
    ensures TrimStart(s) == []
  {
    if |s| > 0 {
      AllSpaceTrimsAway(s[1..]);
    }
  }

  /** Trimming twice is trimming once. */
  lemma TrimIdempotent(s: string)
    ensures Trim(Trim(s)) == Trim(s)
  {
    var t := Trim(s);
    assert TrimStart(t) == t;
    assert TrimEnd(t) == t;
  }

  /** `s?.trim()` */
  function TrimOptional(s: Option<string>): (r: Option<string>)
    ensures r.None? <==> s.None?
    ensures r.Some? ==> r.value == Trim(s.value)
  {
    match s
    case None => None
    case Some(v) => Some(Trim(v))
  }

  /** `s?.trim() || undefined`: a missing or blank value becomes absent. */
  function BlankToUndefined(s: Option<string>): (r: Option<string>)
    ensures r.None? <==> s.None? || AllSpace(s.value)
    ensures r.Some? ==> r.value == Trim(s.value) && r.value != ""
    ensures r.Some? ==> !AllSpace(r.value)
  {
    match s
    case None => None
    case Some(v) =>
      TrimEmptyIffAllSpace(v);
      if Trim(v) == "" then None else Some(Trim(v))
  }

  /** ASCII part of `toLowerCase`. */
  function LowerChar(c: char): char {
    if 'A' <= c <= 'Z' then (c as int + 32) as char else c
  }

  /** `s.toLowerCase()`, restricted to the ASCII letters. */
  function Lower(s: string): (r: string)
    ensures |r| == |s|
    ensures forall i :: 0 <= i < |s| ==> r[i] == LowerChar(s[i])
  {
    seq(|s|, i requires 0 <= i < |s| => LowerChar(s[i]))
  }

  lemma LowerIdempotent(s: string)
    ensures Lower(Lower(s)) == Lower(s)
  {
  }

  lemma LowerAppend(a: string, b: string)
    ensures Lower(a + b) == Lower(a) + Lower(b)
  {
  }

  /** Lower-casing and trimming commute: the existing names keyed by
      `toLowerCase().trim()` compare like names trimmed first. */
  lemma TrimLowerCommute(s: string)
    ensures Trim(Lower(s)) == Lower(Trim(s))
  {
    TrimStartLower(s);
    TrimEndLower(TrimStart(s));
  }

  lemma {:induction false} TrimStartLower(s: string)
    ensures TrimStart(Lower(s)) == Lower(TrimStart(s))
  {
    if |s| > 0 {
      LowerKeepsSpace(s[0]);
      assert Lower(s)[0] == LowerChar(s[0]);
      if IsSpace(s[0]) {
        assert Lower(s)[1..] == Lower(s[1..]);
        TrimStartLower(s[1..]);
      }
    }
  }

  lemma {:induction false} TrimEndLower(s: string)
    ensures TrimEnd(Lower(s)) == Lower(TrimEnd(s))
  {
    if |s| > 0 {
      var n := |s| - 1;
      var l := Lower(s);
      LowerLast(s);
      LowerPrefix(s, n);
      TrimEndStep(s);
      TrimEndStep(l);
      if IsSpace(s[n]) {
        TrimEndLower(s[..n]);
      }
    }
  }

  /** One step of `TrimEnd`: the last character goes if and only if it is
      white space. */
  lemma TrimEndStep(s: string)
    requires |s| > 0
    ensures IsSpace(s[|s| - 1]) ==> TrimEnd(s) == TrimEnd(s[..|s| - 1])
    ensures !IsSpace(s[|s| - 1]) ==> TrimEnd(s) == s
  {
  }

  lemma LowerLast(s: string)
    requires |s| > 0
    ensures |Lower(s)| == |s|
    ensures IsSpace(Lower(s)[|s| - 1]) <==> IsSpace(s[|s| - 1])
  {
    LowerKeepsSpace(s[|s| - 1]);
  }

  lemma LowerPrefix(s: string, n: nat)
    requires n <= |s|
    ensures Lower(s)[..n] == Lower(s[..n])
  {
  }

  /** Lower-casing never turns white space into a letter or back. */
  lemma LowerKeepsSpace(c: char)
    ensures IsSpace(LowerChar(c)) == IsSpace(c)
  {
  }

  predicate IsDigit(c: char) {
    '0' <= c <= '9'
  }

  predicate AllDigits(s: string) {
    forall k :: 0 <= k < |s| ==> IsDigit(s[k])
  }

  function DigitChar(d: nat): char
    requires d < 10
  {
    ('0' as int + d) as char
  }

  /** The value of a string of decimal digits (0 for the empty string). */
  function DecimalValue(s: string): nat
    requires AllDigits(s)
  {
    if |s| == 0 then 0
    else DecimalValue(s[..|s| - 1]) * 10 + (s[|s| - 1] as int - '0' as int)
  }

  /** `String(n)` for a non-negative integer below 10^21 (larger ones print
      in exponent notation, which is not modelled). */
  function NatToString(n: nat): (r: string)
    ensures |r| > 0 && AllDigits(r)
    ensures n < 10 <==> |r| == 1
    ensures 10 <= n < 100 <==> |r| == 2
  {
    if n < 10 then [DigitChar(n)] else NatToString(n / 10) + [DigitChar(n % 10)]
  }

  /** Printing and reading back a natural number gives it back. */
  lemma {:induction false} DecimalValueOfNatToString(n: nat)
    ensures DecimalValue(NatToString(n)) == n
  {
    if n >= 10 {
      var s := NatToString(n);
      assert s[..|s| - 1] == NatToString(n / 10);
      DecimalValueOfNatToString(n / 10);
    }
  }

  /** A leading zero does not change a decimal value. */
  lemma DecimalValueLeadingZero(s: string)
    requires AllDigits(s)
    ensures AllDigits("0" + s) && DecimalValue("0" + s) == DecimalValue(s)
  {
    if |s| > 0 {
      assert ("0" + s)[..|"0" + s| - 1] == "0" + s[..|s| - 1];
      DecimalValueLeadingZero(s[..|s| - 1]);
    }
  }

  /** `String(i)` for an integer. */
  function IntToString(i: int): (r: string)
    ensures |r| > 0
  {
    if i < 0 then "-" + NatToString(-i) else NatToString(i)
  }

  /** `s.padStart(2, '0')` */
  function PadStart2(s: string): (r: string)
    ensures |s| >= 2 ==> r == s
    ensures |s| < 2 ==> |r| == 2 && r[2 - |s|..] == s
    ensures |s| < 2 ==> forall k :: 0 <= k < 2 - |s| ==> r[k] == '0'
  {
    if |s| >= 2 then s else if |s| == 1 then "0" + s else "00"
  }

  /** `s.includes(p)` */
  predicate Contains(s: string, p: string) {
    exists i :: 0 <= i <= |s| - |p| && OccursAt(s, p, i)
  }

  predicate OccursAt(s: string, p: string, i: int) {
    0 <= i <= |s| - |p| && s[i..i + |p|] == p
  }

  /** A string contains the middle part of any concatenation it equals. */
  lemma ContainsMiddle(a: string, p: string, b: string)
    ensures Contains(a + p + b, p)
  {
    var s := a + p + b;
    assert s[|a|..|a| + |p|] == p;
    assert OccursAt(s, p, |a|);
  }

  /** The index of the first occurrence of `c`. */
  function IndexOf(s: string, c: char): (r: Option<nat>)
    ensures r.None? <==> c !in s
    ensures r.Some? ==> r.value < |s| && s[r.value] == c && c !in s[..r.value]
  {
    if |s| == 0 then None
    else if s[0] == c then Some(0)
    else match IndexOf(s[1..], c)
      case None => None
      case Some(i) => assert s[..i + 1] == [s[0]] + s[1..][..i]; Some(i + 1)
  }

  /** `parts.join(sep)` */
  function Join(parts: seq<string>, sep: string): string {
    if |parts| == 0 then ""
    else if |parts| == 1 then parts[0]
    else parts[0] + sep + Join(parts[1..], sep)
  }

  /** `s.split(c)` for a one-character separator. */
  function Split(s: string, c: char): (parts: seq<string>)
    ensures |parts| > 0
    ensures forall k :: 0 <= k < |parts| ==> c !in parts[k]
    decreases |s|
  {
    match IndexOf(s, c)
    case None => [s]
    case Some(i) => [s[..i]] + Split(s[i + 1..], c)
  }

  /** Splitting and joining with the same separator are inverse. */
  lemma {:induction false} JoinSplit(s: string, c: char)
    ensures Join(Split(s, c), [c]) == s
    decreases |s|
  {
    match IndexOf(s, c)
    case None =>
    case Some(i) =>
      var rest := Split(s[i + 1..], c);
      JoinSplit(s[i + 1..], c);
      assert Split(s, c) == [s[..i]] + rest;
      assert s == s[..i] + [c] + s[i + 1..];
  }

  /** Splitting a string that has no separator gives it back whole. */
  lemma SplitNoSeparator(s: string, c: char)
    requires c !in s
    ensures Split(s, c) == [s]
  {
  }

  /** Splitting `a + [c] + b` where `a` has no separator. */
  lemma SplitAt(a: string, b: string, c: char)
    requires c !in a
    ensures Split(a + [c] + b, c) == [a] + Split(b, c)
  {
    var s := a + [c] + b;
    assert s[|a|] == c;
    assert s[..|a|] == a;
    assert s[|a| + 1..] == b;
  }
}

=== FILE: units.dfy ===
/** Weight conversion between the storage unit (kilograms) and the
    display unit chosen in the settings (src/lib/utils/units.ts).
    Weights are exact reals; the source computes with doubles. */
module Units {
  import opened Base

  const KgToLbsFactor: real := 2.20462262185
  const LbsToKgFactor: real := 0.45359237

  /** The `unitPreference` setting. */
  datatype UnitPreference = Metric | Imperial

  function LbsToKg(lbs: real): (kg: real)
    ensures lbs == 0.0 <==> kg == 0.0
    ensures lbs >= 0.0 ==> 0.0 <= kg <= lbs
    ensures lbs > 0.0 ==> kg < lbs
    ensures lbs < 0.0 ==> kg < 0.0
  {
    lbs * LbsToKgFactor
  }

  function KgToLbs(kg: real): (lbs: real)
    ensures kg == 0.0 <==> lbs == 0.0
    ensures kg >= 0.0 ==> lbs >= 2.0 * kg
    ensures kg < 0.0 ==> lbs < 0.0
  {
    kg * KgToLbsFactor
  }

  /** Both conversions are strictly increasing. */
  lemma ConversionsMonotone(x: real, y: real)
    requires x < y
    ensures LbsToKg(x) < LbsToKg(y)
    ensures KgToLbs(x) < KgToLbs(y)
  {
    assert LbsToKg(y) - LbsToKg(x) == (y - x) * LbsToKgFactor;
    assert KgToLbs(y) - KgToLbs(x) == (y - x) * KgToLbsFactor;
  }

  /** The two factors are inverse up to a relative error below 10^-12:
      pounds to kilograms and back overshoots a non-negative weight by less
      than a millionth of a millionth. */
  lemma RoundTripPoundsKilograms(lbs: real)
    requires lbs >= 0.0
    ensures lbs <= KgToLbs(LbsToKg(lbs)) <= lbs + lbs / 1000000000000.0
  {
    var p := LbsToKgFactor * KgToLbsFactor;
    assert p == 2000000000001110569.0 / 2000000000000000000.0;
    assert KgToLbs(LbsToKg(lbs)) == lbs * p;
  }

  /** `convertWeightToDisplay`: stored kilograms to the preferred unit. */
  function ConvertWeightToDisplay(kg: real, unit: UnitPreference): (v: real)
    ensures unit == Metric ==> v == kg
    ensures unit == Imperial ==> v == KgToLbs(kg)
    ensures kg >= 0.0 ==> v >= kg
  {
    if unit == Imperial then KgToLbs(kg) else kg
  }

  /** `convertWeightToStorage`: a weight in the preferred unit to kilograms. */
  function ConvertWeightToStorage(value: real, unit: UnitPreference): (kg: real)
    ensures unit == Metric ==> kg == value
    ensures unit == Imperial ==> kg == LbsToKg(value)
    ensures value >= 0.0 ==> 0.0 <= kg <= value
  {
    if unit == Imperial then LbsToKg(value) else value
  }

  /** Displaying a stored weight and storing it again gives it back exactly
      for metric and within a relative 10^-12 for imperial. */
  lemma DisplayThenStore(kg: real, unit: UnitPreference)
    requires kg >= 0.0
    ensures unit == Metric ==> ConvertWeightToStorage(ConvertWeightToDisplay(kg, unit), unit) == kg
    ensures kg <= ConvertWeightToStorage(ConvertWeightToDisplay(kg, unit), unit) <= kg + kg / 1000000000000.0
  {
    if unit == Imperial {
      RoundTripPoundsKilograms(kg);
    }
  }

  /** `getUnitLabel` */
  function GetUnitLabel(unit: UnitPreference): (unitName: string)
    ensures unit == Imperial <==> unitName == "lbs"
    ensures unit == Metric <==> unitName == "kg"
  {
    match unit
    case Imperial => assert "lbs"[0] != "kg"[0]; "lbs"
    case Metric => assert "kg"[0] != "lbs"[0]; "kg"
  }

  /** `formatWeight`, with the rounding to one decimal and the printing of
      the number given as `render`. The text ends with the unit label that
      `getUnitLabel` returns. */
  function FormatWeight(kg: real, unit: UnitPreference, render: real -> string): (text: string)
    ensures |text| > |GetUnitLabel(unit)|
    ensures text[|text| - |GetUnitLabel(unit)| - 1..] == " " + GetUnitLabel(unit)
    ensures text[..|text| - |GetUnitLabel(unit)| - 1] == render(ConvertWeightToDisplay(kg, unit))
  {
    var unitName := if unit == Imperial then "lbs" else "kg";
    render(ConvertWeightToDisplay(kg, unit)) + " " + unitName
  }

  /** The importer's pound conversion on JavaScript numbers: infinities
      stay infinite and NaN stays NaN. */
  function LbsToKgNum(x: Num): (r: Num)
    ensures x.Finite? ==> r == Finite(LbsToKg(x.value))
    ensures !x.Finite? ==> r == x
  {
    x.Times(LbsToKgFactor)
  }
}

=== FILE: workout_grouping.dfy ===
/** The `workoutMap` both CSV importers build from the accepted rows
    (src/lib/utils/csv.ts:311-335, src/lib/utils/import-export.ts:314-338):
    keyed by `${date}|${workoutName}`, each entry remembering the date and
    name of its first row and a map from exercise name (as written in the
    row) to the sets pushed under it. */
module WorkoutGrouping {
  import opened Base
  import opened Assoc
  import opened Records
  import opened WorkoutRows

  datatype WorkoutGroup = WorkoutGroup(date: string, name: string, exercises: Groups<string, SetData>)

  /** The `Map<string, WorkoutData>`, in insertion order. */
  type WorkoutMap = seq<(string, WorkoutGroup)>

  predicate WellFormed(m: WorkoutMap) {
    && UniqueKeys(m)
    && forall i :: 0 <= i < |m| ==> UniqueKeys(m[i].1.exercises)
  }

  function RowKey(v: ValidRow): string {
    WorkoutKey(v.date, v.workoutName)
  }

  /** Add one accepted row: create the workout entry on first sight of its
      key, then push the set under the exercise name. */
  function AddRow(m: WorkoutMap, v: ValidRow): (r: WorkoutMap)
    requires WellFormed(m)
    ensures WellFormed(r)
    ensures RowKey(v) in Keys(m) ==> |r| == |m| && Keys(r) == Keys(m)
    ensures RowKey(v) !in Keys(m) ==>
      && Keys(r) == Keys(m) + [RowKey(v)]
      && r[|m|] == (RowKey(v), WorkoutGroup(v.date, v.workoutName, [(v.exerciseName, [v.data])]))
    ensures forall i :: 0 <= i < |m| ==>
      && r[i].0 == m[i].0
      && r[i].1.date == m[i].1.date
      && r[i].1.name == m[i].1.name
      && r[i].1.exercises ==
           if m[i].0 == RowKey(v) then Push(m[i].1.exercises, v.exerciseName, v.data) else m[i].1.exercises
  {
    var key := RowKey(v);
    match Find(m, key)
    case None =>
      var r := m + [(key, WorkoutGroup(v.date, v.workoutName, Push([], v.exerciseName, v.data)))];
      assert Keys(r) == Keys(m) + [key];
      assert Push([], v.exerciseName, v.data) == [(v.exerciseName, [v.data])];
      r
    case Some(i) =>
      m[i := (key, m[i].1.(exercises := Push(m[i].1.exercises, v.exerciseName, v.data)))]
  }

  /** The map after every accepted row, in file order. */
  function GroupRows(rows: seq<ValidRow>): (m: WorkoutMap)
    ensures WellFormed(m)
  {
    if |rows| == 0 then [] else AddRow(GroupRows(rows[..|rows| - 1]), rows[|rows| - 1])
  }

  /** Reference definitions: the key of every row, the rows of one key, and
      the (exercise name, set) pairs of a list of rows. */
  function RowKeys(rows: seq<ValidRow>): (ks: seq<string>)
    ensures |ks| == |rows|
    ensures forall i :: 0 <= i < |rows| ==> ks[i] == RowKey(rows[i])
  {
    seq(|rows|, i requires 0 <= i < |rows| => RowKey(rows[i]))
  }

  function RowsWithKey(rows: seq<ValidRow>, key: string): seq<ValidRow> {
    if |rows| == 0 then []
    else RowsWithKey(rows[..|rows| - 1], key) + (if RowKey(rows[|rows| - 1]) == key then [rows[|rows| - 1]] else [])
  }

  function ExercisePairs(rows: seq<ValidRow>): (ps: seq<(string, SetData)>)
    ensures |ps| == |rows|
    ensures forall i :: 0 <= i < |rows| ==> ps[i] == (rows[i].exerciseName, rows[i].data)
  {
    seq(|rows|, i requires 0 <= i < |rows| => (rows[i].exerciseName, rows[i].data))
  }

  lemma {:induction false} RowsWithKeyAbsent(rows: seq<ValidRow>, key: string)
    requires key !in RowKeys(rows)
    ensures RowsWithKey(rows, key) == []
  {
    if |rows| > 0 {
      assert RowKeys(rows)[..|rows| - 1] == RowKeys(rows[..|rows| - 1]);
      RowsWithKeyAbsent(rows[..|rows| - 1], key);
    }
  }

  lemma {:induction false} RowsWithKeyHaveKey(rows: seq<ValidRow>, key: string)
    ensures forall v :: v in RowsWithKey(rows, key) ==> RowKey(v) == key && v in rows
  {
    if |rows| > 0 {
      RowsWithKeyHaveKey(rows[..|rows| - 1], key);
      assert forall v :: v in rows[..|rows| - 1] ==> v in rows;
    }
  }

  /** What an entry of the map holds: the key made of its date and name,
      which are those of the first row with that key, and the exercise map
      obtained by grouping exactly the rows with that key. */
  predicate EntryMatches(e: (string, WorkoutGroup), rows: seq<ValidRow>) {
    var sel := RowsWithKey(rows, e.0);
    && |sel| > 0
    && e.1.date == sel[0].date
    && e.1.name == sel[0].workoutName
    && e.0 == WorkoutKey(e.1.date, e.1.name)
    && e.1.exercises == GroupAll(ExercisePairs(sel))
  }

  /** Grouping by pushing row by row agrees with the reference: one entry
      per distinct key in order of first appearance, each holding exactly
      the rows of its key, grouped by exercise name in file order. */
  lemma GroupRowsSpec(rows: seq<ValidRow>)
    ensures Keys(GroupRows(rows)) == Dedupe(RowKeys(rows))
    ensures forall i :: 0 <= i < |GroupRows(rows)| ==> EntryMatches(GroupRows(rows)[i], rows)
  {
    GroupRowsKeys(rows);
    GroupRowsEntries(rows);
  }

  lemma {:induction false} GroupRowsKeys(rows: seq<ValidRow>)
    ensures Keys(GroupRows(rows)) == Dedupe(RowKeys(rows))
  {
    if |rows| > 0 {
      var front := rows[..|rows| - 1];
      GroupRowsKeys(front);
      assert RowKeys(rows)[..|rows| - 1] == RowKeys(front);
    }
  }

  lemma {:induction false} GroupRowsEntries(rows: seq<ValidRow>)
    ensures forall i :: 0 <= i < |GroupRows(rows)| ==> EntryMatches(GroupRows(rows)[i], rows)
  {
    if |rows| > 0 {
      var front := rows[..|rows| - 1];
      var v := rows[|rows| - 1];
      GroupRowsKeys(front);
      GroupRowsEntries(front);
      var m0 := GroupRows(front);
      var m := GroupRows(rows);
      assert m == AddRow(m0, v);
      LastSplit(rows);
      forall i | 0 <= i < |m|
        ensures EntryMatches(m[i], rows)
      {
        AddRowMatches(m0, front, v, i);
      }
    }
  }

  lemma RowsWithKeySnoc(rows: seq<ValidRow>, v: ValidRow, key: string)
    ensures RowsWithKey(rows + [v], key) == RowsWithKey(rows, key) + (if RowKey(v) == key then [v] else [])
  {
    assert (rows + [v])[..|rows|] == rows;
  }

  lemma ExercisePairsSnoc(rows: seq<ValidRow>, v: ValidRow)
    ensures ExercisePairs(rows + [v]) == ExercisePairs(rows) + [(v.exerciseName, v.data)]
  {
  }

  /** One step of `GroupRowsSpec`, for a single entry. */
  lemma AddRowMatches(m0: WorkoutMap, front: seq<ValidRow>, v: ValidRow, i: nat)
    requires WellFormed(m0)
    requires Keys(m0) == Dedupe(RowKeys(front))
    requires forall j :: 0 <= j < |m0| ==> EntryMatches(m0[j], front)
    requires i < |AddRow(m0, v)|
    ensures EntryMatches(AddRow(m0, v)[i], front + [v])
  {
    if i < |m0| {
      assert EntryMatches(m0[i], front);
      if m0[i].0 == RowKey(v) {
        PushedEntryMatches(m0, front, v, i);
      } else {
        OtherEntryMatches(m0, front, v, i);
      }
    } else {
      NewEntryMatches(m0, front, v);
    }
  }

  lemma PushedEntryMatches(m0: WorkoutMap, front: seq<ValidRow>, v: ValidRow, i: nat)
    requires WellFormed(m0) && i < |m0| && m0[i].0 == RowKey(v)
    requires EntryMatches(m0[i], front)
    ensures EntryMatches(AddRow(m0, v)[i], front + [v])
  {
    var e := AddRow(m0, v)[i];
    RowsWithKeySnoc(front, v, e.0);
    var sel0 := RowsWithKey(front, e.0);
    ExercisePairsSnoc(sel0, v);
    GroupAllSnoc(ExercisePairs(sel0), (v.exerciseName, v.data));
  }

  lemma OtherEntryMatches(m0: WorkoutMap, front: seq<ValidRow>, v: ValidRow, i: nat)
    requires WellFormed(m0) && i < |m0| && m0[i].0 != RowKey(v)
    requires EntryMatches(m0[i], front)
    ensures EntryMatches(AddRow(m0, v)[i], front + [v])
  {
    var e := AddRow(m0, v)[i];
    assert e == m0[i];
    RowsWithKeySnoc(front, v, e.0);
    assert RowsWithKey(front + [v], e.0) == RowsWithKey(front, e.0);
  }

  lemma NewEntryMatches(m0: WorkoutMap, front: seq<ValidRow>, v: ValidRow)
    requires WellFormed(m0)
    requires Keys(m0) == Dedupe(RowKeys(front))
    requires RowKey(v) !in Keys(m0)
    ensures EntryMatches(AddRow(m0, v)[|m0|], front + [v])
  {
    var key := RowKey(v);
    assert key !in RowKeys(front);
    RowsWithKeyAbsent(front, key);
    RowsWithKeySnoc(front, v, key);
    ExercisePairsSnoc([], v);
    GroupAllSnoc([], (v.exerciseName, v.data));
  }

  /** All rows of an entry belong to one workout: its date and its name.
      Holds because no valid date contains the `|` the key is joined with. */
  lemma EntriesAreWorkouts(rows: seq<ValidRow>)
    requires forall v :: v in rows ==> IsIsoDate(v.date)
    ensures forall i, v :: 0 <= i < |GroupRows(rows)| && v in RowsWithKey(rows, GroupRows(rows)[i].0) ==>
      v.date == GroupRows(rows)[i].1.date && v.workoutName == GroupRows(rows)[i].1.name
  {
    var m := GroupRows(rows);
    GroupRowsEntries(rows);
    forall i, v | 0 <= i < |m| && v in RowsWithKey(rows, m[i].0)
      ensures v.date == m[i].1.date && v.workoutName == m[i].1.name
    {
      assert EntryMatches(m[i], rows);
      EntryRowIsWorkout(m[i], rows, v);
    }
  }

  lemma EntryRowIsWorkout(e: (string, WorkoutGroup), rows: seq<ValidRow>, v: ValidRow)
    requires forall x :: x in rows ==> IsIsoDate(x.date)
    requires EntryMatches(e, rows) && v in RowsWithKey(rows, e.0)
    ensures v.date == e.1.date && v.workoutName == e.1.name
  {
    var sel := RowsWithKey(rows, e.0);
    RowsWithKeyHaveKey(rows, e.0);
    assert sel[0] in sel;
    assert RowKey(v) == e.0 && v in rows;
    assert RowKey(sel[0]) == e.0 && sel[0] in rows;
    WorkoutKeyInjective(v.date, v.workoutName, e.1.date, e.1.name);
  }

  /** The number of sets held over all entries. */
  function SetTotal(m: WorkoutMap): nat {
    if |m| == 0 then 0 else SetTotal(m[..|m| - 1]) + Count(m[|m| - 1].1.exercises)
  }

  lemma SetTotalUpdate(m: WorkoutMap, i: nat, e: (string, WorkoutGroup))
    requires i < |m|
    ensures SetTotal(m[i := e]) + Count(m[i].1.exercises) == SetTotal(m) + Count(e.1.exercises)
  {
    if i < |m| - 1 {
      assert m[i := e][..|m| - 1] == m[..|m| - 1][i := e];
      SetTotalUpdate(m[..|m| - 1], i, e);
    } else {
      assert m[i := e][..|m| - 1] == m[..|m| - 1];
    }
  }

  /** No accepted row is lost or duplicated by the grouping. */
  lemma {:induction false} GroupRowsKeepsEverySet(rows: seq<ValidRow>)
    ensures SetTotal(GroupRows(rows)) == |rows|
  {
    if |rows| > 0 {
      var front := rows[..|rows| - 1];
      var v := rows[|rows| - 1];
      GroupRowsKeepsEverySet(front);
      var m0 := GroupRows(front);
      var m := AddRow(m0, v);
      match Find(m0, RowKey(v))
      case None =>
        assert m[..|m0|] == m0;
        assert Count(m[|m0|].1.exercises) == 1 by {
          assert m[|m0|].1.exercises == [(v.exerciseName, [v.data])];
          assert m[|m0|].1.exercises[..0] == [];
        }
      case Some(i) =>
        CountPush(m0[i].1.exercises, v.exerciseName, v.data);
        assert m == m0[i := m[i]];
        SetTotalUpdate(m0, i, m[i]);
    }
  }

  /** A workout entry built from checked rows: a valid date, at least one
      exercise, every exercise known to the catalog with at least one set,
      and every set checked. */
  predicate SoundGroup(g: WorkoutGroup, catalog: seq<CatalogEntry>) {
    && IsIsoDate(g.date)
    && |g.exercises| > 0
    && forall j :: 0 <= j < |g.exercises| ==>
      && ExerciseKnown(catalog, g.exercises[j].0)
      && |g.exercises[j].1| > 0
      && forall s :: s in g.exercises[j].1 ==> SoundSet(s)
  }

  lemma GroupsSound(rows: seq<ValidRow>, catalog: seq<CatalogEntry>)
    requires forall v :: v in rows ==> SoundRow(v, catalog)
    ensures forall i :: 0 <= i < |GroupRows(rows)| ==> SoundGroup(GroupRows(rows)[i].1, catalog)
  {
    var m := GroupRows(rows);
    GroupRowsEntries(rows);
    forall i | 0 <= i < |m|
      ensures SoundGroup(m[i].1, catalog)
    {
      assert EntryMatches(m[i], rows);
      EntrySound(m[i], rows, catalog);
    }
  }

  lemma EntrySound(e: (string, WorkoutGroup), rows: seq<ValidRow>, catalog: seq<CatalogEntry>)
    requires forall v :: v in rows ==> SoundRow(v, catalog)
    requires EntryMatches(e, rows)
    ensures SoundGroup(e.1, catalog)
  {
    var sel := RowsWithKey(rows, e.0);
    RowsWithKeyHaveKey(rows, e.0);
    assert sel[0] in sel;
    SelectionSound(sel, catalog);
  }

  lemma SelectionSound(sel: seq<ValidRow>, catalog: seq<CatalogEntry>)
    requires |sel| > 0
    requires forall v :: v in sel ==> SoundRow(v, catalog)
    ensures var g := GroupAll(ExercisePairs(sel));
      && |g| > 0
      && forall j :: 0 <= j < |g| ==>
        && ExerciseKnown(catalog, g[j].0)
        && |g[j].1| > 0
        && forall s :: s in g[j].1 ==> SoundSet(s)
  {
    var ps := ExercisePairs(sel);
    var g := GroupAll(ps);
    GroupAllMembers(ps);
    GroupAllKeys(ps);
    assert ps[0].0 in Keys(ps);
    assert |Dedupe(Keys(ps))| > 0;
    forall j | 0 <= j < |g|
      ensures ExerciseKnown(catalog, g[j].0)
      ensures forall s :: s in g[j].1 ==> SoundSet(s)
    {
      var name := g[j].0;
      var x := g[j].1[0];
      assert x in g[j].1;
      PairSound(sel, catalog, name, x);
      forall s | s in g[j].1
        ensures SoundSet(s)
      {
        PairSound(sel, catalog, name, s);
      }
    }
  }

  /** Every (exercise, set) pair of sound rows names a known exercise and
      carries a sound set. */
  lemma PairSound(sel: seq<ValidRow>, catalog: seq<CatalogEntry>, name: string, s: SetData)
    requires forall v :: v in sel ==> SoundRow(v, catalog)
    requires (name, s) in ExercisePairs(sel)
    ensures ExerciseKnown(catalog, name) && SoundSet(s)
  {
    var ps := ExercisePairs(sel);
    var k :| 0 <= k < |ps| && ps[k] == (name, s);
    assert sel[k] in sel;
  }
}

=== FILE: workout_operations.dfy ===
/** Moving a workout to another date and cloning it onto another date
    (src/lib/services/workoutOperations.ts), as pure transformations of
    `Workout` records. Datatypes are values, so the deep copy the clone
    takes first is implicit: no operation here can change its argument. */
module WorkoutOperations {
  import opened Records

  /** A set as the clone stores it: everything kept, not completed. */
  function ResetSet(s: SetEntry): (r: SetEntry)
    ensures !r.completed
    ensures r.weight == s.weight && r.reps == s.reps && r.duration == s.duration
  {
    s.(completed := false)
  }

  function ResetSets(sets: seq<SetEntry>): (r: seq<SetEntry>)
    ensures |r| == |sets|
    ensures forall j :: 0 <= j < |r| ==> r[j] == ResetSet(sets[j])
  {
    seq(|sets|, j requires 0 <= j < |sets| => ResetSet(sets[j]))
  }

  function ResetExercise(e: WorkoutExercise): (r: WorkoutExercise)
    ensures r.exerciseId == e.exerciseId && r.exerciseName == e.exerciseName
    ensures r.instructions == e.instructions && r.notes == e.notes
    ensures r.sets == ResetSets(e.sets)
  {
    e.(sets := ResetSets(e.sets))
  }

  /** No set of any exercise is completed. */
  predicate NoneCompleted(exercises: seq<WorkoutExercise>) {
    forall i, j :: 0 <= i < |exercises| && 0 <= j < |exercises[i].sets| ==> !exercises[i].sets[j].completed
  }

  /** `cloneWorkout(workout, targetDate)`: the workout handed to
      `addWorkout` — the name and notes copied, the target date, and the
      same exercises in the same order with every set's `completed` flag
      cleared. */
  function CloneWorkout(w: Workout, targetDate: string): (c: Workout)
    ensures c.name == w.name && c.notes == w.notes && c.date == targetDate
    ensures |c.exercises| == |w.exercises|
    ensures NoneCompleted(c.exercises)
    ensures forall i :: 0 <= i < |c.exercises| ==>
      && c.exercises[i].exerciseId == w.exercises[i].exerciseId
      && c.exercises[i].exerciseName == w.exercises[i].exerciseName
      && c.exercises[i].instructions == w.exercises[i].instructions
      && c.exercises[i].notes == w.exercises[i].notes
      && |c.exercises[i].sets| == |w.exercises[i].sets|
    ensures forall i, j :: 0 <= i < |c.exercises| && 0 <= j < |c.exercises[i].sets| ==>
      c.exercises[i].sets[j] == w.exercises[i].sets[j].(completed := false)
  {
    var exercises := seq(|w.exercises|, i requires 0 <= i < |w.exercises| => ResetExercise(w.exercises[i]));
    Workout(w.name, targetDate, exercises, w.notes)
  }

  /** The changed-only-completed relation between two workouts' exercises,
      stated independently of how the clone is built. */
  predicate SameButCompleted(a: seq<WorkoutExercise>, b: seq<WorkoutExercise>) {
    && |a| == |b|
    && forall i :: 0 <= i < |a| ==>
      && a[i].(sets := []) == b[i].(sets := [])
      && |a[i].sets| == |b[i].sets|
      && forall j :: 0 <= j < |a[i].sets| ==> a[i].sets[j].(completed := false) == b[i].sets[j].(completed := false)
  }

  /** A clone differs from the original only in the date and the
      completed flags. */
  lemma CloneKeepsExercises(w: Workout, targetDate: string)
    ensures SameButCompleted(CloneWorkout(w, targetDate).exercises, w.exercises)
  {
    var c := CloneWorkout(w, targetDate);
    forall i | 0 <= i < |c.exercises|
      ensures c.exercises[i].(sets := []) == w.exercises[i].(sets := [])
    {
    }
  }

  /** A clone has as many sets as the original. */
  lemma {:induction false} CloneSetCount(a: seq<WorkoutExercise>, b: seq<WorkoutExercise>)
    requires SameButCompleted(a, b)
    ensures SetCount(a) == SetCount(b)
  {
    if |a| > 0 {
      var n := |a| - 1;
      assert SameButCompleted(a[..n], b[..n]) by {
        forall i | 0 <= i < n
          ensures a[..n][i] == a[i] && b[..n][i] == b[i]
        {
        }
      }
      CloneSetCount(a[..n], b[..n]);
    }
  }

  /** Cloning a clone is cloning the original. */
  lemma CloneOfClone(w: Workout, d1: string, d2: string)
    ensures CloneWorkout(CloneWorkout(w, d1), d2) == CloneWorkout(w, d2)
  {
    var c := CloneWorkout(w, d1);
    var cc := CloneWorkout(c, d2);
    var c2 := CloneWorkout(w, d2);
    forall i | 0 <= i < |cc.exercises|
      ensures cc.exercises[i] == c2.exercises[i]
    {
      assert cc.exercises[i].sets == c2.exercises[i].sets;
    }
  }

  /** `moveWorkout` on the record itself: only the date changes. */
  function MoveDate(w: Workout, newDate: string): (r: Workout)
    ensures r.date == newDate
    ensures r.(date := w.date) == w
  {
    w.(date := newDate)
  }

  /** Moving back to the old date restores the workout, and of two moves
      only the last one counts. */
  lemma MoveBack(w: Workout, d1: string, d2: string)
    ensures MoveDate(MoveDate(w, d1), w.date) == w
    ensures MoveDate(MoveDate(w, d1), d2) == MoveDate(w, d2)
  {
  }

  /** A clone is the moved workout exactly when nothing in it was
      completed. */
  lemma CloneIsMoveIff(w: Workout, targetDate: string)
    ensures CloneWorkout(w, targetDate) == MoveDate(w, targetDate) <==> NoneCompleted(w.exercises)
  {
    var c := CloneWorkout(w, targetDate);
    if NoneCompleted(w.exercises) {
      forall i | 0 <= i < |w.exercises|
        ensures c.exercises[i] == w.exercises[i]
      {
        assert c.exercises[i].sets == w.exercises[i].sets;
      }
    }
  }

  /** `moveWorkout(workoutId, newDate)` against the stored workouts:
      `updateWorkout(id, { date })` changes the date of the workout with
      that key, and leaves the store as it is when no workout has it. */
  function MoveWorkout(store: seq<StoredWorkout>, workoutId: int, newDate: string): (r: seq<StoredWorkout>)
    ensures |r| == |store|
    ensures forall k :: 0 <= k < |r| ==> r[k].id == store[k].id
    ensures forall k :: 0 <= k < |r| && store[k].id == workoutId ==> r[k].workout == MoveDate(store[k].workout, newDate)
    ensures forall k :: 0 <= k < |r| && store[k].id != workoutId ==> r[k] == store[k]
  {
    seq(|store|, k requires 0 <= k < |store| =>
      if store[k].id == workoutId then store[k].(workout := MoveDate(store[k].workout, newDate)) else store[k])
  }

  /** Moving a workout that is not stored changes nothing. */
  lemma MoveMissing(store: seq<StoredWorkout>, workoutId: int, newDate: string)
    requires forall k :: 0 <= k < |store| ==> store[k].id != workoutId
    ensures MoveWorkout(store, workoutId, newDate) == store
  {
  }
}

=== FILE: workout_rows.dfy ===
/** The per-row part of the workout CSV import, which both importers
    (src/lib/utils/csv.ts:215-335 and src/lib/utils/import-export.ts:218-338)
    share line for line: pick the column layout, run the checks in order,
    convert the weight to kilograms. */
module WorkoutRows {
  import opened Base
  import opened Text
  import opened Units
  import opened Records
  import opened Messages
  import Assoc

  /** `parseFloat` and `parseInt(_, 10)`, whose behaviour is the JavaScript
      engine's and is left abstract: `parseInt` gives `None` for NaN. Both
      accept any numeric prefix, so they are arbitrary functions here. */
  datatype NumParsers = NumParsers(parseFloat: string -> Num, parseInt: string -> Option<int>)

  /** One data row after positional destructuring; a column missing from a
      short legacy row is `None` (`undefined`). */
  datatype RawRow = RawRow(
    date: string,
    workoutName: string,
    exerciseName: string,
    setNumberText: string,
    weightText: string,
    weightUnit: string,
    repsText: string,
    durationText: string,
    instructions: Option<string>,
    notes: Option<string>)

  /** A set after validation, weight in kilograms. */
  datatype SetData = SetData(
    weight: Num,
    reps: int,
    setNumber: int,
    duration: Option<Num>,
    instructions: Option<string>,
    notes: Option<string>)

  /** A row that passed every check, with its grouping keys. */
  datatype ValidRow = ValidRow(date: string, workoutName: string, exerciseName: string, data: SetData)

  /** Each row of sufficient length has exactly one outcome. */
  datatype RowOutcome = Rejected(error: ImportError) | Accepted(row: ValidRow)

  function FieldAt(fields: seq<string>, i: nat): Option<string> {
    if i < |fields| then Some(fields[i]) else None
  }

  /** Ten or more fields: `date, workoutName, exerciseName, setNumber,
      weight, weightUnit, reps, duration, instructions, notes`. Six to nine:
      the legacy `date, workoutName, exerciseName, setNumber, weight, reps,
      instructions, notes` with the unit `lb` and no duration. */
  function ReadRow(fields: seq<string>): RawRow
    requires |fields| >= 6
  {
    if |fields| >= 10 then
      RawRow(fields[0], fields[1], fields[2], fields[3], fields[4], fields[5], fields[6], fields[7],
             Some(fields[8]), Some(fields[9]))
    else
      RawRow(fields[0], fields[1], fields[2], fields[3], fields[4], "lb", fields[5], "",
             FieldAt(fields, 6), FieldAt(fields, 7))
  }

  /** The layout rule, stated field by field. */
  lemma LayoutByColumnCount(fields: seq<string>)
    requires |fields| >= 6
    ensures var r := ReadRow(fields);
      && r.date == fields[0] && r.workoutName == fields[1] && r.exerciseName == fields[2]
      && r.setNumberText == fields[3] && r.weightText == fields[4]
      && (|fields| >= 10 ==>
            && r.weightUnit == fields[5] && r.repsText == fields[6] && r.durationText == fields[7]
            && r.instructions == Some(fields[8]) && r.notes == Some(fields[9]))
      && (|fields| < 10 ==>
            && r.weightUnit == "lb" && r.repsText == fields[5] && r.durationText == ""
            && (r.instructions.Some? <==> |fields| >= 7) && (r.notes.Some? <==> |fields| >= 8))
  {
  }

  /** `/^\d{4}-\d{2}-\d{2}$/.test(s)` */
  predicate IsIsoDate(s: string) {
    && |s| == 10
    && IsDigit(s[0]) && IsDigit(s[1]) && IsDigit(s[2]) && IsDigit(s[3])
    && s[4] == '-'
    && IsDigit(s[5]) && IsDigit(s[6])
    && s[7] == '-'
    && IsDigit(s[8]) && IsDigit(s[9])
  }

  lemma IsoDateHasNoBar(s: string)
    requires IsIsoDate(s)
    ensures '|' !in s
  {
  }

  /** `new Map(exercises.map((e) => [e.name.toLowerCase(), e]))` */
  function ExerciseIndex(catalog: seq<CatalogEntry>): (pairs: seq<(string, CatalogEntry)>)
    ensures |pairs| == |catalog|
    ensures forall i :: 0 <= i < |catalog| ==> pairs[i] == (Lower(catalog[i].name), catalog[i])
  {
    seq(|catalog|, i requires 0 <= i < |catalog| => (Lower(catalog[i].name), catalog[i]))
  }

  /** `exerciseMap.get(name.toLowerCase())`: lower-cased but not trimmed,
      and the last catalog entry of that lower-cased name wins. */
  function LookupExercise(catalog: seq<CatalogEntry>, name: string): (r: Option<CatalogEntry>)
    ensures r.Some? <==> exists i :: 0 <= i < |catalog| && Lower(catalog[i].name) == Lower(name)
    ensures r.Some? ==> r.value in catalog && Lower(r.value.name) == Lower(name)
  {
    LastEntry(catalog, Lower(name))
  }

  function LastEntry(catalog: seq<CatalogEntry>, key: string): (r: Option<CatalogEntry>)
    ensures r.Some? <==> exists i :: 0 <= i < |catalog| && Lower(catalog[i].name) == key
    ensures r.Some? ==> r.value in catalog && Lower(r.value.name) == key
    ensures r == Assoc.LastValue(ExerciseIndex(catalog), key)
  {
    if |catalog| == 0 then None
    else if Lower(catalog[|catalog| - 1].name) == key then Some(catalog[|catalog| - 1])
    else
      assert ExerciseIndex(catalog)[..|catalog| - 1] == ExerciseIndex(catalog[..|catalog| - 1]);
      var r := LastEntry(catalog[..|catalog| - 1], key);
      assert forall i :: 0 <= i < |catalog| - 1 ==> catalog[..|catalog| - 1][i] == catalog[i];
      r
  }

  /** A catalog entry added last wins its lower-cased name, and every other
      name finds what it found before. */
  lemma LastEntrySnoc(catalog: seq<CatalogEntry>, e: CatalogEntry)
    ensures LastEntry(catalog + [e], Lower(e.name)) == Some(e)
    ensures forall key :: key != Lower(e.name) ==> LastEntry(catalog + [e], key) == LastEntry(catalog, key)
  {
    assert (catalog + [e])[..|catalog|] == catalog;
  }

  predicate ExerciseKnown(catalog: seq<CatalogEntry>, name: string) {
    LookupExercise(catalog, name).Some?
  }

  /** `(weightUnit || 'lb').toLowerCase().trim()`: an empty unit column
      means pounds. */
  function UnitKey(weightUnit: string): string {
    Trim(Lower(if weightUnit == "" then "lb" else weightUnit))
  }

  predicate IsPounds(key: string) {
    key == "lb" || key == "lbs"
  }

  /** The checks of a row, each stated on its own. */
  predicate WeightOk(r: RawRow, p: NumParsers) {
    var w := p.parseFloat(r.weightText);
    !w.IsNaN() && !w.LessThanZero()
  }

  predicate UnitOk(r: RawRow) {
    IsPounds(UnitKey(r.weightUnit)) || UnitKey(r.weightUnit) == "kg"
  }

  predicate RepsOk(r: RawRow, p: NumParsers) {
    var n := p.parseInt(r.repsText);
    n.Some? && n.value >= 0
  }

  predicate SetNumberOk(r: RawRow, p: NumParsers) {
    var n := p.parseInt(r.setNumberText);
    n.Some? && n.value >= 1
  }

  /** An empty duration column is absent and valid. */
  predicate DurationOk(r: RawRow, p: NumParsers) {
    var n := p.parseInt(r.durationText);
    r.durationText == "" || (n.Some? && n.value >= 0)
  }

  /** A weight that JavaScript compares as `>= 0` (finite or +Infinity). */
  predicate NonNegative(w: Num) {
    w == PosInf || (w.Finite? && w.value >= 0.0)
  }

  /** A row error reported at `line`. */
  predicate IsRowError(e: ImportError, line: nat) {
    || e == MissingFields(line) || e == InvalidDate(line) || e == InvalidWeight(line)
    || e == InvalidReps(line) || e == InvalidSetNumber(line) || e == InvalidDuration(line)
    || (e.ExerciseNotFound? && e.line == line) || (e.InvalidUnit? && e.line == line)
  }

  /** What an accepted row guarantees about its contents. */
  predicate SoundRow(v: ValidRow, catalog: seq<CatalogEntry>) {
    && IsIsoDate(v.date) && '|' !in v.date
    && ExerciseKnown(catalog, v.exerciseName)
    && SoundSet(v.data)
  }

  /** A set that passed the numeric checks. */
  predicate SoundSet(s: SetData) {
    && NonNegative(s.weight)
    && s.reps >= 0
    && s.setNumber >= 1
    && (s.duration.None? || (s.duration.value.Finite? && s.duration.value.value >= 0.0))
  }

  /** The checks of one data row, first failure wins. `line` is the row's
      line number in the file. */
  function ValidateRow(fields: seq<string>, line: nat, catalog: seq<CatalogEntry>, p: NumParsers): (out: RowOutcome)
    ensures |fields| < 6 <==> out == Rejected(MissingFields(line))
    ensures out.Rejected? ==> IsRowError(out.error, line)
    ensures out.Accepted? ==> |fields| >= 6 && SoundRow(out.row, catalog)
  {
    if |fields| < 6 then Rejected(MissingFields(line))
    else CheckRow(ReadRow(fields), line, catalog, p)
  }

  /** The checks after the layout is chosen, in the source's order. */
  function CheckRow(r: RawRow, line: nat, catalog: seq<CatalogEntry>, p: NumParsers): (out: RowOutcome)
    ensures out.Rejected? ==> IsRowError(out.error, line) && out.error != MissingFields(line)
    ensures out.Accepted? ==> SoundRow(out.row, catalog)
  {
    if !IsIsoDate(r.date) then Rejected(InvalidDate(line))
    else if !ExerciseKnown(catalog, r.exerciseName) then Rejected(ExerciseNotFound(line, r.exerciseName))
    else if !WeightOk(r, p) then Rejected(InvalidWeight(line))
    else if !UnitOk(r) then Rejected(InvalidUnit(line, r.weightUnit))
    else if !RepsOk(r, p) then Rejected(InvalidReps(line))
    else if !SetNumberOk(r, p) then Rejected(InvalidSetNumber(line))
    else if !DurationOk(r, p) then Rejected(InvalidDuration(line))
    else Accepted(MakeRow(r, catalog, p))
  }

  /** The accepted row: the weight converted to kilograms when the unit is
      pounds, the counts parsed, instructions and notes trimmed. */
  function MakeRow(r: RawRow, catalog: seq<CatalogEntry>, p: NumParsers): (v: ValidRow)
    requires IsIsoDate(r.date) && ExerciseKnown(catalog, r.exerciseName)
    requires WeightOk(r, p) && UnitOk(r) && RepsOk(r, p) && SetNumberOk(r, p) && DurationOk(r, p)
    ensures SoundRow(v, catalog)
  {
    var w := p.parseFloat(r.weightText);
    var weight := if IsPounds(UnitKey(r.weightUnit)) then LbsToKgNum(w) else w;
    var duration := if r.durationText != "" then Some(FromInt(p.parseInt(r.durationText).value)) else None;
    IsoDateHasNoBar(r.date);
    ValidRow(r.date, r.workoutName, r.exerciseName,
      SetData(weight, p.parseInt(r.repsText).value, p.parseInt(r.setNumberText).value, duration,
              TrimOptional(r.instructions), TrimOptional(r.notes)))
  }

  /** The order of the checks, first half: a row is rejected with a given
      message exactly when every earlier check passed and that one failed. */
  lemma ValidationOrderFirst(r: RawRow, line: nat, catalog: seq<CatalogEntry>, p: NumParsers)
    ensures var out := CheckRow(r, line, catalog, p);
      && (out == Rejected(InvalidDate(line)) <==> !IsIsoDate(r.date))
      && (out == Rejected(ExerciseNotFound(line, r.exerciseName)) <==>
            IsIsoDate(r.date) && !ExerciseKnown(catalog, r.exerciseName))
      && (out == Rejected(InvalidWeight(line)) <==>
            IsIsoDate(r.date) && ExerciseKnown(catalog, r.exerciseName) && !WeightOk(r, p))
      && (out == Rejected(InvalidUnit(line, r.weightUnit)) <==>
            IsIsoDate(r.date) && ExerciseKnown(catalog, r.exerciseName) && WeightOk(r, p) && !UnitOk(r))
  {
    var out := CheckRow(r, line, catalog, p);
    if !IsIsoDate(r.date) {
      assert out == Rejected(InvalidDate(line));
    } else if !ExerciseKnown(catalog, r.exerciseName) {
      assert out == Rejected(ExerciseNotFound(line, r.exerciseName));
    } else if !WeightOk(r, p) {
      assert out == Rejected(InvalidWeight(line));
    } else if !UnitOk(r) {
      assert out == Rejected(InvalidUnit(line, r.weightUnit));
    } else {
      assert out.Accepted? || !(out.error.InvalidDate? || out.error.ExerciseNotFound? || out.error.InvalidWeight? || out.error.InvalidUnit?);
    }
  }

  /** All checks up to the unit pass. */
  predicate PassesUnit(r: RawRow, catalog: seq<CatalogEntry>, p: NumParsers) {
    IsIsoDate(r.date) && ExerciseKnown(catalog, r.exerciseName) && WeightOk(r, p) && UnitOk(r)
  }

  /** The order of the checks, second half, and acceptance exactly when
      every check passes. */
  lemma ValidationOrderSecond(r: RawRow, line: nat, catalog: seq<CatalogEntry>, p: NumParsers)
    ensures var out := CheckRow(r, line, catalog, p);
      && (out == Rejected(InvalidReps(line)) <==> PassesUnit(r, catalog, p) && !RepsOk(r, p))
      && (out == Rejected(InvalidSetNumber(line)) <==>
            PassesUnit(r, catalog, p) && RepsOk(r, p) && !SetNumberOk(r, p))
      && (out == Rejected(InvalidDuration(line)) <==>
            PassesUnit(r, catalog, p) && RepsOk(r, p) && SetNumberOk(r, p) && !DurationOk(r, p))
      && (out.Accepted? <==>
            PassesUnit(r, catalog, p) && RepsOk(r, p) && SetNumberOk(r, p) && DurationOk(r, p))
  {
  }

  /** What an accepted row carries: the row's own keys, the weight converted
      by its unit (pounds times 0.45359237, kilograms unchanged), the parsed
      counts, and the trimmed instructions and notes. */
  lemma AcceptedRowContents(r: RawRow, line: nat, catalog: seq<CatalogEntry>, p: NumParsers)
    requires CheckRow(r, line, catalog, p).Accepted?
    ensures var v := CheckRow(r, line, catalog, p).row;
      var u := UnitKey(r.weightUnit);
      var w := p.parseFloat(r.weightText);
      && v.date == r.date && v.workoutName == r.workoutName && v.exerciseName == r.exerciseName
      && (IsPounds(u) ==> v.data.weight == LbsToKgNum(w))
      && (u == "kg" ==> v.data.weight == w)
      && (w.Finite? && IsPounds(u) ==> v.data.weight == Finite(w.value * 0.45359237))
      && Some(v.data.reps) == p.parseInt(r.repsText)
      && Some(v.data.setNumber) == p.parseInt(r.setNumberText)
      && (v.data.duration.None? <==> r.durationText == "")
      && (r.durationText != "" ==> p.parseInt(r.durationText).Some? && v.data.duration == Some(FromInt(p.parseInt(r.durationText).value)))
      && v.data.instructions == TrimOptional(r.instructions)
      && v.data.notes == TrimOptional(r.notes)
  {
    assert IsIsoDate(r.date) && ExerciseKnown(catalog, r.exerciseName);
    assert WeightOk(r, p) && UnitOk(r) && RepsOk(r, p) && SetNumberOk(r, p) && DurationOk(r, p);
    assert CheckRow(r, line, catalog, p).row == MakeRow(r, catalog, p);
    MadeRowContents(r, catalog, p);
  }

  lemma MadeRowContents(r: RawRow, catalog: seq<CatalogEntry>, p: NumParsers)
    requires IsIsoDate(r.date) && ExerciseKnown(catalog, r.exerciseName)
    requires WeightOk(r, p) && UnitOk(r) && RepsOk(r, p) && SetNumberOk(r, p) && DurationOk(r, p)
    ensures var v := MakeRow(r, catalog, p);
      var u := UnitKey(r.weightUnit);
      var w := p.parseFloat(r.weightText);
      && v.date == r.date && v.workoutName == r.workoutName && v.exerciseName == r.exerciseName
      && (IsPounds(u) ==> v.data.weight == LbsToKgNum(w))
      && (u == "kg" ==> v.data.weight == w)
      && (w.Finite? && IsPounds(u) ==> v.data.weight == Finite(w.value * 0.45359237))
      && Some(v.data.reps) == p.parseInt(r.repsText)
      && Some(v.data.setNumber) == p.parseInt(r.setNumberText)
      && (v.data.duration.None? <==> r.durationText == "")
      && (r.durationText != "" ==> p.parseInt(r.durationText).Some? && v.data.duration == Some(FromInt(p.parseInt(r.durationText).value)))
      && v.data.instructions == TrimOptional(r.instructions)
      && v.data.notes == TrimOptional(r.notes)
  {
  }

  /** The outcome of every data row; the first data row is line 2. */
  function ValidateAll(dataLines: seq<seq<string>>, catalog: seq<CatalogEntry>, p: NumParsers): (outs: seq<RowOutcome>)
    ensures |outs| == |dataLines|
    ensures forall i :: 0 <= i < |dataLines| ==> outs[i] == ValidateRow(dataLines[i], i + 2, catalog, p)
  {
    seq(|dataLines|, i requires 0 <= i < |dataLines| => ValidateRow(dataLines[i], i + 2, catalog, p))
  }

  /** The messages of the rejected rows, in file order. */
  function RowErrors(outs: seq<RowOutcome>): seq<ImportError> {
    if |outs| == 0 then []
    else RowErrors(outs[..|outs| - 1]) + (if outs[|outs| - 1].Rejected? then [outs[|outs| - 1].error] else [])
  }

  /** The accepted rows, in file order. */
  function AcceptedRows(outs: seq<RowOutcome>): (rows: seq<ValidRow>)
    ensures forall v :: v in rows ==> Accepted(v) in outs
  {
    if |outs| == 0 then []
    else
      var front := outs[..|outs| - 1];
      assert forall o :: o in front ==> o in outs;
      AcceptedRows(front) + (if outs[|outs| - 1].Accepted? then [outs[|outs| - 1].row] else [])
  }

  /** Every data row is either reported or kept, never both. */
  lemma {:induction false} RowsPartitioned(outs: seq<RowOutcome>)
    ensures |RowErrors(outs)| + |AcceptedRows(outs)| == |outs|
  {
    if |outs| > 0 {
      RowsPartitioned(outs[..|outs| - 1]);
    }
  }

  /** Every kept row passed all checks. */
  lemma AcceptedRowsSound(dataLines: seq<seq<string>>, catalog: seq<CatalogEntry>, p: NumParsers)
    ensures forall v :: v in AcceptedRows(ValidateAll(dataLines, catalog, p)) ==> SoundRow(v, catalog)
  {
    var outs := ValidateAll(dataLines, catalog, p);
    forall v | v in AcceptedRows(outs)
      ensures SoundRow(v, catalog)
    {
      var i :| 0 <= i < |outs| && outs[i] == Accepted(v);
      assert ValidateRow(dataLines[i], i + 2, catalog, p).Accepted?;
    }
  }

  /** The key rows are grouped under: `${date}|${workoutName}`, exact. */
  function WorkoutKey(date: string, workoutName: string): string {
    date + "|" + workoutName
  }

  /** The key compared with the stored workouts: the name is lower-cased. */
  function DuplicateKey(date: string, workoutName: string): string {
    date + "|" + Lower(workoutName)
  }

  /** `${w.date}|${w.name.toLowerCase()}` of every stored workout. */
  function ExistingKeys(existing: seq<Workout>): (keys: seq<string>)
    ensures |keys| == |existing|
    ensures forall i :: 0 <= i < |existing| ==> keys[i] == DuplicateKey(existing[i].date, existing[i].name)
  {
    seq(|existing|, i requires 0 <= i < |existing| => DuplicateKey(existing[i].date, existing[i].name))
  }

  /** Joining with a bar cannot confuse two pairs when neither first part
      contains a bar, as is the case for every date that passed the ISO-date format check
      (import-export.ts:263). */
  lemma BarKeyInjective(d1: string, n1: string, d2: string, n2: string)
    requires '|' !in d1 && '|' !in d2
    ensures d1 + "|" + n1 == d2 + "|" + n2 <==> d1 == d2 && n1 == n2
  {
    var k1 := d1 + "|" + n1;
    var k2 := d2 + "|" + n2;
    if |d1| < |d2| {
      assert k1[|d1|] != k2[|d1|];
    } else if |d2| < |d1| {
      assert k2[|d2|] != k1[|d2|];
    } else if k1 == k2 {
      assert d1 == k1[..|d1|] && d2 == k2[..|d2|];
      assert n1 == k1[|d1| + 1..] && n2 == k2[|d2| + 1..];
    }
  }

  /** Workout keys of valid rows are injective. */
  lemma WorkoutKeyInjective(d1: string, n1: string, d2: string, n2: string)
    requires IsIsoDate(d1) && IsIsoDate(d2)
    ensures WorkoutKey(d1, n1) == WorkoutKey(d2, n2) <==> d1 == d2 && n1 == n2
  {
    IsoDateHasNoBar(d1);
    IsoDateHasNoBar(d2);
    BarKeyInjective(d1, n1, d2, n2);
  }
}
